=== FILE: README.md ===
# Clifton.Meaning in Dafny

Clifton.Meaning describes the *meaning* of data by contexts. A context
declares:

- which entities it holds, and how many of each;
- which relationships link one entity to another, with cardinalities and
  "or"/"and" alternative sources;
- which kinds are abstractions of which.

A context records entity instances and refuses any that would break a
declaration. A parser walks a context's declarations and produces the
groups and fields a front end renders. Each field carries the context path
by which it was reached. A context value dictionary stores the values typed
into those fields in a tree keyed by instance ids. It can answer "which
contexts hold these values?" and "which node holds this field for this
record?".

This project models that core as pure Dafny functions over immutable
datatypes. Its contracts and lemmas state the declarations' cardinality
semantics; when `Context.Add` accepts an entity, in terms of the entity
and relationship checks; which declarations the parser refuses and which
groups it lists; the invariants of the dictionary's tree; and what
searching and looking up values return. The unit tests of the library
appear as concrete scenario lemmas.

Modelling choices, in the system's own terms:

- **Types.** A .NET `Type` is a `Kind` (a name). What reflection answers
  about kinds is a `Registry`: which kinds are contexts, with their
  declarations, and which are value entities. The parser receives it as a
  parameter.
- **Identity.** Object identity of entities is an `EntityId`. The two
  `NullEntity` placeholders are distinct objects.
- **Guids.** A GUID is a natural number, and `Guid.Empty` is 0. The
  parser's fresh GUIDs come from a counter, because `Guid.NewGuid` is not
  observable.
- **Exceptions.** Every exception is an `Error` constructor inside a
  `Result`, so the error paths are part of each contract. This includes
  failed `Assert.That`s, `First()` on an empty sequence and null
  dereferences.
- **The tree.** The dictionary's tree is an arena (`Store`): nodes are
  indices. `flatKeys` keeps the order in which kinds first entered the flat
  view, which is the order `Dictionary.Values` enumerates them when nothing
  is removed.
- **Fuel.** Recursion that the library bounds only by the acyclicity of its
  data carries a fuel argument. The parser gets fuel from the caller; tree
  walks get the number of nodes.
- **Quirks.** The library's quirks are modelled as written. For example, the
  or-check counts siblings regardless of their related-to kind, and the
  and-check accepts an and-source kind for any relationship. Lemmas state
  what the checks really do.

Modules:

| module | file | content |
|---|---|---|
| `Common` | common.dfy | kinds, GUIDs, `Result`, LINQ `Where`/`Any` |
| `ContextEntities` | context_entity.dfy | `ContextEntity` |
| `EntityDeclarations` | entity_declaration.dfy | `EntityDeclaration` |
| `RelationshipDeclarations` | relationship_declaration.dfy | `RelationshipDeclaration` |
| `AbstractionDeclarations` | abstraction_declaration.dfy | `AbstractionDeclaration` |
| `Abstractions` | abstractions.dfy | the abstraction collection |
| `Relationships` | relationships.dfy | the relationship collection and its validation |
| `Contexts` | context.dfy | `Context` |
| `ContextValues` | context_value.dfy | `ContextValue` |
| `Fields` | fields.dfy | `ContextPath`, `Field`, `Group` |
| `Lookups` | lookup.dfy | `Lookup` |
| `ContextNodes` | context_node.dfy | `ContextNode` over the arena |
| `Parsing` | parser.dfy | `Parser` |
| `ValueDictionary` | value_dictionary.dfy | `ContextValueDictionary` |
| `ContextScenarios`, `ParserScenarios`, `DictionaryScenarios` | *_scenarios.dfy | the unit tests as lemmas |

## Model

| member | source | states |
|---|---|---|
| `ContextEntities.CreateRoot` | Clifton.Meaning/ContextEntity.cs:73-76 | a root entry relates the entity to the shared `NullRelatedEntity` placeholder by the null relationship |
| `ContextEntities.CreateRelated` | Clifton.Meaning/ContextEntity.cs:81-94 | a related entry records the entity, the object it is related to and the relationship kind, unchanged |
| `ContextEntities.NullPlaceholdersAreDistinctObjects` | Clifton.Meaning/ContextEntity.cs:32-64 | `NullEntity.Instance` and `ContextEntity.NullRelatedEntity` are two different objects of the same `NullEntity` kind |
| `ContextEntities.CountOfKindIsNumberOfIndices` | Clifton.Meaning/EntityDeclaration.cs:99-105 | the count a declaration compares is the number of positions whose concrete entity has exactly the declared runtime type |
| `ContextEntities.CountOfKindAppend` | Clifton.Meaning/EntityDeclaration.cs:99-105 | appending an entity raises the count of its own kind by one and leaves every other kind's count unchanged |
| `EntityDeclarations.Create` | Clifton.Meaning/EntityDeclaration.cs:41-44 | a new declaration for a kind admits any count from 0 to `int.MaxValue` and keeps the label |
| `EntityDeclarations.OneOrMore` | Clifton.Meaning/EntityDeclaration.cs:46-51 | sets the lower bound to 1; upper bound, kind and label are kept |
| `EntityDeclarations.ZeroOrOne` | Clifton.Meaning/EntityDeclaration.cs:53-59 | bounds become 0..1; kind and label are kept |
| `EntityDeclarations.ZeroOrMore` | Clifton.Meaning/EntityDeclaration.cs:61-67 | bounds become 0..`int.MaxValue`; kind and label are kept |
| `EntityDeclarations.OneAndOnlyOne` | Clifton.Meaning/EntityDeclaration.cs:69-75 | bounds become 1..1; kind and label are kept |
| `EntityDeclarations.Exactly` | Clifton.Meaning/EntityDeclaration.cs:77-83 | bounds become n..n; kind and label are kept |
| `EntityDeclarations.Min` | Clifton.Meaning/EntityDeclaration.cs:85-90 | only the lower bound changes |
| `EntityDeclarations.Max` | Clifton.Meaning/EntityDeclaration.cs:92-97 | only the upper bound changes |
| `EntityDeclarations.Apply` | Clifton.Meaning/EntityDeclaration.cs:46-97 | no chain of fluent cardinality calls changes the declared kind or label, so a chain cannot break the uniqueness of declarations |
| `EntityDeclarations.ApplyAppend` | Clifton.Meaning/EntityDeclaration.cs:46-97 | each fluent call returns the declaration it changed, so a chain is its calls applied one after another: `a` then `b` is `a + b` |
| `EntityDeclarations.ApplySingle` | Clifton.Meaning/EntityDeclaration.cs:46-97 | a chain of one call is that call |
| `EntityDeclarations.ValidateCountsOnlyItsKind` | Clifton.Meaning/EntityDeclaration.cs:99-105 | `Validate` holds iff the number of entities of the declared kind lies within the bounds, whatever else the list holds |
| `EntityDeclarations.ValidateIgnoresOtherKinds` | Clifton.Meaning/EntityDeclaration.cs:99-105 | adding an entity of another kind never changes a declaration's verdict |
| `EntityDeclarations.MinMaxAcceptsRange` | Clifton.Meaning/EntityDeclaration.cs:85-105 | `Min(a).Max(b)` accepts exactly the counts a..b |
| `EntityDeclarations.ExactlyIsMinMax` | Clifton.Meaning/EntityDeclaration.cs:77-97 | `Exactly(n)` is the same declaration as `Min(n).Max(n)` |
| `EntityDeclarations.ExactlyTwoExample` | MeaningExplorer/ContextUnitTests/ContextTests.cs:190-211 | `Exactly(2)` rejects 0, 1 and 3 employees and accepts 2 |
| `EntityDeclarations.RangeExample` | MeaningExplorer/ContextUnitTests/ContextTests.cs:213-242 | `Min(2).Max(4)` accepts 2 to 4 employees and rejects 0, 1 and 5 |
| `EntityDeclarations.OneOrMoreExample` | MeaningExplorer/ContextUnitTests/ContextTests.cs:177-188 | `OneOrMore` rejects no employee and accepts one or two |
| `AbstractionDeclarations.Create` | Clifton.Meaning/AbstractionDeclaration.cs:35-40 | a new abstraction of a sub kind by a super kind is not coalesced |
| `AbstractionDeclarations.Coalesce` | Clifton.Meaning/AbstractionDeclaration.cs:42-47 | sets the coalesce flag and nothing else |
| `AbstractionDeclarations.CoalesceIdempotent` | Clifton.Meaning/AbstractionDeclaration.cs:42-47 | coalescing twice is coalescing once |
| `Abstractions.Add` | Clifton.Meaning/Abstractions.cs:34-42 | appends a fresh, uncoalesced declaration of the pair and returns it |
| `Abstractions.Exists` | Clifton.Meaning/Abstractions.cs:44-49 | true iff some declaration has exactly this sub/super pair |
| `Abstractions.GetAbstractions` | Clifton.Meaning/Abstractions.cs:56-59 | exactly the declarations whose sub kind is the given kind |
| `Abstractions.GetImplementations` | Clifton.Meaning/Abstractions.cs:69-72 | exactly the declarations whose super kind is the given kind |
| `Abstractions.AddThenExists` | Clifton.Meaning/Abstractions.cs:34-49 | after `Add` the pair exists, every pair that existed still exists, and no other pair appears |
| `Abstractions.AddExtendsViews` | Clifton.Meaning/Abstractions.cs:34-80 | after `Add`, both views of a kind are the old views, plus the new declaration at the end when it concerns that kind |
| `RelationshipDeclarations.Create` | Clifton.Meaning/RelationshipDeclaration.cs:72-94 | a new declaration has the given relationship, target and source kinds, no alternative sources, bounds 0..`int.MaxValue` and no flags |
| `RelationshipDeclarations.NullRelationship` | Clifton.Meaning/RelationshipDeclaration.cs:35-41 | the marker declaration has the null relationship kind, no target, no source and no label |
| `RelationshipDeclarations.AllSourceTypes` | Clifton.Meaning/RelationshipDeclaration.cs:55-67 | the primary source first, then the or-sources, then the and-sources, each in declaration order |
| `RelationshipDeclarations.Coalesce` | Clifton.Meaning/RelationshipDeclaration.cs:96-101 | only the coalesce flag changes |
| `RelationshipDeclarations.AsGrid` | Clifton.Meaning/RelationshipDeclaration.cs:170-175 | only the grid flag changes |
| `RelationshipDeclarations.OneOrMore` | Clifton.Meaning/RelationshipDeclaration.cs:103-108 | only the lower bound changes, to 1 |
| `RelationshipDeclarations.ZeroOrOne` | Clifton.Meaning/RelationshipDeclaration.cs:110-116 | only the bounds change, to 0..1 |
| `RelationshipDeclarations.ZeroOrMore` | Clifton.Meaning/RelationshipDeclaration.cs:118-124 | only the bounds change, to 0..`int.MaxValue` |
| `RelationshipDeclarations.OneAndOnlyOne` | Clifton.Meaning/RelationshipDeclaration.cs:126-132 | only the bounds change, to 1..1 |
| `RelationshipDeclarations.Exactly` | Clifton.Meaning/RelationshipDeclaration.cs:134-140 | only the bounds change, to n..n |
| `RelationshipDeclarations.Min` | Clifton.Meaning/RelationshipDeclaration.cs:142-147 | only the lower bound changes |
| `RelationshipDeclarations.Max` | Clifton.Meaning/RelationshipDeclaration.cs:149-154 | only the upper bound changes |
| `RelationshipDeclarations.Or` | Clifton.Meaning/RelationshipDeclaration.cs:156-161 | appends to the or-sources only; duplicates are kept |
| `RelationshipDeclarations.And` | Clifton.Meaning/RelationshipDeclaration.cs:163-168 | appends to the and-sources only; duplicates are kept |
| `RelationshipDeclarations.Apply` | Clifton.Meaning/RelationshipDeclaration.cs:96-175 | no chain of fluent calls changes the relationship, target or source kind, or the label, so a chain cannot break uniqueness |
| `RelationshipDeclarations.ApplyAppend` | Clifton.Meaning/RelationshipDeclaration.cs:96-175 | each fluent call returns the declaration it changed, so a chain is its calls applied one after another: `a` then `b` is `a + b` |
| `RelationshipDeclarations.ApplySingle` | Clifton.Meaning/RelationshipDeclaration.cs:96-175 | a chain of one call is that call |
| `RelationshipDeclarations.OrAndSourceOrder` | Clifton.Meaning/RelationshipDeclaration.cs:55-67 | an or-source added after an and-source still comes before every and-source in `AllSourceTypes` |
| `RelationshipDeclarations.ExactlyIsMinMax` | Clifton.Meaning/RelationshipDeclaration.cs:126-154 | `Exactly(n)` is `Min(n).Max(n)` and `OneAndOnlyOne` is `Exactly(1)` |
| `RelationshipDeclarations.FlagsIndependentOfBounds` | Clifton.Meaning/RelationshipDeclaration.cs:96-175 | the flag setters commute with the bound setters and leave the source list alone |
| `Relationships.Count` | Clifton.Meaning/Relationships.cs:36 | zero exactly when nothing is declared |
| `Relationships.Add` | Clifton.Meaning/Relationships.cs:41-50 | appends one declaration with the given triple and label, and keeps every earlier one; the appended declaration is the fresh one with the caller's builder chain applied |
| `Relationships.ExistsTriple` | Clifton.Meaning/Relationships.cs:66-76 | true iff some declaration has exactly this relationship, target and source |
| `Relationships.ExistsFor` | Clifton.Meaning/Relationships.cs:78-89 | true iff some declaration of the relationship has the target's kind and names the source's kind as primary or or-source, or some declaration of any relationship names it as an and-source |
| `Relationships.ChecksFor` | Clifton.Meaning/Relationships.cs:97-101 | exactly the declarations `Validate<R>` compares: the relationship and target kind match and the source kind is primary or an or-source |
| `Relationships.ValidateFor` | Clifton.Meaning/Relationships.cs:91-124 | passes iff every checked declaration admits the count of the target's instances of the relationship whose related kind it names; a failure reports the first checked declaration that does not, with its minimum and count |
| `Relationships.OrChecks` | Clifton.Meaning/Relationships.cs:142-146 | exactly the declarations the or-check examines for an entry |
| `Relationships.ValidateOr` | Clifton.Meaning/Relationships.cs:138-168 | passes iff every examined declaration admits its count |
| `Relationships.AndChecks` | Clifton.Meaning/Relationships.cs:175-182 | exactly the declarations the and-check examines for an entry |
| `Relationships.ValidateAnd` | Clifton.Meaning/Relationships.cs:170-203 | passes iff every examined declaration with and-sources sees exactly one entry per required source |
| `Relationships.Validate` | Clifton.Meaning/Relationships.cs:126-136 | the and-check runs only after the or-check passed, and both must pass |
| `Relationships.ValidateLoop` | Clifton.Meaning/Relationships.cs:103-123 | the `foreach … break` loop passes iff every declaration admits its count, and otherwise stops at the first one that does not |
| `Relationships.FirstOutOfRangeUnique` | Clifton.Meaning/Relationships.cs:103-123 | the declaration the loop stops at is unique: at most one position is out of range with every earlier one in range |
| `Relationships.Required` | Clifton.Meaning/Relationships.cs:184-185 | the required sources of an and-declaration are its primary source and its and-sources |
| `Relationships.CountForAppend` | Clifton.Meaning/Relationships.cs:108-113 | an appended entry adds one to a declaration's count exactly when it is an instance of the relationship from the target to a kind the declaration names |
| `Relationships.SiblingsAppend` | Clifton.Meaning/Relationships.cs:153-156 | an appended entry is a new sibling exactly when it shares the relationship and the concrete object |
| `Relationships.OrCountIgnoresRelatedTo` | Clifton.Meaning/Relationships.cs:153-156 | the or-check counts every sibling entry, whatever its related-to kind |
| `Relationships.AndCountIsSiblingsOrZero` | Clifton.Meaning/Relationships.cs:187-190 | the and-check counts all siblings when the entry's related kind is required, and nothing otherwise |
| `Relationships.AndSourceAdmitsAnyRelationship` | Clifton.Meaning/Relationships.cs:78-89 | an and-source of one declaration is accepted as the source of any relationship to any target |
| `Relationships.AddThenExistsTriple` | Clifton.Meaning/Relationships.cs:41-76 | after `Add` the triple exists and every triple that existed still exists |
| `Contexts.NewContext` | Clifton.Meaning/Context.cs:90-96 | a new context declares nothing and holds nothing |
| `Contexts.Declare` | Clifton.Meaning/Context.cs:98-105 | refuses a kind already declared (`DeclarationViolationException`); otherwise appends exactly one declaration, the fresh declaration of that kind and label with the caller's builder chain applied, and nothing else changes |
| `Contexts.DeclareRelationship` | Clifton.Meaning/Context.cs:107-116 | refuses a triple already declared; otherwise only the relationship list changes, the triple then exists, and the appended declaration is the fresh one with the caller's builder chain applied |
| `Contexts.RelationshipRequired` | Clifton.Meaning/Context.cs:118-121 | declares the null relationship from the kind to `NullEntity` with at most zero instances, appended after the earlier declarations with nothing else in the context changed; a second call is refused with `RelationshipDeclarationException` as a duplicate declaration |
| `Contexts.AddAbstraction` | Clifton.Meaning/Context.cs:184-192 | refuses a pair already declared (`AbstractionException`); otherwise only the abstraction list changes, gaining one declaration with the pair, the label and the coalesce flag asked for |
| `Contexts.LookupRenderer` | Clifton.Meaning/Context.cs:137-154 | installs a lookup whose components are the given first one followed by the rest, in order; nothing else changes |
| `Contexts.CheckDeclaration` | Clifton.Meaning/Context.cs:269-296 | with declarations, passes iff some declaration of the entity's kind admits the new count; a kind no declaration names is refused |
| `Contexts.CheckRelationship` | Clifton.Meaning/Context.cs:298-324 | always passes when no relationship is declared; otherwise passes exactly when every checked declaration admits its count or the first one that does not is still below its minimum, and fails with `RelationshipDeclarationException` otherwise |
| `Contexts.CheckRelationshipMeaning` | Clifton.Meaning/Context.cs:298-324 | the check fails exactly when relationships are declared and the first checked declaration out of range has reached its minimum, hence exceeds its maximum |
| `Contexts.Record` | Clifton.Meaning/Context.cs:126-166 | accepts exactly when the entity check admits the new count and, with relationships declared, the relationship check admits the appended entry; an entity refusal is `DeclarationViolationException`, a relationship refusal after an admitted entity is `RelationshipDeclarationException`; on success only the entry is appended, on failure the list is as it was |
| `Contexts.Add` | Clifton.Meaning/Context.cs:126-132 | a root entity is recorded related to `NullEntity.Instance`; accepted exactly when the entity check and, with relationships declared, the relationship check of the null relationship admit it; an undeclared kind is refused; with nothing declared it is always accepted |
| `Contexts.AddRelated` | Clifton.Meaning/Context.cs:159-166 | with relationships declared, a pair no declaration admits is refused before anything is recorded; otherwise accepted exactly when the entity and relationship checks admit the appended entry, as `Add`; an entity refusal is `DeclarationViolationException`, and a relationship refusal of an admitted entity is `RelationshipDeclarationException` |
| `Contexts.IsValid` | Clifton.Meaning/Context.cs:53-86 | holds iff every entity declaration holds and every related entry passes the relationship checks |
| `Contexts.Get` | Clifton.Meaning/Context.cs:171-174 | exactly the entries of that concrete kind, as many as the declarations count |
| `Contexts.GetByEntity` | Clifton.Meaning/Context.cs:179-182 | exactly the entries whose concrete object is that object |
| `Contexts.UndeclaredNotAdmitted` | Clifton.Meaning/Context.cs:269-296 | an undeclared kind is admitted at no count |
| `Contexts.OperationsPreserveWellDeclared` | Clifton.Meaning/Context.cs:326-353 | every successful declare, add-abstraction and add keeps kinds, triples and abstraction pairs unique |
| `Contexts.NewContextWellDeclared` | Clifton.Meaning/Context.cs:326-343 | a new context is well declared |
| `Contexts.DeclarePreservesWellDeclared` | Clifton.Meaning/Context.cs:326-332 | a successful `Declare` keeps declared kinds unique |
| `Contexts.DeclareRelationshipPreservesWellDeclared` | Clifton.Meaning/Context.cs:334-343 | a successful relationship declaration keeps triples unique |
| `Contexts.AddAbstractionPreservesWellDeclared` | Clifton.Meaning/Context.cs:345-353 | a successful abstraction declaration keeps pairs unique |
| `Contexts.GetCountsKind` | Clifton.Meaning/Context.cs:171-174 | the entities `Get` filters are as many as the declaration check counts |
| `ContextScenarios.UndoEntityAdd` | MeaningExplorer/ContextUnitTests/ContextTests.cs:276-304 | with `Exactly(2)` employees, one employee leaves the context invalid, two make it valid, and a third is refused, so the valid two-employee context stays as it was |
| `ContextScenarios.MustBeInRelationship` | MeaningExplorer/ContextUnitTests/ContextTests.cs:306-316 | once an employee must be in a relationship, adding one as a root is a relationship violation |
| `ContextScenarios.OptionalRelationship` | MeaningExplorer/ContextUnitTests/ContextTests.cs:318-346 | with optional supervisors and one employee, the context is invalid without it, valid with it, and refuses a second |
| `ContextScenarios.OnlyOneOr` | MeaningExplorer/ContextUnitTests/ContextTests.cs:366-374 | under one-and-only-one with an or-source, a person beneficiary is accepted and a second, non-profit one is refused |
| `ContextScenarios.AddEitherBeneficiary` | MeaningExplorer/ContextUnitTests/ContextTests.cs:348-364 | a person or a non-profit may be added as a beneficiary of an employee |
| `ContextScenarios.BeneficiaryVerdict` | Clifton.Meaning/Relationships.cs:126-203 | under an and-declaration, a beneficiary entry passes iff the employee has exactly two beneficiary entries |
| `ContextScenarios.BeneficiariesValid` | MeaningExplorer/ContextUnitTests/ContextTests.cs:379-408 | the context is valid with both a person and a non-profit beneficiary, and invalid with only one of them |
| `ContextScenarios.AndRelationship` | MeaningExplorer/ContextUnitTests/ContextTests.cs:379-408 | both adds succeed as the tests perform them; the context is valid only once both are in |
| `ContextScenarios.WrongRelationship` | MeaningExplorer/ContextUnitTests/ContextTests.cs:410-432 | a wrong target, a wrong source or a wrong relationship is refused |
| `ContextScenarios.AddSupervisor` | MeaningExplorer/ContextUnitTests/ContextTests.cs:434-461 | with between one and two supervisors declared, the next supervisor is accepted while the employee has fewer than two and refused at the third |
| `ContextScenarios.SupervisorsValid` | MeaningExplorer/ContextUnitTests/ContextTests.cs:434-461 | one or two supervisor entries make the context valid |
| `ContextScenarios.UndoRelationshipConstraint` | MeaningExplorer/ContextUnitTests/ContextTests.cs:434-461 | two supervisors are accepted one at a time, each state is valid, and the third is refused |
| `ContextValues.TypeOf` | Clifton.Meaning/ContextValue.cs:39 | the kind of a value is the last kind of its type path; an empty path has none |
| `ContextValues.WithRecordNumber` | Clifton.Meaning/ContextValue.cs:38 | the public setter changes the record number only |
| `ContextValues.NewContextValue` | Clifton.Meaning/ContextValue.cs:47-54 | the instance id is the last id of the instance path, and an empty path is refused |
| `Fields.Kinds` | Clifton.Meaning/Field.cs:54-57 | the kinds along a context path, position by position |
| `Fields.GetTypePath` | Clifton.Meaning/Field.cs:54-57 | a field's type path is its context path's kinds, in order |
| `Fields.CreateValue` | Clifton.Meaning/Field.cs:49-52 | a value created from a field keeps the text and instance path, has record 0 and the field's type path |
| `Fields.CreateValueTypeMatchesField` | Clifton.Meaning/Field.cs:49-57 | the value's kind is the last kind of the field's path |
| `Fields.NewGroup` | Clifton.Meaning/Group.cs:45-51 | a new group has no fields and copies the current path |
| `Fields.AddField` | Clifton.Meaning/Group.cs:53-59 | appends one field at the current path and returns it |
| `Lookups.SingleOrDefault` | Clifton.Meaning/Lookup.cs:68 | finds the single value of the kind and record, none when there is none, and fails when there are two |
| `Lookups.RenderComponent` | Clifton.Meaning/Lookup.cs:51-77 | a text renders as itself; a value kind renders the selected value's text, or nothing when none is selected |
| `Lookups.AddText` | Clifton.Meaning/Lookup.cs:84-89 | appends one text component |
| `Lookups.AddValue` | Clifton.Meaning/Lookup.cs:91-96 | appends one value component |
| `Lookups.Render` | Clifton.Meaning/Lookup.cs:114-124 | an empty lookup renders as the empty string |
| `Lookups.GetLookupEntities` | Clifton.Meaning/Lookup.cs:126-129 | exactly the value kinds among the components, no more than there are components |
| `Lookups.ValueKinds` | Clifton.Meaning/Lookup.cs:126-129 | exactly the value kinds among the components, no more than there are components |
| `Lookups.ValueKindsAppend` | Clifton.Meaning/Lookup.cs:126-129 | the value kinds of a concatenation are those of the first part followed by those of the second, so they keep component order |
| `Lookups.ValueKindsOne` | Clifton.Meaning/Lookup.cs:126-129 | a value component contributes its kind, a text component nothing |
| `Lookups.AddExtendsEntities` | Clifton.Meaning/Lookup.cs:84-129 | adding a value kind appends it to `GetLookupEntities()`; adding a text leaves it unchanged |
| `Lookups.RenderAppend` | Clifton.Meaning/Lookup.cs:114-124 | rendering is compositional: an appended component appends its own rendering and fails only if it fails |
| `Lookups.AddExtendsRendering` | Clifton.Meaning/Lookup.cs:84-124 | adding a text appends that text to the rendering; adding a value kind appends that value |
| `Lookups.RenderExample` | Clifton.Meaning/Lookup.cs:84-124 | "Name: " followed by a name kind renders the record's name after the prefix |
| `ContextNodes.NewStore` | Clifton.Meaning/ContextNode.cs:49-61 | an empty dictionary holds only the root: empty id, no kind, no parent, no children |
| `ContextNodes.AddChild` | Clifton.Meaning/ContextNode.cs:63-67 | the child is appended to the parent's children and its parent link is set; no other link changes |
| `ContextNodes.LatestAttacherWins` | Clifton.Meaning/ContextNode.cs:63-67 | attaching a node under a second parent moves its parent link to that parent, while every node that already listed it as a child still does |
| `ContextNodes.HasChild` | Clifton.Meaning/ContextNode.cs:69-72 | true iff some child has the id |
| `ContextNodes.SingleChildWithId` | Clifton.Meaning/ContextValueDictionary.cs:252-255 | the child with the id when exactly one child has it, none otherwise |
| `ContextNodes.UniqueIdIsSingle` | Clifton.Meaning/ContextValueDictionary.cs:252-255 | under unique child ids, any child is the single child with its id |
| `ContextNodes.NoneMeansAbsent` | Clifton.Meaning/ContextValueDictionary.cs:252-255 | under unique child ids, no single child with an id means no child has it |
| `ContextNodes.Chain` | Clifton.Meaning/ContextNode.cs:77-90 | the nodes from the topmost ancestor down to the node, each the parent of the next |
| `ContextNodes.GetParentInstancePath` | Clifton.Meaning/ContextNode.cs:77-90 | the ids from below the root down to the node itself |
| `ContextNodes.ChildInstancePaths` | Clifton.Meaning/ContextNode.cs:95-122 | the returned paths are exactly the downward walks from the node to a leaf, each starting with the node's id; a leaf has just its own id |
| `ContextNodes.WalkChildren` | Clifton.Meaning/ContextNode.cs:106-122 | every returned path is a walk from one of the children, and every walk from any of them is returned |
| `ContextNodes.WalkChildrenAppend` | Clifton.Meaning/ContextNode.cs:106-122 | the walks below a list of nodes are those below its first part followed by those below the rest, so walks come out depth first in child order |
| `ValueDictionary.SetValue` | Clifton.Meaning/ContextValueDictionary.cs:299 | only the value of that node changes |
| `ValueDictionary.SlotClash` | Clifton.Meaning/ContextValueDictionary.cs:305-309 | no clash iff every existing child of the kind holds a value of another record; a duplicate names a child of the same kind and record |
| `ValueDictionary.AttachNew` | Clifton.Meaning/ContextValueDictionary.cs:311-312 | a new valueless node of the kind and id is appended as the last child of the node; every other node and the flat view are unchanged, and child ids stay unique when the id is new under that node |
| `ValueDictionary.IndexNode` | Clifton.Meaning/ContextValueDictionary.cs:314-320 | the node is appended to its kind's list in the flat view, which is created (and its kind recorded as a new key) when absent; the nodes are unchanged |
| `ValueDictionary.CreateNode` | Clifton.Meaning/ContextValueDictionary.cs:303-323 | refuses a second value of the same kind and record at the last path entry; otherwise a new node is attached last under the node, listed under its kind, and the tree only grows |
| `ValueDictionary.FindShared` | Clifton.Meaning/ContextValueDictionary.cs:259-283 | returns the first candidate one of whose downward walks is exactly the rest of the instance path, and none only when no candidate has such a walk |
| `ValueDictionary.AddFrom` | Clifton.Meaning/ContextValueDictionary.cs:245-299 | the walk only grows the tree, and on success the node it reaches holds the value |
| `ValueDictionary.AddFromMissing` | Clifton.Meaning/ContextValueDictionary.cs:256-294 | the step without a matching child: the tree only grows, and a successful walk puts the value on the node it ends at |
| `ValueDictionary.AddFromMissingShares` | Clifton.Meaning/ContextValueDictionary.cs:259-283 | when a flat-view node of the next kind has the rest of the instance path as a walk, the first such node is attached under the current node, no node is created, and the walk goes on from it |
| `ValueDictionary.AddFromMissingCreates` | Clifton.Meaning/ContextValueDictionary.cs:283-293 | when no flat-view node of the next kind has that walk, a node is created (one more node) and the walk goes on from it, or the creation's slot clash is the error |
| `ValueDictionary.AddOrUpdate` | Clifton.Meaning/ContextValueDictionary.cs:234-301 | paths of different lengths fail the assertion and change nothing; otherwise the tree only grows and on success a node holds the value |
| `ValueDictionary.AddFromExisting` | Clifton.Meaning/ContextValueDictionary.cs:247-255 | when every id already names a child, nothing is created: only the value of the node reached changes |
| `ValueDictionary.AddFromReaches` | Clifton.Meaning/ContextValueDictionary.cs:234-301 | a successful insertion keeps child ids unique and leaves the instance path followable from the root to the node holding the value |
| `ValueDictionary.AddOrUpdateIdempotent` | Clifton.Meaning/ContextValueDictionary.cs:234-301 | inserting the same value again changes nothing |
| `ValueDictionary.ParentKind` | Clifton.Meaning/ContextValueDictionary.cs:346 | the field-parent kind is the second-to-last kind of the type path; a shorter path has none |
| `ValueDictionary.SharedParentKind` | Clifton.Meaning/ContextValueDictionary.cs:346-351 | all searched values must share one field-parent kind, otherwise the search fails |
| `ValueDictionary.MatchSlot` | Clifton.Meaning/ContextValueDictionary.cs:374-376 | the single child of the value's kind and record has the same text; none fails the assertion and two fail `SingleOrDefault` |
| `ValueDictionary.MatchRecord` | Clifton.Meaning/ContextValueDictionary.cs:371-382 | one record matches iff every searched value agrees with its slot |
| `ValueDictionary.MatchRecordErrCause` | Clifton.Meaning/ContextValueDictionary.cs:374-375 | a failed comparison names a searched value with no holder or several holders for the record |
| `ValueDictionary.Distinct` | Clifton.Meaning/ContextValueDictionary.cs:367 | the record numbers without repeats, keeping each one that occurs |
| `ValueDictionary.MatchRecords` | Clifton.Meaning/ContextValueDictionary.cs:369-388 | the node once per matching record among those tried |
| `ValueDictionary.MatchNode` | Clifton.Meaning/ContextValueDictionary.cs:362-388 | a node is listed iff some record of its children agrees with every searched value, once per distinct matching record; a child without a value fails |
| `ValueDictionary.DistinctRecordsMatch` | Clifton.Meaning/ContextValueDictionary.cs:367-369 | trying the distinct record numbers covers exactly the records the children hold |
| `ValueDictionary.DirectMatches` | Clifton.Meaning/ContextValueDictionary.cs:359-390 | the candidates of the parent kind listed are exactly the matching ones |
| `ValueDictionary.DirectMatchesErrCause` | Clifton.Meaning/ContextValueDictionary.cs:359-390 | a failing scan fails with the error of a candidate whose matching failed |
| `ValueDictionary.AnyRootedAt` | Clifton.Meaning/ContextValueDictionary.cs:420 | true iff some current match's parent path starts at the id |
| `ValueDictionary.ScanPaths` | Clifton.Meaning/ContextValueDictionary.cs:410-426 | only appends the top-level context, and only when one of its walks meets the match |
| `ValueDictionary.ScanPathsSeen` | Clifton.Meaning/ContextValueDictionary.cs:420-424 | once a match already starts at that root, nothing is appended |
| `ValueDictionary.ScanKinds` | Clifton.Meaning/ContextValueDictionary.cs:408-427 | scanning the kinds only appends top-level contexts referencing the match |
| `ValueDictionary.Propagate` | Clifton.Meaning/ContextValueDictionary.cs:397-429 | propagation keeps every direct match and only appends top-level contexts one of whose walks meets a match |
| `ValueDictionary.PropagateFixed` | Clifton.Meaning/ContextValueDictionary.cs:397-429 | when no scan adds anything, propagation returns the matches unchanged |
| `ValueDictionary.IdSet` | Clifton.Meaning/ContextValueDictionary.cs:403-417 | the ids of exactly the given nodes |
| `ValueDictionary.Wanted` | Clifton.Meaning/ContextValueDictionary.cs:357-390 | exactly the nodes of the parent kind whose children agree with every searched value |
| `ValueDictionary.Search` | Clifton.Meaning/ContextValueDictionary.cs:335-395 | no values, paths of different lengths or different field parents fail; a result holds every wanted node and otherwise only top-level contexts referencing one |
| `ValueDictionary.SearchFrom` | Clifton.Meaning/ContextValueDictionary.cs:357-392 | direct matches then propagation yield a search result |
| `ValueDictionary.DirectOf` | Clifton.Meaning/ContextValueDictionary.cs:357-390 | the direct matches are exactly the wanted nodes; none when the kind was never indexed |
| `ValueDictionary.SearchOne` | Clifton.Meaning/ContextValueDictionary.cs:342-352 | a single value with a field parent passes the checks and searches under that parent's kind |
| `ValueDictionary.SearchMeaning` | Clifton.Meaning/ContextValueDictionary.cs:335-429 | direct matches plus propagated contexts are exactly what the search promises |
| `ValueDictionary.GetContextNodes` | Clifton.Meaning/ContextValueDictionary.cs:131-141 | the listed nodes of the kind, all of that kind; none for an unindexed kind |
| `ValueDictionary.InsertedNodesAreListed` | Clifton.Meaning/ContextValueDictionary.cs:131-141 | every node an insertion creates can be found again by its kind |
| `ValueDictionary.ValuesBelow` | Clifton.Meaning/ContextValueDictionary.cs:143-162 | every value collected is held by some node of the store |
| `ValueDictionary.GetContextValues` | Clifton.Meaning/ContextValueDictionary.cs:143-162 | every value collected is held by some node of the store |
| `ValueDictionary.GetContextValuesMembers` | Clifton.Meaning/ContextValueDictionary.cs:143-162 | a value is collected exactly when some proper descendant of the node holds it |
| `ValueDictionary.ValuesBelowSound` | Clifton.Meaning/ContextValueDictionary.cs:151-162 | every value collected below a list of nodes is held by one of them or a node below them |
| `ValueDictionary.ValuesBelowComplete` | Clifton.Meaning/ContextValueDictionary.cs:151-162 | every value held by one of the nodes or a node below them is collected |
| `ValueDictionary.ValuesBelowAppend` | Clifton.Meaning/ContextValueDictionary.cs:151-162 | the values below a list of nodes are those below its first part followed by those below the rest |
| `ValueDictionary.ValuesBelowOne` | Clifton.Meaning/ContextValueDictionary.cs:151-162 | post-order: the values below one node are everything below its children, then its own value |
| `ValueDictionary.LeafValues` | Clifton.Meaning/ContextValueDictionary.cs:143-162 | under children that are all leaves, the values are theirs, in child order |
| `ValueDictionary.UpPath` | Clifton.Meaning/ContextValueDictionary.cs:167-190 | the climb from a node to its topmost context below the root, each node the parent of the next |
| `ValueDictionary.GetPath` | Clifton.Meaning/ContextValueDictionary.cs:167-190 | one kind/id step per node of the climb, named after the topmost context |
| `ValueDictionary.UpPathIsChain` | Clifton.Meaning/ContextValueDictionary.cs:167-190 | when only the root has the empty id, the climb is the parent chain without the root |
| `ValueDictionary.GetPathIds` | Clifton.Meaning/ContextNode.cs:77-90 | the ids along `GetPath` are the node's parent instance path |
| `ValueDictionary.FollowAppend` | Clifton.Meaning/ContextValueDictionary.cs:247-255 | following a concatenation of ids is following the first part, then the rest |
| `ValueDictionary.ChildrenOfKind` | Clifton.Meaning/ContextValueDictionary.cs:202 | exactly the children of the kind |
| `ValueDictionary.DescendByKind` | Clifton.Meaning/ContextValueDictionary.cs:200-208 | descends by the field path's kinds, one single child per step, recording the ids followed |
| `ValueDictionary.DescendByKindMeaning` | Clifton.Meaning/ContextValueDictionary.cs:200-208 | a node the descent reaches is reached by stepping to children of the path's kinds; when it reaches none, some node so reached has no child of the next kind |
| `ValueDictionary.DescendByKindReaches` | Clifton.Meaning/ContextValueDictionary.cs:200-208 | the node a descent ends at is reached from its start by one child of each remaining position's kind |
| `ValueDictionary.DescendByKindStops` | Clifton.Meaning/ContextValueDictionary.cs:200-208 | a descent that ends without a node stopped at a node, reached by the path's kinds, that has no child of the next kind |
| `ValueDictionary.FieldHolder` | Clifton.Meaning/ContextValueDictionary.cs:210-219 | the single child of the field's kind holding the record; none when no child holds it |
| `ValueDictionary.TryGetContextNode` | Clifton.Meaning/ContextValueDictionary.cs:192-224 | a found node has the field's kind and the record, and the returned ids lead from the root to it; a missing or repeated root id fails; with an empty context path the lookup is `false` when the top-level context has no children and fails on the last-kind index otherwise, because the index is read only inside the filter |
| `ValueDictionary.TryGetContextNodeFound` | Clifton.Meaning/ContextValueDictionary.cs:192-224 | a found node is a child of the field's kind under a node reached from the top-level context by the path's kinds |
| `ValueDictionary.TryGetContextNodeNotFound` | Clifton.Meaning/ContextValueDictionary.cs:192-224 | `NotFound` means the descent stopped at a node with no child of the next kind, or reached a node none of whose children of the field's kind holds the record, or the context path is empty and the top-level context has no children |
| `ValueDictionary.NotFoundOnPathHolds` | Clifton.Meaning/ContextValueDictionary.cs:200-223 | a descent along a non-empty path that reaches no node, or reaches one with no holder of the record, is one of the two ways of finding nothing |
| `ValueDictionary.FieldHolderNone` | Clifton.Meaning/ContextValueDictionary.cs:210-219 | when no holder is found, every child of the kind holds a value of another record |
| `ValueDictionary.TryGetFollows` | Clifton.Meaning/ContextValueDictionary.cs:192-224 | the ids `TryGetContextNode` returns lead from the root to the node it returns |
| `ValueDictionary.GetRootType` | Clifton.Meaning/ContextValueDictionary.cs:226-232 | the kind of the single top-level context with the id; no such context or two fail |
| `ValueDictionary.GetRootTypeIffChild` | Clifton.Meaning/ContextValueDictionary.cs:226-232 | with unique child ids, the root type can be read iff the root has a child with the id |
| `DictionaryScenarios.FirstValue` | Clifton.Meaning/ContextValueDictionary.cs:234-301 | the first value creates the form node under the root and the name node under it, and the name node holds the value |
| `DictionaryScenarios.SecondValueSameRecordRefused` | MeaningExplorer/ContextUnitTests/ContextValueTests.cs:177-187 | a second value for the same field and record under the same form is refused |
| `DictionaryScenarios.SecondRecordStored` | Clifton.Meaning/ContextValueDictionary.cs:303-323 | the same text for another record of the same form goes into a new node |
| `DictionaryScenarios.LookupByField` | Clifton.Meaning/ContextValueDictionary.cs:192-224 | the name field of the form is found for its record, not found for another record, and an unknown root id fails |
| `DictionaryScenarios.LookupNameRecord` | Clifton.Meaning/ContextValueDictionary.cs:210-223 | under the filled form, the name field's lookup finds the name node exactly for record 0 and nothing for any other record |
| `DictionaryScenarios.EmptyPathLookup` | Clifton.Meaning/ContextValueDictionary.cs:210-213 | a field with an empty context path is not found under a childless form and fails on the index once the form has a child |
| `DictionaryScenarios.RootTypeOfForm` | Clifton.Meaning/ContextValueDictionary.cs:226-232 | the form's id names a top-level context of kind `Form` |
| `DictionaryScenarios.MarcMatches` | Clifton.Meaning/ContextValueDictionary.cs:359-390 | under the filled form, "Marc" matches record 0 |
| `DictionaryScenarios.BobDoesNotMatch` | Clifton.Meaning/ContextValueDictionary.cs:359-390 | under the filled form, "Bob" matches nothing |
| `DictionaryScenarios.SearchFindsMarc` | MeaningExplorer/ContextUnitTests/ContextSearchTests.cs:56-105 | searching the filled dictionary for "Marc" returns the form |
| `DictionaryScenarios.SearchMissesBob` | Clifton.Meaning/ContextValueDictionary.cs:335-395 | searching for "Bob" returns nothing |
| `Parsing.NewParser` | Clifton.Meaning/Parser.cs:46-69 | a new parser has no groups, no fields, an empty path and is not parsed |
| `Parsing.LogEntityType` | Clifton.Meaning/Parser.cs:214-225 | the kind becomes a known entity and a relationship key; nothing else changes |
| `Parsing.LogRelationship` | Clifton.Meaning/Parser.cs:227-235 | the left kind becomes a relationship key; nothing else changes |
| `Parsing.EmitField` | Clifton.Meaning/Parser.cs:464-471 | pushes a field segment, adds one field at that path to the group, and records the path |
| `Parsing.EntrySegment` | Clifton.Meaning/Parser.cs:261-268 | a context is entered by a root segment iff it is reached by the null relationship, and by a relationship segment otherwise |
| `Parsing.GenerateMasterGroups` | Clifton.Meaning/Parser.cs:249-306 | refuses a context already on the path (`ContextException`); otherwise the path is restored, groups and fields only grow, and every new field path extends the current path |
| `Parsing.CreateFields` | Clifton.Meaning/Parser.cs:410-477 | the path is restored, and groups and fields only grow |
| `Parsing.HasA` | Clifton.Meaning/Parser.cs:417-463 | the has-a branch likewise |
| `Parsing.DrillDecl` | Clifton.Meaning/Parser.cs:479-491 | drilling into a root's abstractions likewise |
| `Parsing.DrillAbstraction` | Clifton.Meaning/Parser.cs:493-529 | likewise, and the abstraction is marked visited |
| `Parsing.SuperGroup` | Clifton.Meaning/Parser.cs:499-524 | the rest of `DrillIntoAbstraction`: the path is restored, groups and fields only grow, and every new field path extends the current path; the group shape is in the `SuperGroupShape` row |
| `Parsing.Sources` | Clifton.Meaning/Parser.cs:313-366 | the loop over a relationship's source kinds: the path is restored and groups and fields only grow; a null target or source kind fails with a null reference |
| `Parsing.SourceOne` | Clifton.Meaning/Parser.cs:315-366 | one source kind: a context is parsed as a master group, anything else as an entity group, with the path restored and groups and fields only growing |
| `Parsing.HasALoop` | Clifton.Meaning/Parser.cs:426-462 | the has-a loop over the inner context's roots: the path is restored and groups and fields only grow; refusals are in the `HasALoopRefusesHere`/`Unknown` rows |
| `Parsing.SuperGroupTarget` | Clifton.Meaning/Parser.cs:509-515 | coalesced abstractions reuse the current group; others get a new listed group |
| `Parsing.RelationalGroups` | Clifton.Meaning/Parser.cs:308-369 | generating the relational groups restores the path and only grows groups and fields |
| `Parsing.SourceContext` | Clifton.Meaning/Parser.cs:319-343 | a context source is parsed with the path restored and groups and fields only growing |
| `Parsing.SourceEntity` | Clifton.Meaning/Parser.cs:345-366 | an entity source is parsed with the path restored and groups and fields only growing |
| `ParserProperties.CreateFieldsRefusesHere` | Clifton.Meaning/Parser.cs:471-475 | a root whose kind is neither a context nor a value entity is refused with `ContextException` naming that kind |
| `ParserProperties.CreateFieldsRefusesUnknown` | Clifton.Meaning/Parser.cs:412-475 | when every root before it is a value entity, the first root of unknown kind is refused with `ContextException` naming that kind |
| `ParserProperties.CreateFieldsRootStep` | Clifton.Meaning/Parser.cs:412-475 | a value-entity root always succeeds, an unknown root is refused, and a failure of one root or of the roots after it is the failure of the whole loop |
| `ParserProperties.HasALoopRefusesHere` | Clifton.Meaning/Parser.cs:453-457 | inside a has-a, a root of the child context whose kind is neither a value entity nor a context is refused with `ContextException` |
| `ParserProperties.HasALoopRefusesUnknown` | Clifton.Meaning/Parser.cs:426-457 | inside a has-a, the first root of unknown kind after value-entity roots is refused with `ContextException` naming that kind |
| `ParserProperties.HasALoopRootStep` | Clifton.Meaning/Parser.cs:426-457 | one root of the has-a loop: a value entity always succeeds, an unknown kind is refused, and a later failure is the failure of the whole loop |
| `ParserProperties.HasAStep` | Clifton.Meaning/Parser.cs:417-426 | a has-a instantiates the child context and a failure of its loop is the failure of the has-a |
| `ParserProperties.HasARefusesUnknown` | Clifton.Meaning/Parser.cs:417-457 | a has-a whose child context declares value entities and then an unknown kind is refused with `ContextException` naming that kind |
| `ParserProperties.SourceEntityListsIffFilled` | Clifton.Meaning/Parser.cs:345-363 | an entity source's group is labelled by the relationship's label or the kind's name, and is listed exactly when its abstractions gave it fields |
| `ParserProperties.SourceContextRefusesRecursion` | Clifton.Meaning/Parser.cs:249-254 | a context source already on the path is refused with `ContextException`, coalesced or not |
| `ParserProperties.SourceContextGroup` | Clifton.Meaning/Parser.cs:319-340 | a non-coalesced context source gets a new group listed next, named by the relationship's label, else the context's label, else its name |
| `ParserProperties.SourceContextCoalesced` | Clifton.Meaning/Parser.cs:332-340 | a coalescing relationship parses the context source into the current group, creating no group |
| `ParserProperties.SuperGroupShape` | Clifton.Meaning/Parser.cs:493-517 | an abstraction whose super kind is not a context, or has no roots, creates no group; otherwise a non-coalesced one lists a new group named by its label or the super kind's name |
| `Parsing.SelfAbstractions` | Clifton.Meaning/Parser.cs:287-301 | the context's own abstractions are drilled into likewise |
| `Parsing.Parse` | Clifton.Meaning/Parser.cs:107-119 | lists a group for the root context, named by its label or its kind, under the null relationship; earlier groups and fields are kept, every new field path starts at the root, and a root already on the path is refused |
| `Parsing.AreDeclarationsValid` | Clifton.Meaning/Parser.cs:81-105 | refuses an unparsed parser; otherwise true iff every relationship key was logged as an entity, and the missing list holds exactly the others |
| `Parsing.IdFor` | Clifton.Meaning/Parser.cs:196-205 | a type already seen keeps its id; a new type gets a fresh one |
| `Parsing.IdsForRecords` | Clifton.Meaning/Parser.cs:190-212 | recorded ids are kept, only the asked types are recorded, and each position gets its type's id |
| `Parsing.CreateInstancePath` | Clifton.Meaning/Parser.cs:190-212 | one stable id per type but the last, and a fresh id for the value itself |
| `Parsing.InstancePathsShareIds` | Clifton.Meaning/Parser.cs:190-212 | two instance paths from one parser share the id of every shared type before the last, and their last ids differ |
| `Parsing.KeepKindAt` | Clifton.Meaning/Parser.cs:169-174 | keeps exactly the paths whose n-th kind is the n-th type |
| `Parsing.Narrow` | Clifton.Meaning/Parser.cs:166-176 | the narrowing loop fails only with an index out of range; what it keeps is in the `NarrowIsPrefixFilter` row |
| `Parsing.NarrowIsPrefixFilter` | Clifton.Meaning/Parser.cs:166-176 | narrowing position by position keeps exactly the paths that begin with the types, and fails iff some path is a proper prefix of them |
| `Parsing.CreateContextValue` | Clifton.Meaning/Parser.cs:161-183 | no types or a non-value last type is refused; a value keeps the text and record and gets an instance path as long as the types |
| `Parsing.CreateContextValueMeaning` | Clifton.Meaning/Parser.cs:161-183 | succeeds iff the last type is a value kind, no field path is a proper prefix of the types, and exactly one begins with them; the value then carries that path's kinds |
| `ParserScenarios.OneValueField` | MeaningExplorer/ContextUnitTests/ContextPathTests.cs:277-290 | a context with one value entity parses to one group with one field, labelled by the kind, at path root-then-field |
| `ParserScenarios.OneValueFieldDeclarationsValid` | MeaningExplorer/ContextUnitTests/ContextPathTests.cs:278-281 | after parsing the one-field context, `AreDeclarationsValid` is true and no kind is missing |
| `ParserScenarios.ValueForFullPath` | Clifton.Meaning/Parser.cs:161-183 | a value for the full field path gets the field's kinds, the record and a two-id instance path |
| `ParserScenarios.ValueNamingContextRefused` | Clifton.Meaning/Parser.cs:163 | a path ending in a context kind is refused |
| `ParserScenarios.ValueNotFromRootRefused` | Clifton.Meaning/Parser.cs:166-176 | a path not starting at the root matches no field |
| `ParserScenarios.ValuePastFieldRefused` | Clifton.Meaning/Parser.cs:169-174 | a path running past the field's path indexes it out of range |
| `ParserScenarios.RecursiveContextRefused` | MeaningExplorer/ContextUnitTests/ContextPathTests.cs:476-480 | parsing a context related to itself raises `ContextException` |
| `ParserScenarios.UndeclaredTargetMissing` | MeaningExplorer/ContextUnitTests/ContextPathTests.cs:454-459 | a relationship to a kind the context never declares leaves that kind missing, so the declarations are invalid |

## Left out

- Saving and loading the dictionary as JSON (ContextValueDictionary.cs:61-99) is file I/O and serialisation; the store starts empty.
- The static `CVD` instance and the `lock` around `AddOrUpdate` (ContextValueDictionary.cs:44, 58, 240) concern sharing between threads; the model is single-threaded.
- Reflection is replaced by the `Registry`, which lists the context kinds with their declarations and the value kinds. The `Type` helpers of ExtensionMethods.cs are not part of this model.
- The parser's `Log` callbacks are diagnostics only and have no model.
- `HasLookup`, `GetLookup` and `MapPotentialLookup` (Parser.cs:121-129, 402-408) only gather lookups for rendering, so they are not modelled.
- The right-hand kinds of the parser's relationship log are not kept. Only the keys matter to `AreDeclarationsValid`.
- `Guid.NewGuid` becomes a counter; only freshness is relied on.
- Fuel: the parser's recursion takes fuel from the caller, and the tree walks take the number of nodes. With too little fuel they return `OutOfFuel`, which the library never raises. The library itself would recurse forever on a cyclic tree.
- `ValueDictionary.Search`: the unused `matchParentPath` (ContextValueDictionary.cs:405) is not computed.
- `Parsing.Parse`: when parsing throws, the C# parser keeps the groups, fields and logs it built before the exception; the model returns only the error and does not model that partial state (the dictionary, by contrast, keeps its partial state in `Outcome`).
- `ValueDictionary.TryGetContextNode`: on a miss it reports `NotFound` without the partial `instanceIdPath` the out-parameter holds at that point.
- `Lookups.SingleOrDefault` models `SingleOrDefault` as LINQ defines it. Clifton.Core's `TryGetSingle` and `Assert` are not part of this model; `ContextNodes.SingleChildWithId` assumes `TryGetSingle` succeeds exactly when one element matches and returns that element, and an `Assert.That` failure is `AssertionFailed`.
- The dictionary enumerates `Dictionary.Values` in the order kinds first entered the flat view (`flatKeys`). .NET keeps that order for a dictionary that nothing is removed from.
- Fluent builder chains such as `Declare<E>().Min(2).Max(4)` are a list of builder steps applied when the declaration is made (`EntityDeclarations.Apply`, `Relationships.Add`). In C# `Declare` returns the stored declaration, which a caller may still change after entities were added; the model fixes each declaration when it is made.
- `Parsing.CreateFields`: the `ContextException` for a root of unknown kind is stated (`ParserProperties.CreateFieldsRefusesUnknown`) only when every earlier root is a plain value entity. An earlier context root is parsed first and may fail first, on its own declarations, on recursion or for lack of fuel.
- `Parsing.HasA`: the same holds for the roots of the child context (`ParserProperties.HasARefusesUnknown`).
- `Lookups.Render`: its own contract only covers the empty lookup. `RenderAppend` and `AddExtendsRendering` state what rendering produces.
- The `CreateValue` overloads of Parser.cs:131-159 and ContextValueDictionary.cs:101-129 are thin wrappers. They compose `CreateContextValue` with `AddOrUpdate`, and so does the dictionary's `CreateContextValue` (ContextValueDictionary.cs:434-440). They are not modelled separately.
- `Context.GetAbstractions` and `Context.GetImplementations` (Context.cs:200-242) delegate to `Abstractions`, which is modelled.
- `GenerateRelationalGroups` (Parser.cs:319-366) skips a source kind that is neither a context nor an `IEntity`. The generic constraints of `Declare<R, T, S>` make every source an `IEntity`, so the model treats every source that is not a context as an entity.
- The search over several name contexts (ContextSearchTests.cs:107-160) is covered only by the general `MatchNode`/`SearchMeaning` contracts, not by a concrete scenario.
- The web front end, the renderers, the receptors and the example contexts of MeaningExplorer are outside the core.

=== FILE: abstraction_declaration.dfy ===
/*
 * An abstraction declaration: "sub-kind is a kind of super-kind".
 */
module AbstractionDeclarations {
  import opened Common

  datatype AbstractionDeclaration = AbstractionDeclaration(labelText: Option<string>, subType: Kind, superType: Kind, shouldCoalesce: bool)
  {
    /** `Coalesce()`: sets the flag and changes nothing else. */
    function Coalesce(): (d: AbstractionDeclaration)
      ensures d.shouldCoalesce
      ensures d.subType == subType && d.superType == superType && d.labelText == labelText
    {
      this.(shouldCoalesce := true)
    }
  }

  /** `AbstractionDeclaration.Create<Sub, Super>(label)`: not coalesced. */
  function Create(sub: Kind, super: Kind, labelText: Option<string>): (d: AbstractionDeclaration)
    ensures d.subType == sub && d.superType == super && d.labelText == labelText
    ensures !d.shouldCoalesce
  {
    AbstractionDeclaration(labelText, sub, super, false)
  }

  /** Coalescing twice is coalescing once. */
  lemma CoalesceIdempotent(d: AbstractionDeclaration)
    ensures d.Coalesce().Coalesce() == d.Coalesce()
  {
  }
}

=== FILE: abstractions.dfy ===
/*
 * The abstraction declarations of one context, in declaration order.
 */
module Abstractions {
  import opened Common
  import opened AbstractionDeclarations

  datatype Abstractions = Abstractions(decls: seq<AbstractionDeclaration>)
  {
    /** `Add<Sub, Super>(label)`: appends a fresh declaration and hands it back. */
    function Add(sub: Kind, super: Kind, labelText: Option<string>): (r: (Abstractions, AbstractionDeclaration))
      ensures r.0.decls == decls + [r.1]
      ensures r.1.subType == sub && r.1.superType == super && r.1.labelText == labelText && !r.1.shouldCoalesce
    {
      var d := Create(sub, super, labelText);
      (Abstractions(decls + [d]), d)
    }

    /** `Exists<Sub, Super>()`: some declaration has exactly this pair. */
    function Exists(sub: Kind, super: Kind): (b: bool)
      ensures b <==> exists i :: 0 <= i < |decls| && decls[i].subType == sub && decls[i].superType == super
    {
      Any(decls, (a: AbstractionDeclaration) => a.subType == sub && a.superType == super)
    }

    /** `GetAbstractions(t)`: the declarations whose sub-kind is `t`, in order. */
    function GetAbstractions(t: Kind): (r: seq<AbstractionDeclaration>)
      ensures forall a :: a in r <==> a in decls && a.subType == t
    {
      Filter(decls, (a: AbstractionDeclaration) => a.subType == t)
    }

    /** `GetImplementations(t)`: the declarations whose super-kind is `t`, in order. */
    function GetImplementations(t: Kind): (r: seq<AbstractionDeclaration>)
      ensures forall a :: a in r <==> a in decls && a.superType == t
    {
      Filter(decls, (a: AbstractionDeclaration) => a.superType == t)
    }
  }

  /** Adding a pair makes it exist, and keeps every pair that existed. */
  lemma AddThenExists(abs: Abstractions, sub: Kind, super: Kind, labelText: Option<string>, s2: Kind, p2: Kind)
    ensures abs.Add(sub, super, labelText).0.Exists(sub, super)
    ensures abs.Exists(s2, p2) ==> abs.Add(sub, super, labelText).0.Exists(s2, p2)
    ensures abs.Add(sub, super, labelText).0.Exists(s2, p2) ==> abs.Exists(s2, p2) || (s2 == sub && p2 == super)
  {
    var r := abs.Add(sub, super, labelText);
    assert r.0.decls[|abs.decls|] == r.1;
    if r.0.Exists(s2, p2) {
      var i :| 0 <= i < |r.0.decls| && r.0.decls[i].subType == s2 && r.0.decls[i].superType == p2;
      if i < |abs.decls| {
        assert abs.decls[i] == r.0.decls[i];
      }
    }
    if abs.Exists(s2, p2) {
      var i :| 0 <= i < |abs.decls| && abs.decls[i].subType == s2 && abs.decls[i].superType == p2;
      assert r.0.decls[i] == abs.decls[i];
    }
  }

  /** The views grow in step with the list: after `Add`, the abstractions of
      `t` (and the implementations of `t`) are the old ones followed by the new
      declaration when it matches, in declaration order. */
  lemma AddExtendsViews(abs: Abstractions, sub: Kind, super: Kind, labelText: Option<string>, t: Kind)
    ensures abs.Add(sub, super, labelText).0.GetAbstractions(t)
         == abs.GetAbstractions(t) + (if sub == t then [abs.Add(sub, super, labelText).1] else [])
    ensures abs.Add(sub, super, labelText).0.GetImplementations(t)
         == abs.GetImplementations(t) + (if super == t then [abs.Add(sub, super, labelText).1] else [])
  {
    var d := abs.Add(sub, super, labelText).1;
    FilterAppend(abs.decls, [d], (a: AbstractionDeclaration) => a.subType == t);
    FilterAppend(abs.decls, [d], (a: AbstractionDeclaration) => a.superType == t);
    assert Filter([d], (a: AbstractionDeclaration) => a.subType == t) == (if sub == t then [d] else []);
    assert Filter([d], (a: AbstractionDeclaration) => a.superType == t) == (if super == t then [d] else []);
  }
}

=== FILE: common.dfy ===
/*
 * Shared vocabulary of the model: type tokens (kinds), instance
 * identifiers, optional values and the error outcomes of the library.
 */
module Common {

  /** A runtime type token. The library keys every declaration, path
      segment and tree node by a .NET `Type`; the model keys them by name. */
  datatype Kind = Kind(name: string)

  /** `typeof(NullRelationship)`: the relationship kind of an unrelated (root) entity. */
  const NullRelationshipKind: Kind := Kind("NullRelationship")

  /** `typeof(NullEntity)`: the kind of the placeholder "related-to" entity. */
  const NullEntityKind: Kind := Kind("NullEntity")

  /** `int.MaxValue`, the default upper bound of every declaration. */
  const IntMaxValue: int := 0x7FFF_FFFF

  /** A GUID. Zero plays the part of `Guid.Empty`; fresh GUIDs come from a counter. */
  type Guid = nat

  const EmptyGuid: Guid := 0

  datatype Option<+T> = None | Some(value: T)

  /** The exceptions the library raises, one constructor per distinct cause. */
  datatype Error =
    | DeclarationViolation              // DeclarationViolationException
    | RelationshipDeclarationViolation  // RelationshipDeclarationException
    | AbstractionViolation              // AbstractionException
    | RecursiveContext(kind: Kind)      // ContextException: schema already on the path
    | NotContextOrValueEntity(kind: Kind) // ContextException: declared kind is neither
    | NotParsed                         // ContextException: declarations checked before Parse
    | AssertionFailed                   // a failed Assert.That
    | DuplicateValueSlot                // ContextValueDictionaryException
    | MissingContextValue               // ContextValueDictionaryException in Search
    | EmptySequence                     // First()/Last()/Single() on an empty sequence
    | NotSingle                         // Single()/SingleOrDefault() with several matches
    | NullReference                     // member access through a null reference
    | IndexOutOfRange                   // list indexed past its end
    | OutOfFuel                         // the model's recursion bound was reached

  /** The outcome of an operation that may throw. */
  datatype Result<+T> = Ok(value: T) | Err(error: Error) {
    predicate IsFailure() {
      Err?
    }

    function PropagateFailure<U>(): Result<U>
      requires Err?
    {
      Err(error)
    }

    function Extract(): T
      requires Ok?
    {
      value
    }
  }

  /** The C# `a ?? b` on strings. */
  function OrElse(a: Option<string>, b: string): string
  {
    match a
    case Some(s) => s
    case None => b
  }

  /** The C# `a ?? b` where both sides may be null. */
  function OrElseOption(a: Option<string>, b: Option<string>): Option<string>
  {
    if a.Some? then a else b
  }

  /** An element of any part of a three-part concatenation is in the whole. */
  lemma InConcat3<T>(a: seq<T>, b: seq<T>, c: seq<T>, v: T)
    ensures v in a || v in b || v in c ==> v in a + b + c
  {
  }

  /** Sequence concatenation is associative. */
  lemma ConcatAssoc<T>(x: seq<T>, y: seq<T>, z: seq<T>)
    ensures x + (y + z) == (x + y) + z
  {
  }

  /** The elements of `s` that satisfy `p`, in order (LINQ `Where`). */
  function Filter<T(!new)>(s: seq<T>, p: T -> bool): (r: seq<T>)
    ensures |r| <= |s|
    ensures forall x :: x in r <==> x in s && p(x)
  {
    if |s| == 0 then []
    else if p(s[0]) then [s[0]] + Filter(s[1..], p)
    else Filter(s[1..], p)
  }

  /** `Where` distributes over concatenation, so appending to a list appends
      to every filtered view of it in the same order. */
  lemma {:induction false} FilterAppend<T(!new)>(a: seq<T>, b: seq<T>, p: T -> bool)
    ensures Filter(a + b, p) == Filter(a, p) + Filter(b, p)
  {
    if |a| == 0 {
      assert a + b == b;
    } else {
      assert (a + b)[1..] == a[1..] + b;
      FilterAppend(a[1..], b, p);
    }
  }

  /** Two predicates that agree on every element of `s` select the same elements. */
  lemma {:induction false} FilterCongruent<T(!new)>(s: seq<T>, p: T -> bool, q: T -> bool)
    requires forall i :: 0 <= i < |s| ==> p(s[i]) == q(s[i])
    ensures Filter(s, p) == Filter(s, q)
  {
    if |s| > 0 {
      FilterCongruent(s[1..], p, q);
    }
  }

  /** A predicate that holds on every element keeps the whole sequence. */
  lemma {:induction false} FilterAll<T(!new)>(s: seq<T>, p: T -> bool)
    requires forall i :: 0 <= i < |s| ==> p(s[i])
    ensures Filter(s, p) == s
  {
    if |s| > 0 {
      FilterAll(s[1..], p);
    }
  }

  /** A predicate that holds on no element keeps nothing. */
  lemma {:induction false} FilterNone<T(!new)>(s: seq<T>, p: T -> bool)
    requires forall i :: 0 <= i < |s| ==> !p(s[i])
    ensures Filter(s, p) == []
  {
    if |s| > 0 {
      FilterNone(s[1..], p);
    }
  }

  /** The first element `Where` keeps is the first element satisfying `p`. */
  lemma {:induction false} FilterHead<T(!new)>(s: seq<T>, p: T -> bool)
    requires |Filter(s, p)| > 0
    ensures exists i :: 0 <= i < |s| && p(s[i]) && Filter(s, p)[0] == s[i] && forall j :: 0 <= j < i ==> !p(s[j])
  {
    if !p(s[0]) {
      FilterHead(s[1..], p);
      var i :| 0 <= i < |s[1..]| && p(s[1..][i]) && Filter(s[1..], p)[0] == s[1..][i] && forall j :: 0 <= j < i ==> !p(s[1..][j]);
      assert p(s[i + 1]) && Filter(s, p)[0] == s[i + 1];
      assert forall j :: 1 <= j < i + 1 ==> s[j] == s[1..][j - 1];
    }
  }

  /** Filtering by `p` first changes nothing when `q` already implies `p`. */
  lemma {:induction false} FilterFilter<T(!new)>(s: seq<T>, p: T -> bool, q: T -> bool)
    requires forall i :: 0 <= i < |s| ==> q(s[i]) ==> p(s[i])
    ensures Filter(Filter(s, p), q) == Filter(s, q)
  {
    if |s| > 0 {
      FilterFilter(s[1..], p, q);
    }
  }

  /** Whether some element of `s` satisfies `p` (LINQ `Any(pred)`). */
  function Any<T>(s: seq<T>, p: T -> bool): (b: bool)
    ensures b <==> exists i :: 0 <= i < |s| && p(s[i])
  {
    if |s| == 0 then false
    else p(s[0]) || Any(s[1..], p)
  }

  /** Number of elements of `s` that satisfy `p` (LINQ `Count(pred)`). */
  function CountWhere<T(!new)>(s: seq<T>, p: T -> bool): nat
  {
    |Filter(s, p)|
  }
}

=== FILE: context.dfy ===
/*
 * A context: its entity, relationship and abstraction declarations, the
 * entities instantiated in it, and its optional lookup renderer.
 */
module Contexts {
  import opened Common
  import opened ContextEntities
  import ED = EntityDeclarations
  import RD = RelationshipDeclarations
  import AD = AbstractionDeclarations
  import R = Relationships
  import A = Abstractions
  import L = Lookups

  datatype Context = Context(
    labelText: Option<string>,
    declarations: seq<ED.EntityDeclaration>,
    relationships: R.Relationships,
    abstractions: A.Abstractions,
    entities: seq<ContextEntity>,
    lookup: Option<L.Lookup>)
  {
    /** `Declare<E>(label)` followed by the caller's cardinality chain:
        a second declaration of the same kind is refused. */
    function Declare(e: Kind, labelText: Option<string>, bs: seq<ED.Builder>): (r: Result<Context>)
      ensures r.Err? <==> exists i :: 0 <= i < |declarations| && declarations[i].entityType == e
      ensures r.Err? ==> r.error == DeclarationViolation
      ensures r.Ok? ==> r.value == this.(declarations := r.value.declarations)
                        && |r.value.declarations| == |declarations| + 1
                        && r.value.declarations[..|declarations|] == declarations
                        && r.value.declarations[|declarations|].entityType == e
                        && r.value.declarations[|declarations|].labelText == labelText
      ensures r.Ok? ==> r.value.declarations[|declarations|] == ED.Apply(ED.Create(e, labelText), bs)
    {
      if Any(declarations, (d: ED.EntityDeclaration) => d.entityType == e) then Err(DeclarationViolation)
      else Ok(this.(declarations := declarations + [ED.Apply(ED.Create(e, labelText), bs)]))
    }

    /** `Declare<R, T, S>(label)` followed by the caller's builder chain:
        a second declaration of the same triple is refused. */
    function DeclareRelationship(r: Kind, t: Kind, s: Kind, labelText: Option<string>, bs: seq<RD.Builder>): (res: Result<Context>)
      ensures res.Err? <==> relationships.ExistsTriple(r, t, s)
      ensures res.Err? ==> res.error == RelationshipDeclarationViolation
      ensures res.Ok? ==> res.value == this.(relationships := res.value.relationships)
                          && |res.value.relationships.decls| == |relationships.decls| + 1
                          && res.value.relationships.decls[..|relationships.decls|] == relationships.decls
      ensures res.Ok? ==> res.value.relationships.ExistsTriple(r, t, s)
      ensures res.Ok? ==> res.value.relationships.decls[|relationships.decls|] == RD.Apply(RD.Create(r, t, s, labelText), bs)
    {
      if relationships.ExistsTriple(r, t, s) then Err(RelationshipDeclarationViolation)
      else
        var rels := relationships.Add(r, t, s, labelText, bs);
        R.AddThenExistsTriple(relationships, r, t, s, labelText, bs, r, t, s);
        Ok(this.(relationships := rels))
    }

    /** `RelationshipRequired<E>()`: a null-relationship declaration of `e`
        with maximum 0, so a bare `Add(e)` is always refused. */
    function RelationshipRequired(e: Kind): (res: Result<Context>)
      ensures res.Err? <==> relationships.ExistsTriple(NullRelationshipKind, e, NullEntityKind)
      ensures res.Err? ==> res.error == RelationshipDeclarationViolation
      ensures res.Ok? ==> res.value == this.(relationships := res.value.relationships)
                          && |res.value.relationships.decls| == |relationships.decls| + 1
                          && res.value.relationships.decls[..|relationships.decls|] == relationships.decls
      ensures res.Ok? ==>
                var d := res.value.relationships.decls[|relationships.decls|];
                d.relationshipType == NullRelationshipKind && d.targetType == Some(e)
                          && d.sourceType == Some(NullEntityKind) && d.maximum == 0
    {
      DeclareRelationship(NullRelationshipKind, e, NullEntityKind, None, [RD.SetMax(0)])
    }

    /** `AddAbstraction<Sub, Super>(label)`, optionally followed by `Coalesce()`:
        a second declaration of the same pair is refused. */
    function AddAbstraction(sub: Kind, super: Kind, labelText: Option<string>, coalesce: bool): (res: Result<Context>)
      ensures res.Err? <==> abstractions.Exists(sub, super)
      ensures res.Err? ==> res.error == AbstractionViolation
      ensures res.Ok? ==> res.value == this.(abstractions := res.value.abstractions)
                          && |res.value.abstractions.decls| == |abstractions.decls| + 1
                          && res.value.abstractions.decls[..|abstractions.decls|] == abstractions.decls
      ensures res.Ok? ==> var d := res.value.abstractions.decls[|abstractions.decls|];
                          d.subType == sub && d.superType == super && d.labelText == labelText && d.shouldCoalesce == coalesce
    {
      if abstractions.Exists(sub, super) then Err(AbstractionViolation)
      else
        var (abs, d) := abstractions.Add(sub, super, labelText);
        var d' := if coalesce then d.Coalesce() else d;
        Ok(this.(abstractions := A.Abstractions(abstractions.decls + [d'])))
    }

    /** `LookupRenderer(text)` / `LookupRenderer<T>()` followed by further
        `And` calls: replaces any previous lookup. */
    function LookupRenderer(first: L.LookupComponent, more: seq<L.LookupComponent>): (c: Context)
      ensures c.lookup.Some? && |c.lookup.value.components| == 1 + |more| && c.lookup.value.components[0] == first
      ensures c.lookup.Some? && c.lookup.value.components[1..] == more
      ensures c == this.(lookup := c.lookup)
    {
      this.(lookup := Some(L.Lookup([first] + more)))
    }

    /** The declaration-side check after the entity has been appended
        (`ValidateContextDeclaration`): with declarations present, the kind
        must be declared, and its first declaration may be violated only by
        falling short of its minimum. */
    function CheckDeclaration(e: Entity, es: seq<ContextEntity>): (r: Result<()>)
      ensures r.Err? ==> r.error == DeclarationViolation
      ensures r.Ok? <==> |declarations| == 0 || DeclarationAdmits(declarations, e.kind, CountOfKind(es, e.kind))
    {
      if |declarations| == 0 then Ok(())
      else
        var items := Filter(declarations, (d: ED.EntityDeclaration) => d.entityType == e.kind);
        if |items| == 0 then
          assert forall i :: 0 <= i < |declarations| ==> declarations[i].entityType != e.kind by {
            forall i | 0 <= i < |declarations| ensures declarations[i].entityType != e.kind {
              assert declarations[i] in declarations;
            }
          }
          Err(DeclarationViolation)
        else
          FilterHead(declarations, (d: ED.EntityDeclaration) => d.entityType == e.kind);
          var decl := items[0];
          if !decl.Validate(es) && decl.minimum <= CountOfKind(es, e.kind) then Err(DeclarationViolation)
          else Ok(())
    }

    /** The relationship-side check after the entity has been appended
        (`ValidateRelationshipDeclaration<R>`): with relationships declared,
        the first violated declaration is tolerated only while its count is
        below its minimum. */
    function CheckRelationship(r: Kind, target: Entity, source: Entity, es: seq<ContextEntity>): (res: Result<()>)
      ensures res.Err? ==> res.error == RelationshipDeclarationViolation
      ensures res.Ok? <==> relationships.decls == [] || RelationshipAdmits(relationships, r, target, source, es)
    {
      if relationships.Count() > 0 then
        var v := relationships.ValidateFor(r, target, source, es);
        var checks := relationships.ChecksFor(r, target, source);
        if !v.ok then
          var i :| R.FirstOutOfRange(checks, r, target, es, i)
                   && v.minimum == checks[i].minimum && v.count == R.CountFor(checks[i], r, target, es);
          assert RelationshipAdmits(relationships, r, target, source, es) <==> R.CountFor(checks[i], r, target, es) < checks[i].minimum by {
            forall j | R.FirstOutOfRange(checks, r, target, es, j) ensures j == i {
              R.FirstOutOfRangeUnique(checks, r, target, es, i, j);
            }
          }
          if v.minimum <= v.count then Err(RelationshipDeclarationViolation) else Ok(())
        else Ok(())
      else Ok(())
    }

    /** The part of `Add(entity)` and `Add<R>(target, source)` after the
        entry has been created: append it, check the declarations, and
        remove it again when a check fails. */
    function Record(r: Kind, target: Entity, source: Entity): (res: Result<Context>)
      ensures res.Ok? ==> res.value == this.(entities := entities + [ContextEntity(target, source, r)])
      ensures res.Err? ==> res.error == DeclarationViolation || res.error == RelationshipDeclarationViolation
      ensures declarations == [] && relationships.decls == [] ==> res.Ok?
      ensures res.Ok? <==> EntityAdmitted(declarations, target, entities)
                           && (relationships.decls == [] || RelationshipAdmits(relationships, r, target, source, entities + [ContextEntity(target, source, r)]))
      ensures !EntityAdmitted(declarations, target, entities) ==> res == Err(DeclarationViolation)
      ensures EntityAdmitted(declarations, target, entities) && relationships.decls != []
              && !RelationshipAdmits(relationships, r, target, source, entities + [ContextEntity(target, source, r)]) ==>
                res == Err(RelationshipDeclarationViolation)
    {
      var ce := CreateRelated(r, target, source);
      CountOfKindAppend(entities, ce, target.kind);
      var es := entities + [ce];
      var d := CheckDeclaration(target, es);
      if d.Err? then Err(d.error)
      else
        var rc := CheckRelationship(r, target, source, es);
        if rc.Err? then Err(rc.error) else Ok(this.(entities := es))
    }

    /** `Add(entity)`: records `entity` as a root, related to
        `NullEntity.Instance` by the null relationship, then checks the
        declarations; a refused entity is removed again, so on failure the
        context is as it was. */
    function Add(e: Entity): (r: Result<Context>)
      ensures r.Ok? ==> r.value == this.(entities := entities + [ContextEntity(e, NullEntityInstance, NullRelationshipKind)])
      ensures r.Err? ==> r.error == DeclarationViolation || r.error == RelationshipDeclarationViolation
      ensures declarations == [] && relationships.decls == [] ==> r.Ok?
      ensures declarations != [] && (forall i :: 0 <= i < |declarations| ==> declarations[i].entityType != e.kind) ==>
                r == Err(DeclarationViolation)
      ensures r.Ok? <==> EntityAdmitted(declarations, e, entities)
                         && (relationships.decls == []
                             || RelationshipAdmits(relationships, NullRelationshipKind, e, NullEntityInstance,
                                                   entities + [ContextEntity(e, NullEntityInstance, NullRelationshipKind)]))
      ensures !EntityAdmitted(declarations, e, entities) ==> r == Err(DeclarationViolation)
      ensures EntityAdmitted(declarations, e, entities) && relationships.decls != []
              && !RelationshipAdmits(relationships, NullRelationshipKind, e, NullEntityInstance,
                                     entities + [ContextEntity(e, NullEntityInstance, NullRelationshipKind)]) ==>
                r == Err(RelationshipDeclarationViolation)
    {
      var r := Record(NullRelationshipKind, e, NullEntityInstance);
      if forall i :: 0 <= i < |declarations| ==> declarations[i].entityType != e.kind then
        UndeclaredNotAdmitted(declarations, e.kind, CountOfKind(entities, e.kind) + 1);
        r
      else r
    }

    /** `Add<R>(target, source)`: with relationships declared, the
        relationship must exist for the pair before anything is recorded;
        then the same checks and rollback as `Add(entity)`. */
    function AddRelated(r: Kind, target: Entity, source: Entity): (res: Result<Context>)
      ensures res.Ok? ==> res.value == this.(entities := entities + [ContextEntity(target, source, r)])
      ensures res.Err? ==> res.error == DeclarationViolation || res.error == RelationshipDeclarationViolation
      ensures relationships.decls != [] && !relationships.ExistsFor(r, target, source) ==> res == Err(RelationshipDeclarationViolation)
      ensures declarations == [] && relationships.decls == [] ==> res.Ok?
      ensures res.Ok? <==> (relationships.decls == [] || relationships.ExistsFor(r, target, source))
                           && EntityAdmitted(declarations, target, entities)
                           && (relationships.decls == [] || RelationshipAdmits(relationships, r, target, source, entities + [ContextEntity(target, source, r)]))
      ensures (relationships.decls == [] || relationships.ExistsFor(r, target, source)) && !EntityAdmitted(declarations, target, entities) ==>
                res == Err(DeclarationViolation)
      ensures relationships.decls != [] && relationships.ExistsFor(r, target, source) && EntityAdmitted(declarations, target, entities)
              && !RelationshipAdmits(relationships, r, target, source, entities + [ContextEntity(target, source, r)]) ==>
                res == Err(RelationshipDeclarationViolation)
    {
      if relationships.Count() > 0 && !relationships.ExistsFor(r, target, source) then Err(RelationshipDeclarationViolation)
      else Record(r, target, source)
    }

    /** `IsValid`: every entity declaration holds, and every entity in a
        relationship other than the null one passes the relationship checks. */
    function IsValid(): (b: bool)
      ensures b <==> (forall i :: 0 <= i < |declarations| ==> declarations[i].Validate(entities))
                     && (forall i :: 0 <= i < |entities| && entities[i].relationshipType != NullRelationshipKind
                                     ==> relationships.Validate(entities[i], entities))
    {
      var ret := DeclarationsHold(declarations, entities);
      if ret then EntitiesHold(relationships, entities, entities) else ret
    }

    /** `Get<T>()`: the entities whose concrete object has kind `k`, in order. */
    function Get(k: Kind): (r: seq<ContextEntity>)
      ensures forall ce :: ce in r <==> ce in entities && ce.concreteEntity.kind == k
      ensures |r| == CountOfKind(entities, k)
    {
      GetCountsKind(entities, k);
      Filter(entities, (ce: ContextEntity) => ce.concreteEntity.kind == k)
    }

    /** `Get(entity)`: the entries whose concrete object is `e` itself. */
    function GetByEntity(e: Entity): (r: seq<ContextEntity>)
      ensures forall ce :: ce in r <==> ce in entities && ce.concreteEntity == e
    {
      Filter(entities, (ce: ContextEntity) => ce.concreteEntity == e)
    }
  }

  /** A context with nothing declared and nothing added. */
  function NewContext(labelText: Option<string>): (c: Context)
    ensures c.declarations == [] && c.relationships.decls == [] && c.abstractions.decls == []
    ensures c.entities == [] && c.lookup == None && c.labelText == labelText
  {
    Context(labelText, [], R.Relationships([]), A.Abstractions([]), [], None)
  }

  /** What `ValidateContextDeclaration` lets through when declarations exist:
      the kind is declared, and the count of its kind (new entity included)
      is within its first declaration's range or still below its minimum. */
  predicate DeclarationAdmits(ds: seq<ED.EntityDeclaration>, k: Kind, count: int)
  {
    exists i :: 0 <= i < |ds| && ds[i].entityType == k && (forall j :: 0 <= j < i ==> ds[j].entityType != k)
                && (count <= ds[i].maximum || count < ds[i].minimum)
  }

  /** What `ValidateContextDeclaration` lets through for one more entity
      `e`: anything when nothing is declared, otherwise what
      `DeclarationAdmits` allows at the count that includes `e`. */
  predicate EntityAdmitted(ds: seq<ED.EntityDeclaration>, e: Entity, entities: seq<ContextEntity>)
  {
    ds == [] || DeclarationAdmits(ds, e.kind, CountOfKind(entities, e.kind) + 1)
  }

  /** What `ValidateRelationshipDeclaration<R>` lets through when
      relationships are declared: every declaration `Validate<R>` checks
      admits its count, or the first one that does not is still below its
      minimum. */
  predicate RelationshipAdmits(rels: R.Relationships, r: Kind, target: Entity, source: Entity, es: seq<ContextEntity>)
  {
    var checks := rels.ChecksFor(r, target, source);
    (forall i :: 0 <= i < |checks| ==> R.InRange(checks[i], R.CountFor(checks[i], r, target, es)))
    || exists i :: 0 <= i < |checks| && R.FirstOutOfRange(checks, r, target, es, i) && R.CountFor(checks[i], r, target, es) < checks[i].minimum
  }

  /** A kind no declaration names is admitted at no count. */
  lemma UndeclaredNotAdmitted(ds: seq<ED.EntityDeclaration>, k: Kind, count: int)
    requires forall i :: 0 <= i < |ds| ==> ds[i].entityType != k
    ensures !DeclarationAdmits(ds, k, count)
  {
  }

  function DeclarationsHold(ds: seq<ED.EntityDeclaration>, es: seq<ContextEntity>): (b: bool)
    ensures b <==> forall i :: 0 <= i < |ds| ==> ds[i].Validate(es)
    decreases |ds|
  {
    if |ds| == 0 then true
    else if !ds[0].Validate(es) then false
    else
      assert forall i :: 1 <= i < |ds| ==> ds[1..][i - 1] == ds[i];
      DeclarationsHold(ds[1..], es)
  }

  function EntitiesHold(rels: R.Relationships, toCheck: seq<ContextEntity>, es: seq<ContextEntity>): (b: bool)
    ensures b <==> forall i :: 0 <= i < |toCheck| && toCheck[i].relationshipType != NullRelationshipKind ==> rels.Validate(toCheck[i], es)
    decreases |toCheck|
  {
    if |toCheck| == 0 then true
    else if toCheck[0].relationshipType != NullRelationshipKind && !rels.Validate(toCheck[0], es) then false
    else
      assert forall i :: 1 <= i < |toCheck| ==> toCheck[1..][i - 1] == toCheck[i];
      EntitiesHold(rels, toCheck[1..], es)
  }

  /** The relationship check fails exactly when relationships are declared
      and the first checked declaration that does not admit its count has
      reached its minimum, so has exceeded its maximum. */
  lemma CheckRelationshipMeaning(c: Context, r: Kind, target: Entity, source: Entity, es: seq<ContextEntity>)
    ensures c.CheckRelationship(r, target, source, es).Err? <==>
              c.relationships.decls != []
              && exists i :: R.FirstOutOfRange(c.relationships.ChecksFor(r, target, source), r, target, es, i)
                             && var d := c.relationships.ChecksFor(r, target, source)[i];
                                d.minimum <= R.CountFor(d, r, target, es) && R.CountFor(d, r, target, es) > d.maximum
  {
    var checks := c.relationships.ChecksFor(r, target, source);
    if c.relationships.decls != [] && exists i :: R.FirstOutOfRange(checks, r, target, es, i) {
      var i :| R.FirstOutOfRange(checks, r, target, es, i);
      forall j | R.FirstOutOfRange(checks, r, target, es, j) ensures j == i {
        R.FirstOutOfRangeUnique(checks, r, target, es, i, j);
      }
    }
  }

  /** No kind is declared twice, no relationship triple twice and no
      abstraction pair twice: what the uniqueness checks of the declaring
      operations maintain. */
  predicate WellDeclared(c: Context)
  {
    (forall i, j :: 0 <= i < j < |c.declarations| ==> c.declarations[i].entityType != c.declarations[j].entityType)
    && (forall i, j :: 0 <= i < j < |c.relationships.decls| ==> !SameTriple(c.relationships.decls[i], c.relationships.decls[j]))
    && (forall i, j :: 0 <= i < j < |c.abstractions.decls| ==>
          !(c.abstractions.decls[i].subType == c.abstractions.decls[j].subType
            && c.abstractions.decls[i].superType == c.abstractions.decls[j].superType))
  }

  predicate SameTriple(a: RD.RelationshipDeclaration, b: RD.RelationshipDeclaration)
  {
    a.relationshipType == b.relationshipType && a.targetType == b.targetType && a.sourceType == b.sourceType
  }

  lemma NewContextWellDeclared(labelText: Option<string>)
    ensures WellDeclared(NewContext(labelText))
  {
  }

  /** A successful `Declare` keeps the context well declared. */
  lemma DeclarePreservesWellDeclared(c: Context, k: Kind, labelText: Option<string>, eb: seq<ED.Builder>)
    requires WellDeclared(c) && c.Declare(k, labelText, eb).Ok?
    ensures WellDeclared(c.Declare(k, labelText, eb).value)
  {
    var ds := c.Declare(k, labelText, eb).value.declarations;
    forall i, j | 0 <= i < j < |ds| ensures ds[i].entityType != ds[j].entityType {
      if j == |c.declarations| {
        assert ds[i] == c.declarations[i];
      } else {
        assert ds[i] == c.declarations[i] && ds[j] == c.declarations[j];
      }
    }
  }

  /** A successful relationship declaration keeps the context well declared. */
  lemma DeclareRelationshipPreservesWellDeclared(c: Context, k: Kind, t: Kind, s: Kind, labelText: Option<string>, rb: seq<RD.Builder>)
    requires WellDeclared(c) && c.DeclareRelationship(k, t, s, labelText, rb).Ok?
    ensures WellDeclared(c.DeclareRelationship(k, t, s, labelText, rb).value)
  {
    var rs := c.DeclareRelationship(k, t, s, labelText, rb).value.relationships.decls;
    var n := |c.relationships.decls|;
    assert rs[n].relationshipType == k && rs[n].targetType == Some(t) && rs[n].sourceType == Some(s);
    forall i, j | 0 <= i < j < |rs| ensures !SameTriple(rs[i], rs[j]) {
      assert rs[i] == rs[..n][i] == c.relationships.decls[i];
      if j < n {
        assert rs[j] == rs[..n][j] == c.relationships.decls[j];
      }
    }
  }

  /** A successful abstraction declaration keeps the context well declared. */
  lemma AddAbstractionPreservesWellDeclared(c: Context, k: Kind, t: Kind, labelText: Option<string>, coalesce: bool)
    requires WellDeclared(c) && c.AddAbstraction(k, t, labelText, coalesce).Ok?
    ensures WellDeclared(c.AddAbstraction(k, t, labelText, coalesce).value)
  {
    var ab := c.AddAbstraction(k, t, labelText, coalesce).value.abstractions.decls;
    var n := |c.abstractions.decls|;
    forall i, j | 0 <= i < j < |ab|
      ensures !(ab[i].subType == ab[j].subType && ab[i].superType == ab[j].superType)
    {
      assert ab[i] == ab[..n][i] == c.abstractions.decls[i];
      if j < n {
        assert ab[j] == ab[..n][j] == c.abstractions.decls[j];
      }
    }
  }

  /** Every operation that succeeds keeps the context well declared. */
  lemma OperationsPreserveWellDeclared(c: Context, k: Kind, t: Kind, s: Kind, labelText: Option<string>,
                                       eb: seq<ED.Builder>, rb: seq<RD.Builder>, coalesce: bool, e: Entity, src: Entity)
    requires WellDeclared(c)
    ensures c.Declare(k, labelText, eb).Ok? ==> WellDeclared(c.Declare(k, labelText, eb).value)
    ensures c.DeclareRelationship(k, t, s, labelText, rb).Ok? ==> WellDeclared(c.DeclareRelationship(k, t, s, labelText, rb).value)
    ensures c.AddAbstraction(k, t, labelText, coalesce).Ok? ==> WellDeclared(c.AddAbstraction(k, t, labelText, coalesce).value)
    ensures c.Add(e).Ok? ==> WellDeclared(c.Add(e).value)
    ensures c.AddRelated(k, e, src).Ok? ==> WellDeclared(c.AddRelated(k, e, src).value)
  {
    if c.Declare(k, labelText, eb).Ok? {
      DeclarePreservesWellDeclared(c, k, labelText, eb);
    }
    if c.DeclareRelationship(k, t, s, labelText, rb).Ok? {
      DeclareRelationshipPreservesWellDeclared(c, k, t, s, labelText, rb);
    }
    if c.AddAbstraction(k, t, labelText, coalesce).Ok? {
      AddAbstractionPreservesWellDeclared(c, k, t, labelText, coalesce);
    }
  }

  /** Filtering by kind counts exactly what `CountOfKind` counts. */
  lemma {:induction false} GetCountsKind(es: seq<ContextEntity>, k: Kind)
    ensures |Filter(es, (ce: ContextEntity) => ce.concreteEntity.kind == k)| == CountOfKind(es, k)
    decreases |es|
  {
    if |es| > 0 {
      var n := |es| - 1;
      var p := (ce: ContextEntity) => ce.concreteEntity.kind == k;
      assert es == es[..n] + [es[n]];
      FilterAppend(es[..n], [es[n]], p);
      GetCountsKind(es[..n], k);
    }
  }
}

=== FILE: context_entity.dfy ===
/*
 * Entity instances and the (concrete entity, related-to entity,
 * relationship kind) triples a context records for them.
 */
module ContextEntities {
  import opened Common

  /** Object identity of an `IEntity` instance. `Object(n)` is the n-th
      object created by the caller; the other two are the library's own
      placeholder objects. */
  datatype EntityId = Object(n: nat) | NullInstanceId | NullRelatedId

  /** An `IEntity` object: its runtime type and its identity. Equality of
      two `Entity` values is the C# reference comparison `==`. */
  datatype Entity = Entity(kind: Kind, id: EntityId)

  /** `NullEntity.Instance`, the shared related-to object of `Context.Add`. */
  const NullEntityInstance: Entity := Entity(NullEntityKind, NullInstanceId)

  /** `ContextEntity.NullRelatedEntity`, a second, separately allocated
      `NullEntity` used by `ContextEntity.Create(e)`. */
  const NullRelatedEntity: Entity := Entity(NullEntityKind, NullRelatedId)

  /** An instantiated member of a context. All three fields are read-only. */
  datatype ContextEntity = ContextEntity(concreteEntity: Entity, relatedTo: Entity, relationshipType: Kind)

  /** `ContextEntity.Create(e)`: a root entity with no relationship. */
  function CreateRoot(e: Entity): (ce: ContextEntity)
    ensures ce.concreteEntity == e
    ensures ce.relatedTo == NullRelatedEntity && ce.relatedTo.kind == NullEntityKind
    ensures ce.relationshipType == NullRelationshipKind
  {
    ContextEntity(e, NullRelatedEntity, NullRelationshipKind)
  }

  /** `ContextEntity.Create<T>(e, relatedTo)`. */
  function CreateRelated(t: Kind, e: Entity, relatedTo: Entity): (ce: ContextEntity)
    ensures ce.concreteEntity == e && ce.relatedTo == relatedTo && ce.relationshipType == t
  {
    ContextEntity(e, relatedTo, t)
  }

  /** The two null placeholders are different objects of the same kind. */
  lemma NullPlaceholdersAreDistinctObjects()
    ensures NullEntityInstance != NullRelatedEntity
    ensures NullEntityInstance.kind == NullRelatedEntity.kind == NullEntityKind
  {
  }

  predicate HasConcreteKind(e: ContextEntity, k: Kind)
  {
    e.concreteEntity.kind == k
  }

  /** Number of context entities whose concrete entity has runtime type `k`. */
  function CountOfKind(es: seq<ContextEntity>, k: Kind): (c: nat)
    ensures c <= |es|
  {
    if |es| == 0 then 0
    else (if es[|es| - 1].concreteEntity.kind == k then 1 else 0) + CountOfKind(es[..|es| - 1], k)
  }

  /** The indices of `es` holding an entity of kind `k`: an independent,
      set-based statement of what `CountOfKind` counts. */
  function IndicesOfKind(es: seq<ContextEntity>, k: Kind): set<nat>
  {
    set i | 0 <= i < |es| && HasConcreteKind(es[i], k)
  }

  lemma {:induction false} CountOfKindIsNumberOfIndices(es: seq<ContextEntity>, k: Kind)
    ensures CountOfKind(es, k) == |IndicesOfKind(es, k)|
  {
    if |es| == 0 {
      assert IndicesOfKind(es, k) == {};
    } else {
      var n := |es| - 1;
      CountOfKindIsNumberOfIndices(es[..n], k);
      var prev := IndicesOfKind(es[..n], k);
      if HasConcreteKind(es[n], k) {
        assert IndicesOfKind(es, k) == prev + {n};
        assert n !in prev;
      } else {
        assert IndicesOfKind(es, k) == prev;
      }
    }
  }

  /** Appending an entity of kind `k` adds one to the count of `k` and
      leaves every other kind's count unchanged. */
  lemma CountOfKindAppend(es: seq<ContextEntity>, e: ContextEntity, k: Kind)
    ensures CountOfKind(es + [e], k) == CountOfKind(es, k) + (if e.concreteEntity.kind == k then 1 else 0)
  {
    assert (es + [e])[..|es|] == es;
  }
}

=== FILE: context_node.dfy ===
/*
 * The nodes of the value store: a tree keyed by instance id whose nodes
 * may be shared between several parents, kept as an arena of nodes.
 */
module ContextNodes {
  import opened Common
  import CV = ContextValues

  /** A `ContextNode`: its instance id, its kind (none for the root), the
      last node that attached it, its children in attachment order and the
      value it holds, if any. Node references are arena indices. */
  datatype Node = Node(id: Guid, kind: Option<Kind>, parent: Option<nat>, children: seq<nat>, value: Option<CV.ContextValue>)

  /** `ContextNode.Root`: empty id, no kind, no parent, no children. */
  const RootNode: Node := Node(EmptyGuid, None, None, [], None)

  /** The store of a `ContextValueDictionary`: the node arena (index 0 is the
      tree root), the flat view's keys in insertion order, and the flat
      view itself, from kind to the nodes created for that kind. */
  datatype Store = Store(nodes: seq<Node>, flatKeys: seq<Kind>, flatView: map<Kind, seq<nat>>)

  /** Every reference in the store points into the arena, the flat view
      lists nodes of its key's kind, and its keys are listed once each. */
  predicate Valid(s: Store)
  {
    |s.nodes| > 0
    && (forall n, j :: 0 <= n < |s.nodes| && 0 <= j < |s.nodes[n].children| ==> s.nodes[n].children[j] < |s.nodes|)
    && (forall n :: 0 <= n < |s.nodes| && s.nodes[n].parent.Some? ==> s.nodes[n].parent.value < |s.nodes|)
    && (forall k, j :: k in s.flatView && 0 <= j < |s.flatView[k]| ==>
          s.flatView[k][j] < |s.nodes| && s.nodes[s.flatView[k][j]].kind == Some(k))
    && (forall k :: k in s.flatView ==> k in s.flatKeys)
    && (forall i :: 0 <= i < |s.flatKeys| ==> s.flatKeys[i] in s.flatView)
    && (forall a, b :: 0 <= a < b < |s.flatKeys| ==> s.flatKeys[a] != s.flatKeys[b])
  }

  /** No node has two children with the same instance id. */
  predicate UniqueChildIds(s: Store)
  {
    forall n, a, b :: 0 <= n < |s.nodes| && 0 <= a < b < |s.nodes[n].children|
                      && s.nodes[n].children[a] < |s.nodes| && s.nodes[n].children[b] < |s.nodes|
                      ==> s.nodes[s.nodes[n].children[a]].id != s.nodes[s.nodes[n].children[b]].id
  }

  /** An empty dictionary: only the root. */
  function NewStore(): (s: Store)
    ensures Valid(s) && UniqueChildIds(s)
    ensures s.nodes == [RootNode] && s.flatView == map[] && s.flatKeys == []
  {
    Store([RootNode], [], map[])
  }

  /** `AddChild(node)`: the child is appended to the parent's children and
      its parent becomes this node, whichever node attached it before. */
  function AddChild(s: Store, p: nat, c: nat): (r: Store)
    requires Valid(s) && p < |s.nodes| && c < |s.nodes|
    ensures Valid(r) && |r.nodes| == |s.nodes|
    ensures r.nodes[p].children == s.nodes[p].children + [c]
    ensures r.nodes[c].parent == Some(p)
    ensures forall n :: 0 <= n < |s.nodes| ==>
              r.nodes[n].id == s.nodes[n].id && r.nodes[n].kind == s.nodes[n].kind && r.nodes[n].value == s.nodes[n].value
    ensures forall n :: 0 <= n < |s.nodes| && n != p ==> r.nodes[n].children == s.nodes[n].children
    ensures forall n :: 0 <= n < |s.nodes| && n != c ==> r.nodes[n].parent == s.nodes[n].parent
    ensures r.flatKeys == s.flatKeys && r.flatView == s.flatView
  {
    var ns := s.nodes[p := s.nodes[p].(children := s.nodes[p].children + [c])];
    s.(nodes := ns[c := ns[c].(parent := Some(p))])
  }

  /** `HasChild(id)`. */
  function HasChild(s: Store, n: nat, id: Guid): (b: bool)
    requires Valid(s) && n < |s.nodes|
    ensures b <==> exists j :: 0 <= j < |s.nodes[n].children| && s.nodes[s.nodes[n].children[j]].id == id
  {
    Any(s.nodes[n].children, (c: nat) => c < |s.nodes| && s.nodes[c].id == id)
  }

  /** The children of `n` with instance id `id`, in order. */
  function ChildrenWithId(s: Store, n: nat, id: Guid): (r: seq<nat>)
    requires Valid(s) && n < |s.nodes|
    ensures forall c :: c in r <==> c in s.nodes[n].children && s.nodes[c].id == id
  {
    Filter(s.nodes[n].children, (c: nat) => c < |s.nodes| && s.nodes[c].id == id)
  }

  /** `Children.TryGetSingle(c => c.InstanceId == id)`: the child with this
      id when there is exactly one. */
  function SingleChildWithId(s: Store, n: nat, id: Guid): (r: Option<nat>)
    requires Valid(s) && n < |s.nodes|
    ensures r.Some? ==> r.value in s.nodes[n].children && r.value < |s.nodes| && s.nodes[r.value].id == id
    ensures r.Some? <==> |ChildrenWithId(s, n, id)| == 1
  {
    var f := ChildrenWithId(s, n, id);
    if |f| == 1 then assert f[0] in f; Some(f[0]) else None
  }

  /** Under unique child ids, a child with the id is the single one. */
  lemma {:induction false} UniqueIdIsSingle(s: Store, n: nat, j: nat)
    requires Valid(s) && UniqueChildIds(s) && n < |s.nodes| && j < |s.nodes[n].children|
    ensures SingleChildWithId(s, n, s.nodes[s.nodes[n].children[j]].id) == Some(s.nodes[n].children[j])
  {
    var cs := s.nodes[n].children;
    var id := s.nodes[cs[j]].id;
    var p := (c: nat) => c < |s.nodes| && s.nodes[c].id == id;
    SingleFilter(cs, p, j);
  }

  /** A filter that keeps exactly one position keeps exactly that element. */
  lemma {:induction false} SingleFilter(cs: seq<nat>, p: nat -> bool, j: nat)
    requires j < |cs| && p(cs[j])
    requires forall i :: 0 <= i < |cs| && i != j ==> !p(cs[i])
    ensures Filter(cs, p) == [cs[j]]
  {
    if j == 0 {
      FilterNone(cs[1..], p);
    } else {
      SingleFilter(cs[1..], p, j - 1);
    }
  }

  /** Without an id clash, a node with no child of some id has no single child of it. */
  lemma NoChildWithId(s: Store, n: nat, id: Guid)
    requires Valid(s) && n < |s.nodes|
    requires forall j :: 0 <= j < |s.nodes[n].children| ==> s.nodes[s.nodes[n].children[j]].id != id
    ensures SingleChildWithId(s, n, id) == None
    ensures ChildrenWithId(s, n, id) == []
  {
    FilterNone(s.nodes[n].children, (c: nat) => c < |s.nodes| && s.nodes[c].id == id);
  }

  /** Under unique child ids, no single child with an id means no child with it. */
  lemma NoneMeansAbsent(s: Store, n: nat, id: Guid)
    requires Valid(s) && UniqueChildIds(s) && n < |s.nodes|
    requires SingleChildWithId(s, n, id) == None
    ensures forall j :: 0 <= j < |s.nodes[n].children| ==> s.nodes[s.nodes[n].children[j]].id != id
  {
    forall j | 0 <= j < |s.nodes[n].children| ensures s.nodes[s.nodes[n].children[j]].id != id {
      if s.nodes[s.nodes[n].children[j]].id == id {
        UniqueIdIsSingle(s, n, j);
      }
    }
  }

  /** The nodes from the topmost ancestor down to `n`, following parent
      links; the fuel bound stands for the source looping on a parent cycle. */
  function Chain(s: Store, n: nat, fuel: nat): (r: Result<seq<nat>>)
    requires Valid(s) && n < |s.nodes|
    ensures r.Ok? ==> |r.value| > 0 && r.value[|r.value| - 1] == n
    ensures r.Ok? ==> forall i :: 0 <= i < |r.value| ==> r.value[i] < |s.nodes|
    ensures r.Ok? ==> s.nodes[r.value[0]].parent == None
    ensures r.Ok? ==> forall i :: 0 < i < |r.value| ==> s.nodes[r.value[i]].parent == Some(r.value[i - 1])
    ensures r.Err? ==> r.error == OutOfFuel
    decreases fuel
  {
    if fuel == 0 then Err(OutOfFuel)
    else match s.nodes[n].parent
      case None => Ok([n])
      case Some(p) =>
        var c :- Chain(s, p, fuel - 1);
        Ok(c + [n])
  }

  /** The ids of a list of nodes. */
  function Ids(s: Store, ns: seq<nat>): (r: seq<Guid>)
    requires forall i :: 0 <= i < |ns| ==> ns[i] < |s.nodes|
    ensures |r| == |ns| && forall i :: 0 <= i < |ns| ==> r[i] == s.nodes[ns[i]].id
  {
    seq(|ns|, i requires 0 <= i < |ns| => s.nodes[ns[i]].id)
  }

  /** `GetParentInstancePath()`: the ids from the topmost ancestor down to
      this node, without the topmost one (the root's empty id). */
  function GetParentInstancePath(s: Store, n: nat): (r: Result<seq<Guid>>)
    requires Valid(s) && n < |s.nodes|
    ensures r.Ok? <==> Chain(s, n, |s.nodes|).Ok?
    ensures r.Ok? ==> var c := Chain(s, n, |s.nodes|).value; r.value == Ids(s, c[1..])
    ensures r.Ok? && s.nodes[n].parent.Some? ==> |r.value| > 0 && r.value[|r.value| - 1] == s.nodes[n].id
    ensures r.Err? ==> r.error == OutOfFuel
  {
    var c :- Chain(s, n, |s.nodes|);
    Ok(Ids(s, c[1..]))
  }

  /** A downward walk from `n` to a leaf, as the ids of its nodes. */
  predicate IsWalk(s: Store, n: nat, path: seq<Guid>)
    requires Valid(s) && n < |s.nodes|
    decreases |path|
  {
    |path| > 0 && path[0] == s.nodes[n].id
    && if |path| == 1 then s.nodes[n].children == []
       else exists j :: 0 <= j < |s.nodes[n].children| && IsWalk(s, s.nodes[n].children[j], path[1..])
  }

  /** `ChildInstancePaths()` (with `Walk`): one id path per downward walk to a
      leaf, depth first in child order, each starting with this node's id. */
  function ChildInstancePaths(s: Store, n: nat, fuel: nat): (r: Result<seq<seq<Guid>>>)
    requires Valid(s) && n < |s.nodes|
    ensures r.Ok? ==> |r.value| > 0 && forall i :: 0 <= i < |r.value| ==> IsWalk(s, n, r.value[i])
    ensures r.Ok? ==> forall path :: IsWalk(s, n, path) ==> path in r.value
    ensures r.Ok? && s.nodes[n].children == [] ==> r.value == [[s.nodes[n].id]]
    ensures r.Err? ==> r.error == OutOfFuel
    decreases fuel, 0, 0
  {
    if fuel == 0 then Err(OutOfFuel)
    else if s.nodes[n].children == [] then
      assert forall path :: IsWalk(s, n, path) ==> path == [s.nodes[n].id] by {
        forall path | IsWalk(s, n, path) ensures path == [s.nodes[n].id] {
          assert |path| == 1;
        }
      }
      Ok([[s.nodes[n].id]])
    else
      var below :- WalkChildren(s, s.nodes[n].children, fuel - 1);
      var r := seq(|below|, i requires 0 <= i < |below| => [s.nodes[n].id] + below[i]);
      assert forall i :: 0 <= i < |r| ==> r[i][1..] == below[i];
      assert forall path :: IsWalk(s, n, path) ==> path in r by {
        forall path | IsWalk(s, n, path) ensures path in r {
          assert path[1..] in below;
          var i :| 0 <= i < |below| && below[i] == path[1..];
          assert r[i] == path;
        }
      }
      Ok(r)
  }

  /** The walks below each of `cs`, concatenated in order. */
  function WalkChildren(s: Store, cs: seq<nat>, fuel: nat): (r: Result<seq<seq<Guid>>>)
    requires Valid(s) && forall i :: 0 <= i < |cs| ==> cs[i] < |s.nodes|
    ensures r.Ok? ==> forall i :: 0 <= i < |r.value| ==> exists j :: 0 <= j < |cs| && IsWalk(s, cs[j], r.value[i])
    ensures r.Ok? ==> forall j, path :: 0 <= j < |cs| && IsWalk(s, cs[j], path) ==> path in r.value
    ensures r.Ok? && |cs| > 0 ==> |r.value| > 0
    ensures r.Err? ==> r.error == OutOfFuel
    decreases fuel, 1, |cs|
  {
    if |cs| == 0 then Ok([])
    else
      var first :- ChildInstancePaths(s, cs[0], fuel);
      var rest :- WalkChildren(s, cs[1..], fuel);
      assert forall i :: 0 <= i < |rest| ==> (first + rest)[|first| + i] == rest[i];
      assert forall j :: 0 <= j < |cs[1..]| ==> cs[1..][j] == cs[j + 1];
      assert forall j, path :: 0 <= j < |cs| && IsWalk(s, cs[j], path) ==> path in first + rest by {
        forall j, path | 0 <= j < |cs| && IsWalk(s, cs[j], path) ensures path in first + rest {
          if j > 0 {
            assert IsWalk(s, cs[1..][j - 1], path);
          }
        }
      }
      Ok(first + rest)
  }

  /** If the walk below a list of nodes succeeds, so do the walks below
      each part of it. */
  lemma {:induction false} WalkChildrenAppendOk(s: Store, a: seq<nat>, b: seq<nat>, fuel: nat)
    requires Valid(s) && (forall i :: 0 <= i < |a| ==> a[i] < |s.nodes|) && (forall i :: 0 <= i < |b| ==> b[i] < |s.nodes|)
    ensures WalkChildren(s, a + b, fuel).Ok? ==> WalkChildren(s, a, fuel).Ok? && WalkChildren(s, b, fuel).Ok?
    decreases |a|
  {
    if |a| == 0 {
      assert a + b == b;
    } else {
      var a' := a[1..];
      assert (a + b)[0] == a[0] && (a + b)[1..] == a' + b;
      assert forall i :: 0 <= i < |a'| ==> a'[i] < |s.nodes| by {
        forall i | 0 <= i < |a'| ensures a'[i] < |s.nodes| {
          assert a'[i] == a[i + 1];
        }
      }
      WalkChildrenAppendOk(s, a', b, fuel);
    }
  }

  /** The walks below a list of nodes are those below its first part
      followed by those below the rest: walks come out in child order. */
  lemma {:induction false} WalkChildrenAppend(s: Store, a: seq<nat>, b: seq<nat>, fuel: nat)
    requires Valid(s) && (forall i :: 0 <= i < |a| ==> a[i] < |s.nodes|) && (forall i :: 0 <= i < |b| ==> b[i] < |s.nodes|)
    ensures WalkChildren(s, a + b, fuel).Ok? ==>
              (WalkChildren(s, a, fuel).Ok? && WalkChildren(s, b, fuel).Ok?
               && WalkChildren(s, a + b, fuel).value == WalkChildren(s, a, fuel).value + WalkChildren(s, b, fuel).value)
    decreases |a|
  {
    WalkChildrenAppendOk(s, a, b, fuel);
    if |a| > 0 && WalkChildren(s, a + b, fuel).Ok? {
      var a' := a[1..];
      assert (a + b)[0] == a[0] && (a + b)[1..] == a' + b;
      assert forall i :: 0 <= i < |a'| ==> a'[i] < |s.nodes| by {
        forall i | 0 <= i < |a'| ensures a'[i] < |s.nodes| {
          assert a'[i] == a[i + 1];
        }
      }
      WalkChildrenAppend(s, a', b, fuel);
      var first := ChildInstancePaths(s, a[0], fuel).value;
      assert WalkChildren(s, a + b, fuel).value == first + WalkChildren(s, a' + b, fuel).value;
      assert WalkChildren(s, a, fuel).value == first + WalkChildren(s, a', fuel).value;
      ConcatAssoc(first, WalkChildren(s, a', fuel).value, WalkChildren(s, b, fuel).value);
    } else if |a| == 0 {
      assert a + b == b;
    }
  }



  /** Attaching a node under a second parent moves its parent link: the
      node's instance path now runs through the latest attacher, while it
      stays among the children of every node that attached it before. */
  lemma LatestAttacherWins(s: Store, p: nat, c: nat)
    requires Valid(s) && p < |s.nodes| && c < |s.nodes| && p != c
    requires Chain(AddChild(s, p, c), p, |s.nodes| - 1).Ok?
    ensures var t := AddChild(s, p, c);
            Chain(t, c, |s.nodes|) == Ok(Chain(t, p, |s.nodes| - 1).value + [c])
    ensures var t := AddChild(s, p, c);
            forall q :: 0 <= q < |s.nodes| && c in s.nodes[q].children ==> c in t.nodes[q].children
  {
  }
}

=== FILE: context_scenarios.dfy ===
/*
 * The library's own context scenarios (ContextTests.cs), stated as
 * lemmas about the model: the cardinality and relationship rules as a
 * user of the API meets them.
 */
module ContextScenarios {
  import opened Common
  import opened ContextEntities
  import opened Contexts
  import ED = EntityDeclarations
  import RD = RelationshipDeclarations
  import R = Relationships
  import A = Abstractions

  const EmployeeKind := Kind("Employee")
  const PersonKind := Kind("Person")
  const SupervisorKind := Kind("Supervisor")
  const NonProfitKind := Kind("NonProfitBusiness")
  const ChildKind := Kind("Child")
  const BeneficiaryKind := Kind("Beneficiary")
  const SupervisorRelationshipKind := Kind("SupervisorRelationship")

  function Obj(k: Kind, n: nat): Entity
  {
    Entity(k, Object(n))
  }

  function RootOf(e: Entity): ContextEntity
  {
    ContextEntity(e, NullEntityInstance, NullRelationshipKind)
  }

  /** A context declaring exactly two employees, holding the given entities. */
  function TwoEmployees(es: seq<ContextEntity>): Context
  {
    Context(None, [ED.EntityDeclaration(EmployeeKind, 2, 2, None)], R.Relationships([]), A.Abstractions([]), es, None)
  }

  lemma DeclareExactlyTwo()
    ensures NewContext(None).Declare(EmployeeKind, None, [ED.SetExactly(2)]) == Ok(TwoEmployees([]))
  {
    assert [ED.SetExactly(2)][1..] == [];
  }

  /** Two root employees count as two employees. */
  lemma TwoRootsCounted(e1: Entity, e2: Entity)
    requires e1.kind == EmployeeKind && e2.kind == EmployeeKind
    ensures CountOfKind([RootOf(e1)], EmployeeKind) == 1
    ensures CountOfKind([RootOf(e1), RootOf(e2)], EmployeeKind) == 2
  {
    CountOfKindAppend([], RootOf(e1), EmployeeKind);
    CountOfKindAppend([RootOf(e1)], RootOf(e2), EmployeeKind);
    assert [] + [RootOf(e1)] == [RootOf(e1)];
    assert [RootOf(e1)] + [RootOf(e2)] == [RootOf(e1), RootOf(e2)];
  }

  lemma AddFirstEmployee(e1: Entity)
    requires e1.kind == EmployeeKind
    ensures TwoEmployees([]).Add(e1) == Ok(TwoEmployees([RootOf(e1)]))
    ensures !TwoEmployees([RootOf(e1)]).IsValid()
  {
    TwoRootsCounted(e1, e1);
    assert [] + [RootOf(e1)] == [RootOf(e1)];
    var ds := TwoEmployees([]).declarations;
    assert ds[0].entityType == EmployeeKind && ds[0].minimum == 2;
    assert DeclarationAdmits(ds, EmployeeKind, 1);
  }

  lemma AddSecondEmployee(e1: Entity, e2: Entity)
    requires e1.kind == EmployeeKind && e2.kind == EmployeeKind
    ensures TwoEmployees([RootOf(e1)]).Add(e2) == Ok(TwoEmployees([RootOf(e1), RootOf(e2)]))
    ensures TwoEmployees([RootOf(e1), RootOf(e2)]).IsValid()
  {
    TwoRootsCounted(e1, e2);
    assert [RootOf(e1)] + [RootOf(e2)] == [RootOf(e1), RootOf(e2)];
    var ds := TwoEmployees([RootOf(e1)]).declarations;
    assert ds[0].entityType == EmployeeKind && 2 <= ds[0].maximum;
    assert DeclarationAdmits(ds, EmployeeKind, 2);
  }

  lemma AddThirdEmployeeRefused(e1: Entity, e2: Entity, e3: Entity)
    requires e1.kind == EmployeeKind && e2.kind == EmployeeKind && e3.kind == EmployeeKind
    ensures TwoEmployees([RootOf(e1), RootOf(e2)]).Add(e3) == Err(DeclarationViolation)
  {
    var c := TwoEmployees([RootOf(e1), RootOf(e2)]);
    assert CountOfKind(c.entities, EmployeeKind) == 2 by {
      TwoRootsCounted(e1, e2);
    }
    assert !DeclarationAdmits(c.declarations, EmployeeKind, 3) by {
      assert c.declarations == [ED.EntityDeclaration(EmployeeKind, 2, 2, None)];
    }
  }

  /** `UndoEntityAddTest`: with `Exactly(2)` employees, the first add leaves
      the context invalid, the second makes it valid, and the third is
      refused, so the valid two-employee context stays as it was. */
  lemma UndoEntityAdd(e1: Entity, e2: Entity, e3: Entity)
    requires e1.kind == EmployeeKind && e2.kind == EmployeeKind && e3.kind == EmployeeKind
    ensures var c0 := NewContext(None).Declare(EmployeeKind, None, [ED.SetExactly(2)]);
            c0.Ok? && c0.value.Add(e1).Ok?
            && var c1 := c0.value.Add(e1).value;
            !c1.IsValid() && |c1.entities| == 1
            && c1.Add(e2).Ok?
            && var c2 := c1.Add(e2).value;
            c2.IsValid() && |c2.entities| == 2
            && c2.Add(e3) == Err(DeclarationViolation)
  {
    DeclareExactlyTwo();
    AddFirstEmployee(e1);
    AddSecondEmployee(e1, e2);
    AddThirdEmployeeRefused(e1, e2, e3);
  }

  /** `RelationshipRequired<Employee>()`: the null relationship from an
      employee to the null entity, at most zero times. */
  const RequiredEmployee := RD.RelationshipDeclaration(NullRelationshipKind, Some(EmployeeKind), Some(NullEntityKind), [], [], 0, 0, false, None, false)

  lemma DeclareRequired()
    ensures NewContext(None).RelationshipRequired(EmployeeKind) == Ok(Ctx([], [RequiredEmployee], []))
  {
    var d0 := RD.Create(NullRelationshipKind, EmployeeKind, NullEntityKind, None);
    assert [RD.SetMax(0)][1..] == [];
    assert RD.Apply(d0, [RD.SetMax(0)]) == RD.Apply(RD.ApplyOne(d0, RD.SetMax(0)), []) == RequiredEmployee;
    assert [] + [RequiredEmployee] == [RequiredEmployee];
  }

  /** A root employee is an instance of the null relationship to the null
      entity, and the required declaration admits none. */
  lemma RequiredRefusesRoot(e: Entity)
    requires e.kind == EmployeeKind
    ensures Ctx([], [RequiredEmployee], []).Add(e) == Err(RelationshipDeclarationViolation)
  {
    var c := Ctx([], [RequiredEmployee], []);
    var es := [RootOf(e)];
    assert [] + [RootOf(e)] == es;
    assert RequiredEmployee in c.relationships.ChecksFor(NullRelationshipKind, e, NullEntityInstance);
    assert R.CountFor(RequiredEmployee, NullRelationshipKind, e, es) == 1 by {
      assert es[1..] == [];
    }
    assert !c.relationships.ValidateFor(NullRelationshipKind, e, NullEntityInstance, es).ok;
    CheckRelationshipMeaning(c, NullRelationshipKind, e, NullEntityInstance, es);
  }

  /** `MustBeInRelationshipTest`: once an employee is required to be in a
      relationship, adding one as a root is refused. */
  lemma MustBeInRelationship(e: Entity)
    requires e.kind == EmployeeKind
    ensures var c := NewContext(None).RelationshipRequired(EmployeeKind);
            c.Ok? && c.value.Add(e) == Err(RelationshipDeclarationViolation)
  {
    DeclareRequired();
    RequiredRefusesRoot(e);
  }

  /** A context with the given entity and relationship declarations and entities. */
  function Ctx(ds: seq<ED.EntityDeclaration>, rs: seq<RD.RelationshipDeclaration>, es: seq<ContextEntity>): Context
  {
    Context(None, ds, R.Relationships(rs), A.Abstractions([]), es, None)
  }

  /** Beneficiary: employee to person or non-profit, exactly one. */
  const OneBeneficiary := RD.RelationshipDeclaration(BeneficiaryKind, Some(EmployeeKind), Some(PersonKind), [NonProfitKind], [], 1, 1, false, None, false)

  lemma DeclareOneBeneficiary()
    ensures NewContext(None).DeclareRelationship(BeneficiaryKind, EmployeeKind, PersonKind, None, [RD.AddOr(NonProfitKind), RD.SetOneAndOnlyOne])
         == Ok(Ctx([], [OneBeneficiary], []))
  {
    var bs := [RD.AddOr(NonProfitKind), RD.SetOneAndOnlyOne];
    var d0 := RD.Create(BeneficiaryKind, EmployeeKind, PersonKind, None);
    var d1 := RD.ApplyOne(d0, RD.AddOr(NonProfitKind));
    var d2 := RD.ApplyOne(d1, RD.SetOneAndOnlyOne);
    assert bs[1..] == [RD.SetOneAndOnlyOne] && bs[1..][1..] == [];
    assert RD.Apply(d1, bs[1..]) == RD.Apply(d2, []) == d2;
    assert RD.Apply(d0, bs) == d2 == OneBeneficiary;
  }

  /** The first beneficiary, a person, is accepted. */
  lemma FirstBeneficiaryAccepted(emp: Entity, p: Entity)
    requires emp.kind == EmployeeKind && p.kind == PersonKind
    ensures Ctx([], [OneBeneficiary], []).AddRelated(BeneficiaryKind, emp, p)
         == Ok(Ctx([], [OneBeneficiary], [ContextEntity(emp, p, BeneficiaryKind)]))
  {
    var ce1 := ContextEntity(emp, p, BeneficiaryKind);
    var c0 := Ctx([], [OneBeneficiary], []);
    assert c0.relationships.decls[0] == OneBeneficiary;
    assert c0.relationships.ExistsFor(BeneficiaryKind, emp, p);
    assert [] + [ce1] == [ce1];
    assert c0.relationships.ValidateFor(BeneficiaryKind, emp, p, [ce1]).ok by {
      R.CountForAppend(OneBeneficiary, BeneficiaryKind, emp, [], ce1);
    }
  }

  /** A second beneficiary, a non-profit, brings the count of the
      one-and-only-one declaration to two. */
  lemma SecondBeneficiaryRefused(emp: Entity, p: Entity, n: Entity)
    requires emp.kind == EmployeeKind && p.kind == PersonKind && n.kind == NonProfitKind
    ensures Ctx([], [OneBeneficiary], [ContextEntity(emp, p, BeneficiaryKind)]).AddRelated(BeneficiaryKind, emp, n)
         == Err(RelationshipDeclarationViolation)
  {
    var ce1 := ContextEntity(emp, p, BeneficiaryKind);
    var ce2 := ContextEntity(emp, n, BeneficiaryKind);
    var c1 := Ctx([], [OneBeneficiary], [ce1]);
    assert c1.relationships.decls[0] == OneBeneficiary;
    assert c1.relationships.ExistsFor(BeneficiaryKind, emp, n) by {
      assert NonProfitKind in c1.relationships.decls[0].orSourceTypes;
    }
    assert [ce1] + [ce2] == [ce1, ce2];
    assert R.CountFor(OneBeneficiary, BeneficiaryKind, emp, [ce1, ce2]) == 2 by {
      R.CountForAppend(OneBeneficiary, BeneficiaryKind, emp, [], ce1);
      R.CountForAppend(OneBeneficiary, BeneficiaryKind, emp, [ce1], ce2);
      assert [] + [ce1] == [ce1];
    }
    assert OneBeneficiary in c1.relationships.ChecksFor(BeneficiaryKind, emp, n);
    var v2 := c1.relationships.ValidateFor(BeneficiaryKind, emp, n, [ce1, ce2]);
    assert !v2.ok && v2.minimum == 1 && v2.count == 2;
  }

  /** `OnlyOneOrRelationshipTest`: with an or-relationship declared
      one-and-only-one, an employee may have a person as beneficiary but not
      also a non-profit. */
  lemma OnlyOneOr(emp: Entity, p: Entity, n: Entity)
    requires emp.kind == EmployeeKind && p.kind == PersonKind && n.kind == NonProfitKind
    ensures var c1 := Ctx([], [OneBeneficiary], []).AddRelated(BeneficiaryKind, emp, p);
            c1 == Ok(Ctx([], [OneBeneficiary], [ContextEntity(emp, p, BeneficiaryKind)]))
            && c1.value.AddRelated(BeneficiaryKind, emp, n) == Err(RelationshipDeclarationViolation)
  {
    FirstBeneficiaryAccepted(emp, p);
    SecondBeneficiaryRefused(emp, p, n);
  }

  /** Beneficiary: employee to person and to a non-profit. */
  const BothBeneficiaries := RD.RelationshipDeclaration(BeneficiaryKind, Some(EmployeeKind), Some(PersonKind), [], [NonProfitKind], 0, IntMaxValue, false, None, false)

  lemma DeclareBothBeneficiaries()
    ensures NewContext(None).DeclareRelationship(BeneficiaryKind, EmployeeKind, PersonKind, None, [RD.AddAnd(NonProfitKind)])
         == Ok(Ctx([], [BothBeneficiaries], []))
  {
    var bs := [RD.AddAnd(NonProfitKind)];
    var d0 := RD.Create(BeneficiaryKind, EmployeeKind, PersonKind, None);
    assert bs[1..] == [];
    assert RD.Apply(d0, bs) == RD.Apply(RD.ApplyOne(d0, RD.AddAnd(NonProfitKind)), []) == BothBeneficiaries;
  }

  /** Adding a beneficiary of either declared kind is accepted: the person
      through the primary source, the non-profit only because and-sources
      admit their kind whatever the relationship. */
  lemma AddEitherBeneficiary(es: seq<ContextEntity>, emp: Entity, b: Entity)
    requires emp.kind == EmployeeKind && (b.kind == PersonKind || b.kind == NonProfitKind)
    requires |es| <= 1
    ensures Ctx([], [BothBeneficiaries], es).AddRelated(BeneficiaryKind, emp, b)
         == Ok(Ctx([], [BothBeneficiaries], es + [ContextEntity(emp, b, BeneficiaryKind)]))
  {
    var c := Ctx([], [BothBeneficiaries], es);
    var ce := ContextEntity(emp, b, BeneficiaryKind);
    assert c.relationships.decls[0] == BothBeneficiaries;
    assert c.relationships.ExistsFor(BeneficiaryKind, emp, b);
    var v := c.relationships.ValidateFor(BeneficiaryKind, emp, b, es + [ce]);
    assert v.ok by {
      forall d | d in c.relationships.ChecksFor(BeneficiaryKind, emp, b)
        ensures R.InRange(d, R.CountFor(d, BeneficiaryKind, emp, es + [ce]))
      {
        assert d == BothBeneficiaries;
        assert R.CountFor(d, BeneficiaryKind, emp, es + [ce]) <= |es| + 1;
      }
    }
  }

  /** Under the and-declaration, an employee's beneficiary entry passes the
      relationship checks iff the employee has exactly two beneficiary entries. */
  lemma BeneficiaryVerdict(ce: ContextEntity, es: seq<ContextEntity>)
    requires ce.relationshipType == BeneficiaryKind && ce.concreteEntity.kind == EmployeeKind
    requires ce.relatedTo.kind == PersonKind || ce.relatedTo.kind == NonProfitKind
    requires |es| <= 2
    ensures R.Relationships([BothBeneficiaries]).Validate(ce, es) <==> |R.Siblings(ce, es)| == 2
  {
    var rels := R.Relationships([BothBeneficiaries]);
    assert Some(ce.relatedTo.kind) in R.Required(BothBeneficiaries);
    R.AndCountIsSiblingsOrZero(BothBeneficiaries, ce, es);
    assert BothBeneficiaries in rels.AndChecks(ce);
    forall d | d in rels.OrChecks(ce) ensures R.InRange(d, R.OrCount(d, ce, es)) {
      R.OrCountIgnoresRelatedTo(rels, ce, es, d);
    }
  }

  /** `AndRelationshipTest` and `MissingAndRelationshipTest`: the context is
      valid with both a person and a non-profit beneficiary, and invalid with
      only one of them, whichever it is. */
  lemma BeneficiariesValid(emp: Entity, p: Entity, n: Entity)
    requires emp.kind == EmployeeKind && p.kind == PersonKind && n.kind == NonProfitKind
    ensures Ctx([], [BothBeneficiaries], [ContextEntity(emp, p, BeneficiaryKind), ContextEntity(emp, n, BeneficiaryKind)]).IsValid()
    ensures !Ctx([], [BothBeneficiaries], [ContextEntity(emp, p, BeneficiaryKind)]).IsValid()
    ensures !Ctx([], [BothBeneficiaries], [ContextEntity(emp, n, BeneficiaryKind)]).IsValid()
  {
    var ce1 := ContextEntity(emp, p, BeneficiaryKind);
    var ce2 := ContextEntity(emp, n, BeneficiaryKind);
    R.SiblingsAppend(ce1, [], ce1);
    R.SiblingsAppend(ce1, [ce1], ce2);
    R.SiblingsAppend(ce2, [], ce1);
    R.SiblingsAppend(ce2, [ce1], ce2);
    R.SiblingsAppend(ce2, [], ce2);
    assert [] + [ce1] == [ce1] && [] + [ce2] == [ce2] && [ce1] + [ce2] == [ce1, ce2];
    BeneficiaryVerdict(ce1, [ce1, ce2]);
    BeneficiaryVerdict(ce2, [ce1, ce2]);
    BeneficiaryVerdict(ce1, [ce1]);
    BeneficiaryVerdict(ce2, [ce2]);
    assert [ce1, ce2][0] == ce1 && [ce1, ce2][1] == ce2;
    assert [ce1][0] == ce1 && [ce2][0] == ce2;
  }

  /** `SupervisorRelationship` from employee to supervisor, between one and two. */
  const Supervisors := RD.RelationshipDeclaration(SupervisorRelationshipKind, Some(EmployeeKind), Some(SupervisorKind), [], [], 1, 2, false, None, false)

  /** `WrongRelationshipTargetTest`, `WrongRelationshipSourceTest` and
      `WrongRelationshipTest`: a pair no declaration mentions is refused
      before anything is recorded. */
  lemma WrongRelationship()
    ensures Ctx([], [Supervisors], []).AddRelated(SupervisorRelationshipKind, Obj(ChildKind, 1), Obj(SupervisorKind, 2))
         == Err(RelationshipDeclarationViolation)
    ensures Ctx([], [Supervisors], []).AddRelated(SupervisorRelationshipKind, Obj(EmployeeKind, 1), Obj(ChildKind, 2))
         == Err(RelationshipDeclarationViolation)
    ensures Ctx([], [Supervisors], []).AddRelated(BeneficiaryKind, Obj(EmployeeKind, 1), Obj(SupervisorKind, 2))
         == Err(RelationshipDeclarationViolation)
  {
  }

  const Boss := Obj(EmployeeKind, 1)

  function SupervisedBy(n: nat): ContextEntity
  {
    ContextEntity(Boss, Obj(SupervisorKind, n), SupervisorRelationshipKind)
  }

  /** Adding the next supervisor of the employee: accepted while the
      employee has at most two, refused at the third. */
  lemma AddSupervisor(es: seq<ContextEntity>, n: nat)
    requires forall i :: 0 <= i < |es| ==> es[i].concreteEntity == Boss && es[i].relationshipType == SupervisorRelationshipKind
    requires forall i :: 0 <= i < |es| ==> es[i].relatedTo.kind == SupervisorKind
    requires |es| <= 2
    ensures |es| < 2 ==> Ctx([], [Supervisors], es).AddRelated(SupervisorRelationshipKind, Boss, Obj(SupervisorKind, n))
                         == Ok(Ctx([], [Supervisors], es + [SupervisedBy(n)]))
    ensures |es| == 2 ==> Ctx([], [Supervisors], es).AddRelated(SupervisorRelationshipKind, Boss, Obj(SupervisorKind, n))
                          == Err(RelationshipDeclarationViolation)
  {
    var rels := R.Relationships([Supervisors]);
    var all := es + [SupervisedBy(n)];
    var p := (x: ContextEntity) => x.relationshipType == SupervisorRelationshipKind && x.concreteEntity == Boss
                                   && Supervisors.IsPrimaryOrAlternative(x.relatedTo.kind);
    FilterAll(all, p);
    assert R.CountFor(Supervisors, SupervisorRelationshipKind, Boss, all) == |es| + 1;
    assert rels.decls[0] == Supervisors;
    assert rels.ExistsFor(SupervisorRelationshipKind, Boss, Obj(SupervisorKind, n));
    assert Supervisors in rels.ChecksFor(SupervisorRelationshipKind, Boss, Obj(SupervisorKind, n));
    var v := rels.ValidateFor(SupervisorRelationshipKind, Boss, Obj(SupervisorKind, n), all);
    if |es| == 2 {
      assert !v.ok && v.minimum == 1 && v.count == 3;
    } else {
      assert v.ok;
    }
  }

  /** With one or two supervisors, every supervisor entry passes the
      relationship checks. */
  lemma SupervisorsValid(es: seq<ContextEntity>)
    requires forall i :: 0 <= i < |es| ==> es[i].concreteEntity == Boss && es[i].relationshipType == SupervisorRelationshipKind
    requires forall i :: 0 <= i < |es| ==> es[i].relatedTo.kind == SupervisorKind
    requires 1 <= |es| <= 2
    ensures Ctx([], [Supervisors], es).IsValid()
  {
    var rels := R.Relationships([Supervisors]);
    forall i | 0 <= i < |es| ensures rels.Validate(es[i], es) {
      var ce := es[i];
      FilterAll(es, (x: ContextEntity) => x.relationshipType == ce.relationshipType && x.concreteEntity == ce.concreteEntity);
      forall d | d in rels.OrChecks(ce) ensures R.InRange(d, R.OrCount(d, ce, es)) {
        R.OrCountIgnoresRelatedTo(rels, ce, es, d);
      }
    }
  }

  /** `UndoRelationshipConstraintTest`: an employee may have one or two
      supervisors; the third is refused and the two-supervisor context,
      which the refusal leaves in place, is valid. */
  lemma UndoRelationshipConstraint()
    ensures Ctx([], [Supervisors], []).AddRelated(SupervisorRelationshipKind, Boss, Obj(SupervisorKind, 2))
            == Ok(Ctx([], [Supervisors], [SupervisedBy(2)]))
    ensures Ctx([], [Supervisors], [SupervisedBy(2)]).IsValid()
    ensures Ctx([], [Supervisors], [SupervisedBy(2)]).AddRelated(SupervisorRelationshipKind, Boss, Obj(SupervisorKind, 3))
            == Ok(Ctx([], [Supervisors], [SupervisedBy(2), SupervisedBy(3)]))
    ensures Ctx([], [Supervisors], [SupervisedBy(2), SupervisedBy(3)]).IsValid()
    ensures Ctx([], [Supervisors], [SupervisedBy(2), SupervisedBy(3)]).AddRelated(SupervisorRelationshipKind, Boss, Obj(SupervisorKind, 4))
            == Err(RelationshipDeclarationViolation)
  {
    assert [] + [SupervisedBy(2)] == [SupervisedBy(2)];
    assert [SupervisedBy(2)] + [SupervisedBy(3)] == [SupervisedBy(2), SupervisedBy(3)];
    AddSupervisor([], 2);
    AddSupervisor([SupervisedBy(2)], 3);
    AddSupervisor([SupervisedBy(2), SupervisedBy(3)], 4);
    SupervisorsValid([SupervisedBy(2)]);
    SupervisorsValid([SupervisedBy(2), SupervisedBy(3)]);
  }

  /** `AndRelationshipTest` and `MissingAndRelationshipTest` as the library
      runs them: both adds succeed; the context is valid only when both
      beneficiaries were added. */
  lemma AndRelationship()
    ensures var ce1 := ContextEntity(Obj(EmployeeKind, 1), Obj(PersonKind, 2), BeneficiaryKind);
            Ctx([], [BothBeneficiaries], []).AddRelated(BeneficiaryKind, Obj(EmployeeKind, 1), Obj(PersonKind, 2))
            == Ok(Ctx([], [BothBeneficiaries], [ce1]))
    ensures var ce2 := ContextEntity(Obj(EmployeeKind, 1), Obj(NonProfitKind, 3), BeneficiaryKind);
            Ctx([], [BothBeneficiaries], []).AddRelated(BeneficiaryKind, Obj(EmployeeKind, 1), Obj(NonProfitKind, 3))
            == Ok(Ctx([], [BothBeneficiaries], [ce2]))
    ensures var ce1 := ContextEntity(Obj(EmployeeKind, 1), Obj(PersonKind, 2), BeneficiaryKind);
            var ce2 := ContextEntity(Obj(EmployeeKind, 1), Obj(NonProfitKind, 3), BeneficiaryKind);
            Ctx([], [BothBeneficiaries], [ce1]).AddRelated(BeneficiaryKind, Obj(EmployeeKind, 1), Obj(NonProfitKind, 3))
            == Ok(Ctx([], [BothBeneficiaries], [ce1, ce2]))
    ensures var ce1 := ContextEntity(Obj(EmployeeKind, 1), Obj(PersonKind, 2), BeneficiaryKind);
            var ce2 := ContextEntity(Obj(EmployeeKind, 1), Obj(NonProfitKind, 3), BeneficiaryKind);
            !Ctx([], [BothBeneficiaries], [ce1]).IsValid() && !Ctx([], [BothBeneficiaries], [ce2]).IsValid()
            && Ctx([], [BothBeneficiaries], [ce1, ce2]).IsValid()
  {
    var emp := Obj(EmployeeKind, 1);
    var ce1 := ContextEntity(emp, Obj(PersonKind, 2), BeneficiaryKind);
    var ce2 := ContextEntity(emp, Obj(NonProfitKind, 3), BeneficiaryKind);
    assert [] + [ce1] == [ce1] && [] + [ce2] == [ce2] && [ce1] + [ce2] == [ce1, ce2];
    AddEitherBeneficiary([], emp, Obj(PersonKind, 2));
    AddEitherBeneficiary([], emp, Obj(NonProfitKind, 3));
    AddEitherBeneficiary([ce1], emp, Obj(NonProfitKind, 3));
    BeneficiariesValid(emp, Obj(PersonKind, 2), Obj(NonProfitKind, 3));
  }


  /** Optional supervisors, but exactly one employee. */
  const OptionalSupervisors := RD.RelationshipDeclaration(SupervisorRelationshipKind, Some(EmployeeKind), Some(SupervisorKind), [], [], 0, 2, false, None, false)
  const OneEmployee := ED.EntityDeclaration(EmployeeKind, 1, 1, None)

  /** Without its one employee the context is invalid. */
  lemma OneEmployeeMissing()
    ensures !Ctx([OneEmployee], [OptionalSupervisors], []).IsValid()
  {
    assert !OneEmployee.Validate([]);
  }

  /** The first employee is accepted: its kind is declared, and no
      relationship declaration concerns a root entity. */
  lemma OneEmployeeAdded(e1: Entity)
    requires e1.kind == EmployeeKind
    ensures Ctx([OneEmployee], [OptionalSupervisors], []).Add(e1) == Ok(Ctx([OneEmployee], [OptionalSupervisors], [RootOf(e1)]))
  {
    var c := Ctx([OneEmployee], [OptionalSupervisors], []);
    var es := [RootOf(e1)];
    assert [] + [RootOf(e1)] == es;
    assert c.CheckDeclaration(e1, es).Ok? by {
      CountOfKindAppend([], RootOf(e1), EmployeeKind);
      assert c.declarations[0] == OneEmployee;
      assert DeclarationAdmits(c.declarations, EmployeeKind, 1);
    }
    assert c.CheckRelationship(NullRelationshipKind, e1, NullEntityInstance, es).Ok? by {
      assert SupervisorRelationshipKind.name[0] != NullRelationshipKind.name[0];
      assert forall d :: d !in c.relationships.ChecksFor(NullRelationshipKind, e1, NullEntityInstance);
    }
  }

  /** With it, the context is valid: the root entry is not checked against
      the relationship declarations. */
  lemma OneEmployeeValid(e1: Entity)
    requires e1.kind == EmployeeKind
    ensures Ctx([OneEmployee], [OptionalSupervisors], [RootOf(e1)]).IsValid()
  {
    assert OneEmployee.Validate([RootOf(e1)]) by {
      CountOfKindAppend([], RootOf(e1), EmployeeKind);
      assert [] + [RootOf(e1)] == [RootOf(e1)];
    }
  }

  /** A second employee exceeds the declared one. */
  lemma SecondEmployeeRefused(e1: Entity, e2: Entity)
    requires e1.kind == EmployeeKind && e2.kind == EmployeeKind
    ensures Ctx([OneEmployee], [OptionalSupervisors], [RootOf(e1)]).Add(e2) == Err(DeclarationViolation)
  {
    var c := Ctx([OneEmployee], [OptionalSupervisors], [RootOf(e1)]);
    assert CountOfKind(c.entities, EmployeeKind) == 1 by {
      TwoRootsCounted(e1, e2);
    }
    assert !DeclarationAdmits(c.declarations, EmployeeKind, 2) by {
      assert c.declarations == [OneEmployee];
    }
  }

  /** `OptionalRelationshipTest`: the context is invalid without its one
      employee, valid with it, and refuses a second. */
  lemma OptionalRelationship(e1: Entity, e2: Entity)
    requires e1.kind == EmployeeKind && e2.kind == EmployeeKind
    ensures !Ctx([OneEmployee], [OptionalSupervisors], []).IsValid()
    ensures Ctx([OneEmployee], [OptionalSupervisors], []).Add(e1) == Ok(Ctx([OneEmployee], [OptionalSupervisors], [RootOf(e1)]))
    ensures Ctx([OneEmployee], [OptionalSupervisors], [RootOf(e1)]).IsValid()
    ensures Ctx([OneEmployee], [OptionalSupervisors], [RootOf(e1)]).Add(e2) == Err(DeclarationViolation)
  {
    OneEmployeeMissing();
    OneEmployeeAdded(e1);
    OneEmployeeValid(e1);
    SecondEmployeeRefused(e1, e2);
  }
}

=== FILE: context_value.dfy ===
/*
 * A value entered for one field of one record: the value text, the
 * instance path and type path that place it in the context graph, and
 * its record number.
 */
module ContextValues {
  import opened Common

  datatype ContextValue = ContextValue(instanceId: Guid, value: string, recordNumber: int, instancePath: seq<Guid>, typePath: seq<Kind>)
  {
    /** `Type`: the last kind on the type path. */
    function TypeOf(): (r: Result<Kind>)
      ensures r.Ok? <==> |typePath| > 0
      ensures r.Ok? ==> r.value == typePath[|typePath| - 1]
      ensures r.Err? ==> r.error == EmptySequence
    {
      if |typePath| == 0 then Err(EmptySequence) else Ok(typePath[|typePath| - 1])
    }

    /** Whether the value's kind is `k`, for values whose type path is not empty. */
    predicate HasType(k: Kind)
    {
      |typePath| > 0 && typePath[|typePath| - 1] == k
    }

    /** The public `RecordNumber` setter. */
    function WithRecordNumber(n: int): (cv: ContextValue)
      ensures cv.recordNumber == n
      ensures cv.(recordNumber := recordNumber) == this
    {
      this.(recordNumber := n)
    }
  }

  /** The constructor `ContextValue(value, instancePath, typePath, recordNumber)`:
      the instance id is the last id on the path, so an empty instance path
      fails. */
  function NewContextValue(value: string, instancePath: seq<Guid>, typePath: seq<Kind>, recordNumber: int): (r: Result<ContextValue>)
    ensures r.Ok? <==> |instancePath| > 0
    ensures r.Err? ==> r.error == EmptySequence
    ensures r.Ok? ==> r.value.instanceId == instancePath[|instancePath| - 1] && r.value.value == value
                      && r.value.instancePath == instancePath && r.value.typePath == typePath
                      && r.value.recordNumber == recordNumber
  {
    if |instancePath| == 0 then Err(EmptySequence)
    else Ok(ContextValue(instancePath[|instancePath| - 1], value, recordNumber, instancePath, typePath))
  }
}

=== FILE: dictionary_scenarios.dfy ===
/*
 * Worked examples of the context value dictionary: one form with a name
 * field, filled in, searched and read back.
 */
module DictionaryScenarios {
  import opened Common
  import opened ContextNodes
  import opened ValueDictionary
  import CV = ContextValues
  import F = Fields
  import PS = ParserScenarios

  /** "Marc" typed into the name field of form instance 1, record 0. */
  const Marc: CV.ContextValue := CV.ContextValue(2, "Marc", 0, [1, 2], [PS.Form, PS.Name])

  /** The store after the form node has been created under the root. */
  function FormCreated(): Store
  {
    Store([RootNode.(children := [1]), Node(1, Some(PS.Form), Some(0), [], None)], [PS.Form], map[PS.Form := [1]])
  }

  /** ... and the name node under the form. */
  function NameCreated(): Store
  {
    Store([RootNode.(children := [1]), Node(1, Some(PS.Form), Some(0), [2], None), Node(2, Some(PS.Name), Some(1), [], None)],
          [PS.Form, PS.Name], map[PS.Form := [1], PS.Name := [2]])
  }

  /** ... and the value stored on the name node. */
  function Filled(): Store
  {
    NameCreated().(nodes := NameCreated().nodes[2 := NameCreated().nodes[2].(value := Some(Marc))])
  }

  lemma FormStep()
    ensures CreateNode(NewStore(), 0, 1, Marc, 0, PS.Form) == Ok((FormCreated(), 1))
  {
    var s := NewStore();
    assert |Marc.typePath| == 2;
    CreateNodeShape(s, 0, 1, Marc, 0, PS.Form);
    var nodes := s.nodes[0 := s.nodes[0].(children := s.nodes[0].children + [|s.nodes|])] + [Node(1, Some(PS.Form), Some(0), [], None)];
    assert nodes == FormCreated().nodes by {
      assert s.nodes == [RootNode] && s.nodes[0].children + [|s.nodes|] == [1];
    }
    assert (if PS.Form in s.flatView then s.flatKeys else s.flatKeys + [PS.Form]) == [PS.Form];
    assert s.flatView[PS.Form := Listed(s, PS.Form) + [|s.nodes|]] == FormCreated().flatView by {
      assert Listed(s, PS.Form) + [|s.nodes|] == [1];
    }
  }

  lemma FormCreatedValid()
    ensures Valid(FormCreated())
  {
    FormStep();
  }

  /** `Name` and `Form` are different kinds. */
  lemma KindsDiffer()
    ensures PS.Name != PS.Form
  {
    assert PS.Name.name[0] != PS.Form.name[0];
  }

  /** The store `CreateNode` builds for the name node is `NameCreated()`. */
  lemma NameStore()
    ensures var s := FormCreated();
            Store(s.nodes[1 := s.nodes[1].(children := s.nodes[1].children + [|s.nodes|])] + [Node(2, Some(PS.Name), Some(1), [], None)],
                  if PS.Name in s.flatView then s.flatKeys else s.flatKeys + [PS.Name],
                  s.flatView[PS.Name := Listed(s, PS.Name) + [|s.nodes|]])
            == NameCreated()
  {
    var s := FormCreated();
    KindsDiffer();
    assert PS.Name !in s.flatView;
    assert s.nodes[1].children + [2] == [2];
    assert s.flatKeys + [PS.Name] == [PS.Form, PS.Name];
    assert s.flatView[PS.Name := [] + [2]] == NameCreated().flatView;
  }

  lemma NameStep()
    ensures Valid(FormCreated())
    ensures CreateNode(FormCreated(), 1, 2, Marc, 1, PS.Name) == Ok((NameCreated(), 2))
  {
    FormCreatedValid();
    assert SlotClash(FormCreated(), [], PS.Name, 0) == None;
    CreateNodeShape(FormCreated(), 1, 2, Marc, 1, PS.Name);
    NameStore();
  }

  /** Filling in the first value creates the form node and the name node
      under it, indexes both, and stores the value on the name node. */
  lemma FirstValue()
    ensures AddOrUpdate(NewStore(), Marc) == Outcome(Filled(), 2, None)
  {
    FirstFormLevel();
  }

  lemma NameCreatedValid()
    ensures Valid(NameCreated())
  {
    NameStep();
  }

  /** At the end of the path the name node receives the value. */
  lemma FirstLeaf()
    ensures Valid(NameCreated())
    ensures AddFrom(NameCreated(), Marc, 2, 2) == Outcome(Filled(), 2, None)
  {
    NameCreatedValid();
    AddFromEnds(NameCreated(), Marc, 2);
  }

  /** Below the form no child has the name's id and nothing of kind `Name`
      is indexed, so the name node is created. */
  lemma FirstNameLevel()
    ensures Valid(FormCreated())
    ensures AddFrom(FormCreated(), Marc, 1, 1) == Outcome(Filled(), 2, None)
  {
    var s := FormCreated();
    NameStep();
    assert SingleChildWithId(s, 1, 2) == None by {
      assert s.nodes[1].children == [];
    }
    assert Listed(s, PS.Name) == [] by {
      KindsDiffer();
    }
    AddFromCreates(s, Marc, 1, 1, NameCreated(), 2);
    FirstLeaf();
  }

  /** Below the root likewise: the form node is created. */
  lemma FirstFormLevel()
    ensures AddFrom(NewStore(), Marc, 0, 0) == Outcome(Filled(), 2, None)
  {
    var s := NewStore();
    FormStep();
    assert SingleChildWithId(s, 0, 1) == None;
    assert Listed(s, PS.Form) == [];
    AddFromCreates(s, Marc, 0, 0, FormCreated(), 1);
    FirstNameLevel();
  }

  lemma FilledValid()
    ensures Valid(Filled())
  {
    var s := Filled();
    KindsDiffer();
    assert forall k :: k in s.flatView ==> k == PS.Form || k == PS.Name;
  }

  lemma FilledUnique()
    ensures UniqueChildIds(Filled())
  {
  }

  /** "Mark" for a second name instance of the same record. */
  const Mark: CV.ContextValue := CV.ContextValue(3, "Mark", 0, [1, 3], [PS.Form, PS.Name])

  /** A second value for the same field and record under the same form is
      refused, and the store is left as it was. */
  lemma SecondValueSameRecordRefused()
    ensures Valid(Filled())
    ensures AddOrUpdate(Filled(), Mark) == Outcome(Filled(), 1, Some(DuplicateValueSlot))
  {
    var s := Filled();
    FilledValid();
    KindsDiffer();
    FilledUnique();
    UniqueIdIsSingle(s, 0, 0);
    assert SingleChildWithId(s, 0, 1) == Some(1);
    NoChildWithId(s, 1, 3);
    assert ChildInstancePaths(s, 2, 3) == Ok([[2]]);
    assert FindShared(s, [2], [3]) == Ok(None);
    assert Mark.instancePath[1..] == [3];
    assert SlotClash(s, [2], PS.Name, 0) == Some(DuplicateValueSlot);
  }

  /** Looking the name field up by the form's id and record 0 finds the name
      node and its instance path; another record finds nothing. */
  lemma LookupByField()
    ensures Valid(Filled())
    ensures TryGetContextNode(Filled(), PS.NameField, 1, 0) == Ok(Found(2, [1, 2]))
    ensures TryGetContextNode(Filled(), PS.NameField, 1, 5) == Ok(NotFound)
    ensures TryGetContextNode(Filled(), PS.NameField, 7, 0) == Err(EmptySequence)
  {
    FilledValid();
    LookupNameRecord(0);
    LookupNameRecord(5);
    NoChildWithId(Filled(), 0, 7);
  }

  /** Looking the name field up under the form for one record: record 0 is
      the one holding "Marc". */
  lemma LookupNameRecord(rec: int)
    ensures Valid(Filled())
    ensures TryGetContextNode(Filled(), PS.NameField, 1, rec) == if rec == 0 then Ok(Found(2, [1, 2])) else Ok(NotFound)
  {
    var s := Filled();
    FilledValid();
    KindsDiffer();
    FilledUnique();
    UniqueIdIsSingle(s, 0, 0);
    assert |PS.NameField.contextPath| == 2;
    assert DescendByKind(s, 1, PS.NameField.contextPath, 1) == Ok(Some((1, [])));
    assert SingleChildWithId(s, 0, 1) == Some(1);
    assert s.nodes[1].children == [2] && s.nodes[2].value == Some(Marc);
    assert PS.NameField.contextPath[1].kind == PS.Name;
    assert SlotHolders(s, [2], PS.Name, rec) == if rec == 0 then [2] else [];
    assert [1] + [] + [2] == [1, 2];
  }

  /** A field with no context path never reads its last kind while the
      form has no children, so the lookup is `false`; once the form has a
      child, the filter reads index -1 and fails. */
  lemma EmptyPathLookup()
    ensures Valid(FormCreated()) && Valid(Filled())
    ensures TryGetContextNode(FormCreated(), F.Field("x", []), 1, 0) == Ok(NotFound)
    ensures TryGetContextNode(Filled(), F.Field("x", []), 1, 0) == Err(IndexOutOfRange)
  {
    FormCreatedValid();
    FilledValid();
    FilledUnique();
    UniqueIdIsSingle(Filled(), 0, 0);
    assert ChildrenWithId(FormCreated(), 0, 1) == [1];
  }

  /** The form's id names a top-level context of kind `Form`. */
  lemma RootTypeOfForm()
    ensures Valid(Filled())
    ensures GetRootType(Filled(), 1) == Ok(Some(PS.Form))
  {
    FilledValid();
    FilledUnique();
    UniqueIdIsSingle(Filled(), 0, 0);
  }

  /** A search value for the name field: any instance ids will do. */
  function Probe(text: string): CV.ContextValue
  {
    CV.ContextValue(9, text, 0, [8, 9], [PS.Form, PS.Name])
  }

  /** The only record under the filled form is record 0, held by the name node. */
  lemma FilledRecords()
    ensures AllValued(Filled(), [2]) && Distinct(RecordNumbers(Filled(), [2])) == [0]
    ensures SlotHolders(Filled(), [2], PS.Name, 0) == [2]
  {
    var s := Filled();
    assert AllValued(s, [2]) by {
      assert s.nodes[2].value == Some(Marc);
    }
    assert RecordNumbers(s, [2]) == [0];
    DistinctOne(0);
    SlotHoldersOne(s, 2, PS.Name, 0);
    assert s.nodes[2].kind == Some(PS.Name) && s.nodes[2].value == Some(Marc);
  }

  /** Under the filled form, "Marc" is found on record 0 ... */
  lemma MarcMatches()
    ensures Valid(Filled())
    ensures MatchNode(Filled(), 1, [Probe("Marc")]) == Ok([1])
  {
    var s := Filled();
    FilledValid();
    FilledRecords();
    assert s.nodes[1].children == [2] && s.nodes[2].value == Some(Marc);
    assert MatchRecord(s, [2], [Probe("Marc")][1..], 0) == Ok(true);
    assert MatchRecord(s, [2], [Probe("Marc")], 0) == Ok(true);
    assert MatchRecords(s, 1, [Probe("Marc")], [0][1..]) == Ok([]);
    assert [1] + [] == [1];
    assert MatchRecords(s, 1, [Probe("Marc")], [0]) == Ok([1]);
  }

  /** ... and "Bob" is not. */
  lemma BobDoesNotMatch()
    ensures Valid(Filled())
    ensures MatchNode(Filled(), 1, [Probe("Bob")]) == Ok([])
  {
    var s := Filled();
    FilledValid();
    FilledRecords();
    assert s.nodes[1].children == [2] && s.nodes[2].value == Some(Marc);
    assert "Bob"[0] != "Marc"[0];
    assert MatchRecord(s, [2], [Probe("Bob")], 0) == Ok(false);
    assert MatchRecords(s, 1, [Probe("Bob")], [0]) == Ok([]);
  }

  /** The walks and the parent path of the form node. */
  lemma FilledWalks()
    ensures Valid(Filled())
    ensures ChildInstancePaths(Filled(), 1, 3) == Ok([[1, 2]])
    ensures GetParentInstancePath(Filled(), 1) == Ok([1])
  {
    var s := Filled();
    FilledValid();
    assert ChildInstancePaths(s, 2, 2) == Ok([[2]]);
    assert WalkChildren(s, [2][1..], 2) == Ok([]);
    var two: seq<seq<Guid>> := [[2]];
    assert two + [] == two;
    assert WalkChildren(s, [2], 2) == Ok([[2]]);
    assert [1] + [2] == [1, 2];
    assert ChildInstancePaths(s, 1, 3) == Ok(seq(1, i requires 0 <= i < 1 => [1] + two[i]));
    assert seq(1, i requires 0 <= i < 1 => [1] + two[i]) == [[1, 2]];
    assert s.nodes[0].parent == None && s.nodes[1].parent == Some(0);
    assert Chain(s, 0, 2) == Ok([0]);
    assert [0] + [1] == [0, 1];
    assert Chain(s, 1, 3) == Ok([0, 1]);
    assert [0, 1][1..] == [1];
    assert Ids(s, [1]) == [1];
    assert |s.nodes| == 3;
  }

  /** The form node is the last node of its kind and hangs under the root. */
  lemma FormIsTopLevel()
    ensures Valid(Filled()) && TopLevelLast(Filled(), 1)
  {
    var s := Filled();
    FilledValid();
    assert s.flatView[PS.Form][|s.flatView[PS.Form]| - 1] == 1;
  }

  lemma FormWalk()
    ensures Valid(Filled()) && IsWalk(Filled(), 1, [1, 2])
  {
    FilledWalks();
    assert ChildInstancePaths(Filled(), 1, 3).value[0] == [1, 2];
  }

  /** The current match, the form, has a parent path starting at the form. */
  lemma FormRootedAtItself()
    ensures Valid(Filled()) && AnyRootedAt(Filled(), [1], 1) == Ok(true)
  {
    FilledWalks();
  }

  /** The form's only walk meets its own id, but a match already starts at
      the form, so nothing is appended. */
  lemma FormPathsAddNothing()
    ensures Valid(Filled()) && TopLevelLast(Filled(), 1) && IsWalk(Filled(), 1, [1, 2])
    ensures ScanPaths(Filled(), 1, 1, 1, [[1, 2]], [1], {1}) == Ok([1])
  {
    FormIsTopLevel();
    FormWalk();
    FormRootedAtItself();
    ScanPathsSeen(Filled(), 1, 1, 1, [[1, 2]], [1], {1});
  }

  /** The name node hangs under the form, not under the root, so its kind
      is skipped. */
  lemma NameKindSkipped()
    ensures Valid(Filled())
    ensures ScanKinds(Filled(), 1, 1, [1], {1}) == Ok([1])
  {
    var s := Filled();
    FilledValid();
    assert s.flatKeys[1] == PS.Name && s.flatView[PS.Name] == [2];
    assert s.nodes[2].parent == Some(1) && s.nodes[1].id != EmptyGuid;
    assert ScanKinds(s, 1, 2, [1], {1}) == Ok([1]);
  }

  /** The form is already a top-level context whose parent path starts at
      its own id, so propagation adds nothing. */
  lemma FormPropagatesNothing()
    ensures Valid(Filled())
    ensures ScanKinds(Filled(), 1, 0, [1], {1}) == Ok([1])
  {
    var s := Filled();
    FormPathsAddNothing();
    FilledWalks();
    NameKindSkipped();
    assert s.flatKeys[0] == PS.Form && s.flatView[PS.Form] == [1];
    assert s.nodes[1].parent == Some(0) && s.nodes[0].id == EmptyGuid;
  }

  /** With a single node of the parent kind, the direct matches are that
      node's matches. */
  lemma OneCandidate(s: Store, pk: Kind, n: nat, cvs: seq<CV.ContextValue>)
    requires Valid(s) && |cvs| > 0 && forall i :: 0 <= i < |cvs| ==> |cvs[i].typePath| > 0
    requires pk in s.flatView && s.flatView[pk] == [n] && n < |s.nodes|
    requires MatchNode(s, n, cvs).Ok?
    ensures DirectOf(s, cvs, pk) == MatchNode(s, n, cvs)
  {
    assert DirectMatches(s, [n][1..], cvs) == Ok([]);
    assert MatchNode(s, n, cvs).value + [] == MatchNode(s, n, cvs).value;
  }

  lemma MarcDirect()
    ensures Valid(Filled()) && DirectOf(Filled(), [Probe("Marc")], PS.Form) == Ok([1])
  {
    MarcMatches();
    OneCandidate(Filled(), PS.Form, 1, [Probe("Marc")]);
  }

  lemma MarcPropagated()
    ensures Valid(Filled()) && Propagate(Filled(), [1], 0, [1], IdSet(Filled(), [1])) == Ok([1])
  {
    FormPropagatesNothing();
    SameMatchPropagates(Filled(), 1, [1]);
  }

  /** A snapshot that lists one node, possibly several times, whose kind
      scan changes nothing propagates to itself. */
  lemma SameMatchPropagates(s: Store, n: nat, snapshot: seq<nat>)
    requires Valid(s) && n < |s.nodes| && |snapshot| > 0 && forall j :: 0 <= j < |snapshot| ==> snapshot[j] == n
    requires ScanKinds(s, s.nodes[n].id, 0, snapshot, {s.nodes[n].id}) == Ok(snapshot)
    ensures Propagate(s, snapshot, 0, snapshot, IdSet(s, snapshot)) == Ok(snapshot)
  {
    assert IdSet(s, snapshot) == {s.nodes[n].id} by {
      assert s.nodes[snapshot[0]].id in IdSet(s, snapshot);
      forall x | x in IdSet(s, snapshot)
        ensures x == s.nodes[n].id
      {
        var i :| 0 <= i < |snapshot| && s.nodes[snapshot[i]].id == x;
      }
    }
    PropagateFixed(s, snapshot, 0, snapshot, {s.nodes[n].id});
  }

  lemma BobDirect()
    ensures Valid(Filled()) && DirectOf(Filled(), [Probe("Bob")], PS.Form) == Ok([])
  {
    BobDoesNotMatch();
    OneCandidate(Filled(), PS.Form, 1, [Probe("Bob")]);
  }

  /** Searching the filled form for "Marc" returns the form ... */
  lemma SearchFindsMarc()
    ensures Valid(Filled())
    ensures Search(Filled(), [Probe("Marc")]) == Ok([1])
  {
    FilledValid();
    SearchOne(Filled(), Probe("Marc"));
    MarcDirect();
    MarcPropagated();
    SearchFromSteps(Filled(), [Probe("Marc")], PS.Form, [1], [1]);
  }

  /** ... and searching for "Bob" returns nothing. */
  lemma SearchMissesBob()
    ensures Valid(Filled())
    ensures Search(Filled(), [Probe("Bob")]) == Ok([])
  {
    FilledValid();
    SearchOne(Filled(), Probe("Bob"));
    BobDirect();
    BobPropagated();
    SearchFromSteps(Filled(), [Probe("Bob")], PS.Form, [], []);
  }

  lemma BobPropagated()
    ensures Valid(Filled()) && Propagate(Filled(), [], 0, [], IdSet(Filled(), [])) == Ok([])
  {
    FilledValid();
  }

  /** "Marc" again, as record 1 of the same form, on a new name instance. */
  const MarcAgain: CV.ContextValue := CV.ContextValue(4, "Marc", 1, [1, 4], [PS.Form, PS.Name])

  /** The filled form with a second name node created for record 1 ... */
  function SecondNameCreated(): Store
  {
    Store([RootNode.(children := [1]), Node(1, Some(PS.Form), Some(0), [2, 3], None),
           Node(2, Some(PS.Name), Some(1), [], Some(Marc)), Node(4, Some(PS.Name), Some(1), [], None)],
          [PS.Form, PS.Name], map[PS.Form := [1], PS.Name := [2, 3]])
  }

  /** ... holding its value. */
  function TwoRecords(): Store
  {
    SecondNameCreated().(nodes := SecondNameCreated().nodes[3 := SecondNameCreated().nodes[3].(value := Some(MarcAgain))])
  }

  /** Record 1 has no name slot yet under the filled form. */
  lemma SecondSlotFree()
    ensures Valid(Filled())
    ensures SlotClash(Filled(), Filled().nodes[1].children, PS.Name, 1) == None
  {
    var s := Filled();
    FilledValid();
    assert s.nodes[1].children == [2] && s.nodes[2].value == Some(Marc);
    assert SlotClash(s, [2][1..], PS.Name, 1) == None;
  }

  /** The store `CreateNode` builds for the second name node is
      `SecondNameCreated()`. */
  lemma SecondNameStore()
    ensures var s := Filled();
            Store(s.nodes[1 := s.nodes[1].(children := s.nodes[1].children + [|s.nodes|])] + [Node(4, Some(PS.Name), Some(1), [], None)],
                  if PS.Name in s.flatView then s.flatKeys else s.flatKeys + [PS.Name],
                  s.flatView[PS.Name := Listed(s, PS.Name) + [|s.nodes|]])
            == SecondNameCreated()
  {
    var s := Filled();
    KindsDiffer();
    assert Listed(s, PS.Name) + [3] == [2, 3];
    assert s.nodes[1].children + [3] == [2, 3];
    assert s.flatView[PS.Name := [2, 3]] == SecondNameCreated().flatView;
  }

  lemma SecondNameStep()
    ensures Valid(Filled())
    ensures CreateNode(Filled(), 1, 4, MarcAgain, 1, PS.Name) == Ok((SecondNameCreated(), 3))
  {
    SecondSlotFree();
    CreateNodeShape(Filled(), 1, 4, MarcAgain, 1, PS.Name);
    SecondNameStore();
  }

  /** No existing name node has a walk that is just the new instance id. */
  lemma NothingToShare()
    ensures Valid(Filled())
    ensures FindShared(Filled(), Listed(Filled(), PS.Name), [4]) == Ok(None)
  {
    var s := Filled();
    FilledValid();
    assert Listed(s, PS.Name) == [2];
    assert ChildInstancePaths(s, 2, 3) == Ok([[2]]);
    assert FindShared(s, [2][1..], [4]) == Ok(None);
  }

  lemma SecondNameCreatedValid()
    ensures Valid(SecondNameCreated())
  {
    SecondNameStep();
  }

  /** Below the form: no name node with the new id, nothing to share, so a
      sibling is created and receives the value. */
  lemma SecondDescend()
    ensures Valid(Filled())
    ensures AddFrom(Filled(), MarcAgain, 1, 1) == Outcome(TwoRecords(), 3, None)
  {
    var s := Filled();
    FilledValid();
    NoChildWithId(s, 1, 4);
    NothingToShare();
    SecondNameStep();
    assert MarcAgain.instancePath[1..] == [4];
    AddFromCreates(s, MarcAgain, 1, 1, SecondNameCreated(), 3);
    SecondNameCreatedValid();
    AddFromEnds(SecondNameCreated(), MarcAgain, 3);
  }

  /** The same text for another record of the same form goes into a new
      sibling slot: the second record is stored, not refused. */
  lemma SecondRecordStored()
    ensures Valid(Filled())
    ensures AddOrUpdate(Filled(), MarcAgain) == Outcome(TwoRecords(), 3, None)
  {
    var s := Filled();
    FilledValid();
    FilledUnique();
    UniqueIdIsSingle(s, 0, 0);
    assert SingleChildWithId(s, 0, 1) == Some(1);
    SecondDescend();
  }
}

=== FILE: entity_declaration.dfy ===
/*
 * An entity declaration: "a context holds between Minimum and Maximum
 * entities of this kind", configured through fluent cardinality builders.
 */
module EntityDeclarations {
  import opened Common
  import opened ContextEntities

  datatype EntityDeclaration = EntityDeclaration(entityType: Kind, minimum: int, maximum: int, labelText: Option<string>)
  {
    /** `OneOrMore()`: at least one; the upper bound is kept. */
    function OneOrMore(): (d: EntityDeclaration)
      ensures d.minimum == 1 && d.maximum == maximum
      ensures d.entityType == entityType && d.labelText == labelText
    {
      this.(minimum := 1)
    }

    /** `ZeroOrOne()`: optional, at most one. */
    function ZeroOrOne(): (d: EntityDeclaration)
      ensures d.minimum == 0 && d.maximum == 1
      ensures d.entityType == entityType && d.labelText == labelText
    {
      this.(minimum := 0, maximum := 1)
    }

    /** `ZeroOrMore()`: the unconstrained range. */
    function ZeroOrMore(): (d: EntityDeclaration)
      ensures d.minimum == 0 && d.maximum == IntMaxValue
      ensures d.entityType == entityType && d.labelText == labelText
    {
      this.(minimum := 0, maximum := IntMaxValue)
    }

    /** `OneAndOnlyOne()`: exactly one. */
    function OneAndOnlyOne(): (d: EntityDeclaration)
      ensures d.minimum == 1 && d.maximum == 1
      ensures d.entityType == entityType && d.labelText == labelText
    {
      this.(minimum := 1, maximum := 1)
    }

    /** `Exactly(n)`. */
    function Exactly(n: int): (d: EntityDeclaration)
      ensures d.minimum == n && d.maximum == n
      ensures d.entityType == entityType && d.labelText == labelText
    {
      this.(minimum := n, maximum := n)
    }

    /** `Min(n)`: only the lower bound changes. */
    function Min(n: int): (d: EntityDeclaration)
      ensures d.minimum == n && d.maximum == maximum
      ensures d.entityType == entityType && d.labelText == labelText
    {
      this.(minimum := n)
    }

    /** `Max(n)`: only the upper bound changes. */
    function Max(n: int): (d: EntityDeclaration)
      ensures d.maximum == n && d.minimum == minimum
      ensures d.entityType == entityType && d.labelText == labelText
    {
      this.(maximum := n)
    }

    /** `Validate(entities)`: the number of entities whose concrete runtime
        type is this declaration's kind lies within the bounds. */
    predicate Validate(entities: seq<ContextEntity>)
    {
      var c := CountOfKind(entities, entityType);
      c >= minimum && c <= maximum
    }
  }

  /** `EntityDeclaration.Create<E>(label)`: no constraint yet. */
  function Create(e: Kind, labelText: Option<string>): (d: EntityDeclaration)
    ensures d.entityType == e && d.labelText == labelText
    ensures d.minimum == 0 && d.maximum == IntMaxValue
  {
    EntityDeclaration(e, 0, IntMaxValue, labelText)
  }

  /** One call of the fluent cardinality API: a chain such as
      `Declare<E>().Min(2).Max(4)` is the list `[SetMin(2), SetMax(4)]`. */
  datatype Builder = SetOneOrMore | SetZeroOrOne | SetZeroOrMore | SetOneAndOnlyOne | SetExactly(n: int) | SetMin(n: int) | SetMax(n: int)

  function ApplyOne(d: EntityDeclaration, b: Builder): (r: EntityDeclaration)
    ensures r.entityType == d.entityType && r.labelText == d.labelText
  {
    match b
    case SetOneOrMore => d.OneOrMore()
    case SetZeroOrOne => d.ZeroOrOne()
    case SetZeroOrMore => d.ZeroOrMore()
    case SetOneAndOnlyOne => d.OneAndOnlyOne()
    case SetExactly(n) => d.Exactly(n)
    case SetMin(n) => d.Min(n)
    case SetMax(n) => d.Max(n)
  }

  /** A chain of builder calls, applied left to right. The kind and label of
      the declaration never change, so a chain cannot break uniqueness. */
  function Apply(d: EntityDeclaration, bs: seq<Builder>): (r: EntityDeclaration)
    ensures r.entityType == d.entityType && r.labelText == d.labelText
    decreases |bs|
  {
    if |bs| == 0 then d else Apply(ApplyOne(d, bs[0]), bs[1..])
  }

  /** Chains compose: applying `a` and then `b` is applying `a + b`, so the
      stored declaration is the one the calls produce one after another. */
  lemma {:induction false} ApplyAppend(d: EntityDeclaration, a: seq<Builder>, b: seq<Builder>)
    ensures Apply(d, a + b) == Apply(Apply(d, a), b)
    decreases |a|
  {
    if |a| == 0 {
      assert a + b == b;
    } else {
      assert (a + b)[0] == a[0] && (a + b)[1..] == a[1..] + b;
      ApplyAppend(ApplyOne(d, a[0]), a[1..], b);
    }
  }

  /** A one-call chain is that call. */
  lemma ApplySingle(d: EntityDeclaration, b: Builder)
    ensures Apply(d, [b]) == ApplyOne(d, b)
  {
    assert [b][1..] == [];
  }

  /** Validation in terms of positions: the declaration holds iff the
      number of positions holding its kind lies within the bounds, whatever
      entities of other kinds the list also holds. */
  lemma ValidateCountsOnlyItsKind(d: EntityDeclaration, entities: seq<ContextEntity>)
    ensures d.Validate(entities) <==> d.minimum <= |IndicesOfKind(entities, d.entityType)| <= d.maximum
  {
    CountOfKindIsNumberOfIndices(entities, d.entityType);
  }

  /** Adding an entity of another kind never changes a declaration's verdict. */
  lemma ValidateIgnoresOtherKinds(d: EntityDeclaration, entities: seq<ContextEntity>, e: ContextEntity)
    requires e.concreteEntity.kind != d.entityType
    ensures d.Validate(entities + [e]) == d.Validate(entities)
  {
    CountOfKindAppend(entities, e, d.entityType);
  }

  /** `Min(a).Max(b)` accepts exactly the counts `a..b`. */
  lemma MinMaxAcceptsRange(d: EntityDeclaration, a: int, b: int, entities: seq<ContextEntity>)
    ensures d.Min(a).Max(b).Validate(entities) <==> a <= CountOfKind(entities, d.entityType) <= b
  {
  }

  /** `Exactly(n)` is the same declaration as `Min(n).Max(n)`. */
  lemma ExactlyIsMinMax(d: EntityDeclaration, n: int)
    ensures d.Exactly(n) == d.Min(n).Max(n)
  {
  }

  /** A list of `n` root entities of kind `k`, each a distinct object. */
  function Employees(k: Kind, n: nat): (es: seq<ContextEntity>)
    ensures |es| == n
    ensures CountOfKind(es, k) == n
  {
    if n == 0 then [] else
      var es := Employees(k, n - 1) + [CreateRoot(Entity(k, Object(n)))];
      CountOfKindAppend(Employees(k, n - 1), CreateRoot(Entity(k, Object(n))), k);
      es
  }

  /** `Exactly(2)` rejects zero, one and three entities and accepts two. */
  lemma ExactlyTwoExample(k: Kind)
    ensures !Create(k, None).Exactly(2).Validate(Employees(k, 0))
    ensures !Create(k, None).Exactly(2).Validate(Employees(k, 1))
    ensures Create(k, None).Exactly(2).Validate(Employees(k, 2))
    ensures !Create(k, None).Exactly(2).Validate(Employees(k, 3))
  {
  }

  /** `Min(2).Max(4)` accepts 2, 3 and 4 entities and rejects 0, 1 and 5. */
  lemma RangeExample(k: Kind)
    ensures !Create(k, None).Min(2).Max(4).Validate(Employees(k, 0))
    ensures !Create(k, None).Min(2).Max(4).Validate(Employees(k, 1))
    ensures forall n: nat | 2 <= n <= 4 :: Create(k, None).Min(2).Max(4).Validate(Employees(k, n))
    ensures !Create(k, None).Min(2).Max(4).Validate(Employees(k, 5))
  {
  }

  /** `OneOrMore` rejects an empty list and accepts one or two entities. */
  lemma OneOrMoreExample(k: Kind)
    ensures !Create(k, None).OneOrMore().Validate(Employees(k, 0))
    ensures Create(k, None).OneOrMore().Validate(Employees(k, 1))
    ensures Create(k, None).OneOrMore().Validate(Employees(k, 2))
  {
  }
}

=== FILE: fields.dfy ===
/*
 * Context paths, fields and groups: what the parser produces for a
 * context graph.
 */
module Fields {
  import opened Common
  import opened ContextValues
  import RD = RelationshipDeclarations

  /** `ContextPath.ContextPathType`. */
  datatype ContextPathType = RootPath | AbstractionPath | RelationshipPath | HasAPath | FieldPath | ChildPath

  /** One step of a context path: how the parser got to `kind`. */
  datatype ContextPath = ContextPath(pathType: ContextPathType, kind: Kind)

  /** The kinds along a path (`Select(cp => cp.Type)`). */
  function Kinds(path: seq<ContextPath>): (ks: seq<Kind>)
    ensures |ks| == |path|
    ensures forall i :: 0 <= i < |path| ==> ks[i] == path[i].kind
  {
    seq(|path|, i requires 0 <= i < |path| => path[i].kind)
  }

  /** A field of a group. The parser keeps its stack with the top last, so
      the stack itself is the root-first path `Reverse().ToList()` builds. */
  datatype Field = Field(labelText: string, contextPath: seq<ContextPath>)
  {
    /** `GetTypePath()`. */
    function GetTypePath(): (ks: seq<Kind>)
      ensures |ks| == |contextPath|
      ensures forall i :: 0 <= i < |ks| ==> ks[i] == contextPath[i].kind
    {
      Kinds(contextPath)
    }

    /** `CreateValue(value, instancePath)`: a value of record 0 placed by the
        instance path and typed by the field's type path. */
    function CreateValue(value: string, instancePath: seq<Guid>): (r: Result<ContextValue>)
      ensures r.Ok? <==> |instancePath| > 0
      ensures r.Ok? ==> r.value.value == value && r.value.instancePath == instancePath
                        && r.value.typePath == GetTypePath() && r.value.recordNumber == 0
                        && r.value.instanceId == instancePath[|instancePath| - 1]
      ensures r.Err? ==> r.error == EmptySequence
    {
      NewContextValue(value, instancePath, GetTypePath(), 0)
    }
  }

  /** A group of fields rendered together. */
  datatype Group = Group(name: string, contextType: Kind, contextPath: seq<ContextPath>, relationship: RD.RelationshipDeclaration, fields: seq<Field>)
  {
    /** `AddField(label, contextPath)`: appends a field at the current path. */
    function AddField(labelText: string, stack: seq<ContextPath>): (r: (Group, Field))
      ensures r.1.labelText == labelText && r.1.contextPath == stack
      ensures r.0 == this.(fields := fields + [r.1])
    {
      var f := Field(labelText, stack);
      (this.(fields := fields + [f]), f)
    }
  }

  /** The `Group` constructor: no fields yet, the path copied from the stack. */
  function NewGroup(name: string, contextType: Kind, stack: seq<ContextPath>, relationship: RD.RelationshipDeclaration): (g: Group)
    ensures g.fields == [] && g.contextPath == stack && g.name == name && g.contextType == contextType
    ensures g.relationship == relationship
  {
    Group(name, contextType, stack, relationship, [])
  }

  /** A value created from a field names the field's kinds, in path order. */
  lemma CreateValueTypeMatchesField(f: Field, value: string, instancePath: seq<Guid>)
    requires |instancePath| > 0 && |f.contextPath| > 0
    ensures f.CreateValue(value, instancePath).value.TypeOf() == Ok(f.contextPath[|f.contextPath| - 1].kind)
  {
  }
}

=== FILE: lookup.dfy ===
/*
 * A lookup renderer: a list of literal texts and value kinds that renders
 * one record of a context as a line of text.
 */
module Lookups {
  import opened Common
  import opened ContextValues

  datatype LookupComponent = LookupText(text: string) | LookupEntity(valueEntity: Kind)

  /** The values a `LookupEntity` of kind `k` selects for record `recNum`. */
  function Selected(values: seq<ContextValue>, k: Kind, recNum: int): seq<ContextValue>
  {
    Filter(values, (cv: ContextValue) => cv.HasType(k) && cv.recordNumber == recNum)
  }

  /** `SingleOrDefault(cv => cv.Type == k && cv.RecordNumber == recNum)`,
      scanning in order: reading `Type` of a value with an empty type path
      fails, and so does a second match. `found` is the first match so far. */
  function SingleOrDefault(values: seq<ContextValue>, k: Kind, recNum: int, found: Option<ContextValue>): (r: Result<Option<ContextValue>>)
    ensures r.Ok? ==> |Selected(values, k, recNum)| + (if found.Some? then 1 else 0) <= 1
    ensures ((forall i :: 0 <= i < |values| ==> |values[i].typePath| > 0)
             && |Selected(values, k, recNum)| + (if found.Some? then 1 else 0) <= 1) ==> r.Ok?
    ensures r.Ok? && found.Some? ==> r.value == found
    ensures r.Ok? && found.None? ==> (r.value.None? <==> Selected(values, k, recNum) == [])
    ensures r.Ok? && found.None? && r.value.Some? ==> Selected(values, k, recNum) == [r.value.value]
    ensures r.Err? ==> r.error == EmptySequence || r.error == NotSingle
    decreases |values|
  {
    if |values| == 0 then Ok(found)
    else
      var cv := values[0];
      assert Selected(values, k, recNum) == (if cv.HasType(k) && cv.recordNumber == recNum then [cv] else []) + Selected(values[1..], k, recNum);
      assert forall i :: 1 <= i < |values| ==> values[1..][i - 1] == values[i];
      var t :- cv.TypeOf();
      if t == k && cv.recordNumber == recNum then
        if found.Some? then Err(NotSingle)
        else SingleOrDefault(values[1..], k, recNum, Some(cv))
      else SingleOrDefault(values[1..], k, recNum, found)
  }

  /** `LookupComponent.Render(...)`: a text renders as itself; a value kind
      renders as the single selected value, or as the empty string when none
      is selected. */
  function RenderComponent(c: LookupComponent, recNum: int, values: seq<ContextValue>): (r: Result<string>)
    ensures c.LookupText? ==> r == Ok(c.text)
    ensures c.LookupEntity? && (forall i :: 0 <= i < |values| ==> |values[i].typePath| > 0) ==>
              (r.Ok? <==> |Selected(values, c.valueEntity, recNum)| <= 1)
    ensures c.LookupEntity? && r.Ok? ==>
              r.value == (if Selected(values, c.valueEntity, recNum) == [] then "" else Selected(values, c.valueEntity, recNum)[0].value)
  {
    match c
    case LookupText(text) => Ok(text)
    case LookupEntity(k) =>
      var cv :- SingleOrDefault(values, k, recNum, None);
      Ok(if cv.Some? then cv.value.value else "")
  }

  datatype Lookup = Lookup(components: seq<LookupComponent>)
  {
    /** `Add(text)` and `And(text)`. */
    function AddText(text: string): (l: Lookup)
      ensures l.components == components + [LookupText(text)]
    {
      Lookup(components + [LookupText(text)])
    }

    /** `Add<T>()` and `And<T>()`. */
    function AddValue(k: Kind): (l: Lookup)
      ensures l.components == components + [LookupEntity(k)]
    {
      Lookup(components + [LookupEntity(k)])
    }

    /** `Render(contextNode, cvd, recNum, contextValues)`: the components'
        renderings concatenated in order; the first failing component fails
        the whole rendering. */
    function Render(recNum: int, values: seq<ContextValue>): (r: Result<string>)
      ensures components == [] ==> r == Ok("")
    {
      RenderAll(components, recNum, values)
    }

    /** `GetLookupEntities()`: the value kinds, in order. */
    function GetLookupEntities(): (ks: seq<Kind>)
      ensures |ks| <= |components|
      ensures forall k :: k in ks <==> LookupEntity(k) in components
    {
      ValueKinds(components)
    }
  }

  function RenderAll(cs: seq<LookupComponent>, recNum: int, values: seq<ContextValue>): Result<string>
    decreases |cs|
  {
    if |cs| == 0 then Ok("")
    else
      var head :- RenderComponent(cs[0], recNum, values);
      var tail :- RenderAll(cs[1..], recNum, values);
      Ok(head + tail)
  }

  function ValueKinds(cs: seq<LookupComponent>): (ks: seq<Kind>)
    ensures |ks| <= |cs|
    ensures forall k :: k in ks <==> LookupEntity(k) in cs
    decreases |cs|
  {
    if |cs| == 0 then []
    else
      var rest := ValueKinds(cs[1..]);
      assert forall c :: c in cs <==> c == cs[0] || c in cs[1..];
      match cs[0]
      case LookupEntity(k) => [k] + rest
      case LookupText(_) => rest
  }

  /** The value kinds of a concatenation are those of the first part
      followed by those of the second: kinds keep the components' order. */
  lemma {:induction false} ValueKindsAppend(a: seq<LookupComponent>, b: seq<LookupComponent>)
    ensures ValueKinds(a + b) == ValueKinds(a) + ValueKinds(b)
    decreases |a|
  {
    if |a| == 0 {
      assert a + b == b;
    } else {
      assert (a + b)[0] == a[0] && (a + b)[1..] == a[1..] + b;
      ValueKindsAppend(a[1..], b);
    }
  }

  /** A single value component contributes its kind; a text contributes
      nothing. */
  lemma ValueKindsOne(k: Kind, text: string)
    ensures ValueKinds([LookupEntity(k)]) == [k]
    ensures ValueKinds([LookupText(text)]) == []
  {
    assert [LookupEntity(k)][1..] == [];
    assert [LookupText(text)][1..] == [];
  }

  /** The partner of `GetLookupEntities`: adding a value kind appends it to
      the entities, in order; adding a text leaves them unchanged. */
  lemma AddExtendsEntities(l: Lookup, text: string, k: Kind)
    ensures l.AddValue(k).GetLookupEntities() == l.GetLookupEntities() + [k]
    ensures l.AddText(text).GetLookupEntities() == l.GetLookupEntities()
  {
    ValueKindsAppend(l.components, [LookupEntity(k)]);
    ValueKindsAppend(l.components, [LookupText(text)]);
    ValueKindsOne(k, text);
  }

  /** Rendering is compositional: appending a component appends its own
      rendering, and a failure of either part fails the whole. */
  lemma {:induction false} RenderAppend(cs: seq<LookupComponent>, c: LookupComponent, recNum: int, values: seq<ContextValue>)
    ensures RenderAll(cs + [c], recNum, values).Ok?
        <==> RenderAll(cs, recNum, values).Ok? && RenderComponent(c, recNum, values).Ok?
    ensures RenderAll(cs + [c], recNum, values).Ok? ==>
              RenderAll(cs + [c], recNum, values).value
              == RenderAll(cs, recNum, values).value + RenderComponent(c, recNum, values).value
    decreases |cs|
  {
    if |cs| == 0 {
      assert cs + [c] == [c];
      assert [c][1..] == [];
    } else {
      assert (cs + [c])[0] == cs[0];
      assert (cs + [c])[1..] == cs[1..] + [c];
      RenderAppend(cs[1..], c, recNum, values);
    }
  }

  /** The partner of `AddText`/`AddValue`: rendering the extended lookup is
      rendering the old one followed by the new component. */
  lemma AddExtendsRendering(l: Lookup, text: string, k: Kind, recNum: int, values: seq<ContextValue>)
    ensures l.AddText(text).Render(recNum, values).Ok? <==> l.Render(recNum, values).Ok?
    ensures l.Render(recNum, values).Ok? ==> l.AddText(text).Render(recNum, values).value == l.Render(recNum, values).value + text
    ensures l.AddValue(k).Render(recNum, values).Ok? ==>
              l.Render(recNum, values).Ok? && l.AddValue(k).Render(recNum, values).value
              == l.Render(recNum, values).value + (if Selected(values, k, recNum) == [] then "" else Selected(values, k, recNum)[0].value)
  {
    RenderAppend(l.components, LookupText(text), recNum, values);
    RenderAppend(l.components, LookupEntity(k), recNum, values);
  }

  /** A lookup of "Name: " and a value kind renders the record's value after
      the text, and only the value of the requested record. */
  lemma RenderExample(name: Kind, other: Kind)
    requires name != other
    ensures var l := Lookup([]).AddText("Name: ").AddValue(name);
            var vs := [ContextValue(7, "Marc", 0, [7], [other, name]), ContextValue(8, "Bob", 1, [8], [other, name])];
            l.Render(0, vs) == Ok("Name: Marc") && l.Render(2, vs) == Ok("Name: ")
  {
    var vs := [ContextValue(7, "Marc", 0, [7], [other, name]), ContextValue(8, "Bob", 1, [8], [other, name])];
    var p0 := (cv: ContextValue) => cv.HasType(name) && cv.recordNumber == 0;
    var p2 := (cv: ContextValue) => cv.HasType(name) && cv.recordNumber == 2;
    assert vs[1..][1..] == [];
    assert Filter(vs[1..], p0) == [];
    assert Selected(vs, name, 0) == [vs[0]];
    assert Filter(vs[1..], p2) == [];
    assert Selected(vs, name, 2) == [];
    var l := Lookup([]).AddText("Name: ").AddValue(name);
    assert l.components == [LookupText("Name: "), LookupEntity(name)];
    assert l.components[1..] == [LookupEntity(name)];
    assert l.components[1..][1..] == [];
    assert RenderComponent(LookupEntity(name), 0, vs) == Ok("Marc");
    assert RenderComponent(LookupEntity(name), 2, vs) == Ok("");
    assert RenderAll([], 0, vs) == Ok("") && RenderAll([], 2, vs) == Ok("");
    assert "Marc" + "" == "Marc" && "" + "" == "";
    assert RenderAll(l.components[1..], 0, vs) == Ok("Marc");
    assert RenderAll(l.components[1..], 2, vs) == Ok("");
    assert "Name: " + "Marc" == "Name: Marc" && "Name: " + "" == "Name: ";
    assert RenderAll(l.components, 0, vs) == Ok("Name: " + "Marc");
    assert RenderAll(l.components, 2, vs) == Ok("Name: " + "");
  }
}

=== FILE: parser.dfy ===
/*
 * The parser: walks a context's declarations, the contexts it relates to
 * and the abstractions it declares, producing groups of fields and the
 * context path of every field.
 */
module Parsing {
  import opened Common
  import opened Fields
  import C = Contexts
  import ED = EntityDeclarations
  import RD = RelationshipDeclarations
  import AD = AbstractionDeclarations
  import CV = ContextValues

  /** What reflection answers about kinds: the kinds deriving from `Context`
      (`HasBaseClass<Context>`), each with the declarations a fresh
      `Activator.CreateInstance` of it makes, and the kinds implementing
      `IValueEntity`. Every other kind is a plain `IEntity`. */
  datatype Registry = Registry(schemas: map<Kind, C.Context>, values: set<Kind>)

  /** A context object the parser is looking at: a fresh instance per
      `Activator.CreateInstance`, so the same kind may be several instances. */
  datatype Instance = Instance(id: nat, kind: Kind, schema: C.Context)

  /** The parser's state. Groups live in an arena because the library keeps
      filling a group after listing it, and lists some groups only after
      filling them; `groups` is the list of arena indices in `Groups` order.
      `relationshipKeys` are the keys of `allRelationships` in insertion
      order; `visited` holds (context instance, abstraction index) pairs. */
  datatype Parser = Parser(
    arena: seq<Group>,
    groups: seq<nat>,
    fieldPaths: seq<Field>,
    stack: seq<ContextPath>,
    allEntities: seq<Kind>,
    relationshipKeys: seq<Kind>,
    visited: set<(nat, nat)>,
    nextInstance: nat,
    parsed: bool,
    typeIds: map<Kind, Guid>,
    nextGuid: Guid,
    missing: seq<Kind>)

  /** A newly constructed parser. */
  function NewParser(): (p: Parser)
    ensures p.groups == [] && p.fieldPaths == [] && p.stack == [] && !p.parsed && GuidsFresh(p)
  {
    Parser([], [], [], [], [], [], {}, 0, false, map[], 1, [])
  }

  /** Every listed group exists. */
  predicate Valid(p: Parser)
  {
    forall i :: 0 <= i < |p.groups| ==> p.groups[i] < |p.arena|
  }

  /** Every id handed out so far is non-empty and below the next fresh one. */
  predicate GuidsFresh(p: Parser)
  {
    EmptyGuid < p.nextGuid && forall k :: k in p.typeIds ==> EmptyGuid < p.typeIds[k] < p.nextGuid
  }

  /** A field created while the stack was at least `st`: its path extends
      `st` and ends in a field segment of a value kind. */
  predicate IsNewField(f: Field, st: seq<ContextPath>, reg: Registry)
  {
    |f.contextPath| > |st| && f.contextPath[..|st|] == st
    && f.contextPath[|f.contextPath| - 1].pathType == FieldPath
    && f.contextPath[|f.contextPath| - 1].kind in reg.values
  }

  /** A group that only received more fields. */
  predicate GroupGrew(a: Group, b: Group)
  {
    b == a.(fields := b.fields) && |a.fields| <= |b.fields| && b.fields[..|a.fields|] == a.fields
  }

  /** What every parsing step guarantees: the stack is as it was, groups
      and field paths are only added (old groups only gain fields, and every
      newly listed group is one created during the step), each new field
      path extends the stack, and nothing else of the state moves
      backwards. */
  predicate Step(p: Parser, q: Parser, reg: Registry)
  {
    q.stack == p.stack
    && |p.arena| <= |q.arena|
    && (forall i :: 0 <= i < |p.arena| ==> GroupGrew(p.arena[i], q.arena[i]))
    && |p.groups| <= |q.groups| && q.groups[..|p.groups|] == p.groups
    && (forall i :: |p.groups| <= i < |q.groups| ==> |p.arena| <= q.groups[i])
    && |p.fieldPaths| <= |q.fieldPaths| && q.fieldPaths[..|p.fieldPaths|] == p.fieldPaths
    && (forall i :: |p.fieldPaths| <= i < |q.fieldPaths| ==> IsNewField(q.fieldPaths[i], p.stack, reg))
    && p.nextInstance <= q.nextInstance && p.visited <= q.visited
    && q.typeIds == p.typeIds && q.nextGuid == p.nextGuid && q.parsed == p.parsed && q.missing == p.missing
  }

  lemma StepRefl(p: Parser, reg: Registry)
    ensures Step(p, p, reg)
  {
  }

  lemma StepTrans(p: Parser, q: Parser, r: Parser, reg: Registry)
    requires Step(p, q, reg) && Step(q, r, reg)
    ensures Step(p, r, reg)
  {
    forall i | 0 <= i < |p.arena| ensures GroupGrew(p.arena[i], r.arena[i]) {
      var a, b, c := p.arena[i], q.arena[i], r.arena[i];
      assert c.fields[..|a.fields|] == c.fields[..|b.fields|][..|a.fields|];
    }
    assert r.groups[..|p.groups|] == r.groups[..|q.groups|][..|p.groups|];
    forall i | |p.groups| <= i < |r.groups| ensures |p.arena| <= r.groups[i] {
      if i < |q.groups| {
        assert r.groups[i] == r.groups[..|q.groups|][i] == q.groups[i];
      }
    }
    assert r.fieldPaths[..|p.fieldPaths|] == r.fieldPaths[..|q.fieldPaths|][..|p.fieldPaths|];
    forall i | |p.fieldPaths| <= i < |r.fieldPaths| ensures IsNewField(r.fieldPaths[i], p.stack, reg) {
      if i < |q.fieldPaths| {
        assert r.fieldPaths[i] == r.fieldPaths[..|q.fieldPaths|][i] == q.fieldPaths[i];
      }
    }
  }

  /** Work done with one more segment pushed, followed by the pop, is a step
      of the unpushed state. */
  lemma PopStep(p: Parser, seg: ContextPath, r: Parser, reg: Registry)
    requires Step(p.(stack := p.stack + [seg]), r, reg)
    ensures Step(p, r.(stack := p.stack), reg)
  {
    var q := p.(stack := p.stack + [seg]);
    forall i | |p.fieldPaths| <= i < |r.fieldPaths| ensures IsNewField(r.fieldPaths[i], p.stack, reg) {
      var f := r.fieldPaths[i];
      assert IsNewField(f, q.stack, reg);
      assert f.contextPath[..|p.stack|] == f.contextPath[..|q.stack|][..|p.stack|];
    }
  }

  /** `LogEntityType(t)`: `t` becomes a known entity and a relationship key. */
  function LogEntityType(p: Parser, k: Kind): (r: Parser)
    ensures k in r.allEntities && k in r.relationshipKeys
    ensures r == p.(allEntities := r.allEntities, relationshipKeys := r.relationshipKeys)
    ensures forall x :: x in r.allEntities <==> x in p.allEntities || x == k
    ensures forall x :: x in r.relationshipKeys <==> x in p.relationshipKeys || x == k
  {
    var p1 := if k in p.allEntities then p else p.(allEntities := p.allEntities + [k]);
    if k in p1.relationshipKeys then p1 else p1.(relationshipKeys := p1.relationshipKeys + [k])
  }

  /** `LogRelationship(left, right)`: `left` becomes a relationship key (the
      right-hand lists are never read, so they are not kept). */
  function LogRelationship(p: Parser, left: Kind): (r: Parser)
    ensures left in r.relationshipKeys
    ensures r == p.(relationshipKeys := r.relationshipKeys)
    ensures forall x :: x in r.relationshipKeys <==> x in p.relationshipKeys || x == left
  {
    if left in p.relationshipKeys then p else p.(relationshipKeys := p.relationshipKeys + [left])
  }

  /** `Activator.CreateInstance(k)` for a context kind. */
  function NewInstance(p: Parser, reg: Registry, k: Kind): (r: (Parser, Instance))
    requires k in reg.schemas
    ensures r.1.kind == k && r.1.schema == reg.schemas[k] && r.1.id == p.nextInstance
    ensures r.0 == p.(nextInstance := p.nextInstance + 1)
  {
    (p.(nextInstance := p.nextInstance + 1), Instance(p.nextInstance, k, reg.schemas[k]))
  }

  /** A new group in the arena, not yet listed. */
  function AddGroup(p: Parser, g: Group): (r: (Parser, nat))
    ensures r.1 == |p.arena| && r.0.arena == p.arena + [g]
    ensures r.0 == p.(arena := r.0.arena)
  {
    (p.(arena := p.arena + [g]), |p.arena|)
  }

  /** `groups.Add(group)`. */
  function ListGroup(p: Parser, g: nat): (r: Parser)
    ensures r == p.(groups := p.groups + [g])
  {
    p.(groups := p.groups + [g])
  }

  /** Push a field segment, add a field to group `g` at that path, record its
      field context path, pop. */
  function EmitField(p: Parser, reg: Registry, g: nat, labelText: string, k: Kind): (r: Parser)
    requires g < |p.arena|
    ensures k in reg.values ==> Step(p, r, reg)
    ensures Valid(p) ==> Valid(r)
    ensures |r.fieldPaths| == |p.fieldPaths| + 1 && |r.arena| == |p.arena|
    ensures r.fieldPaths[|p.fieldPaths|] == Field(labelText, p.stack + [ContextPath(FieldPath, k)])
    ensures r.arena[g].fields == p.arena[g].fields + [Field(labelText, p.stack + [ContextPath(FieldPath, k)])]
  {
    var (grp, f) := p.arena[g].AddField(labelText, p.stack + [ContextPath(FieldPath, k)]);
    var r := p.(arena := p.arena[g := grp], fieldPaths := p.fieldPaths + [f]);
    assert r.fieldPaths[..|p.fieldPaths|] == p.fieldPaths;
    assert grp.fields[..|p.arena[g].fields|] == p.arena[g].fields;
    assert f.contextPath[..|p.stack|] == p.stack;
    r
  }

  lemma StepOfGroupAdd(p: Parser, grp: Group, reg: Registry)
    ensures Step(p, AddGroup(p, grp).0, reg)
    ensures Step(p, ListGroup(p, |p.arena|), reg)
  {
    assert (p.groups + [|p.arena|])[..|p.groups|] == p.groups;
  }

  /** The segment a context is entered with: a root segment when reached
      through no relationship, a relationship segment otherwise. */
  function EntrySegment(rel: RD.RelationshipDeclaration, k: Kind): (seg: ContextPath)
    ensures seg.kind == k
    ensures seg.pathType == RootPath <==> rel.relationshipType == NullRelationshipKind
    ensures seg.pathType in {RootPath, RelationshipPath}
  {
    if rel.relationshipType == NullRelationshipKind then ContextPath(RootPath, k)
    else ContextPath(RelationshipPath, k)
  }

  /** `GenerateMasterGroups(contextPath, groups, group, context, relationship)`:
      refuses a context already on the path, then pushes the context as a
      root or relationship segment and collects its fields, its roots'
      abstractions, its relationships, and its remaining abstractions. */
  function GenerateMasterGroups(fuel: nat, p: Parser, reg: Registry, g: nat, inst: Instance, rel: RD.RelationshipDeclaration): (r: Result<Parser>)
    requires Valid(p) && g < |p.arena|
    ensures r.Ok? ==> Step(p, r.value, reg) && Valid(r.value)
    ensures Any(p.stack, (c: ContextPath) => c.kind == inst.kind) ==> r == Err(RecursiveContext(inst.kind))
    ensures r.Ok? ==> forall i :: |p.fieldPaths| <= i < |r.value.fieldPaths| ==>
                        IsNewField(r.value.fieldPaths[i], p.stack + [EntrySegment(rel, inst.kind)], reg)
    decreases fuel, 1
  {
    if Any(p.stack, (c: ContextPath) => c.kind == inst.kind) then Err(RecursiveContext(inst.kind))
    else if fuel == 0 then Err(OutOfFuel)
    else
      var p1 := LogEntityType(p, inst.kind);
      var seg := EntrySegment(rel, inst.kind);
      var q :- MasterBody(fuel, p1.(stack := p1.stack + [seg]), reg, g, inst);
      PopStep(p1, seg, q, reg);
      StepTrans(p, p1, q.(stack := p1.stack), reg);
      Ok(q.(stack := p1.stack))
  }

  /** The four collections of `GenerateMasterGroups` once the context's
      segment is pushed: its fields, its roots' abstractions, its
      relationships, and its remaining abstractions. */
  function MasterBody(fuel: nat, q0: Parser, reg: Registry, g: nat, inst: Instance): (r: Result<Parser>)
    requires Valid(q0) && g < |q0.arena| && fuel > 0
    ensures r.Ok? ==> Step(q0, r.value, reg) && Valid(r.value)
    decreases fuel, 0
  {
    var q1 :- CreateFields(fuel - 1, q0, reg, g, inst, 0);
    var q2 :- DrillRoots(fuel - 1, q1, reg, g, inst, 0);
    StepTrans(q0, q1, q2, reg);
    var q3 :- RelationalGroups(fuel - 1, q2, reg, g, inst, 0);
    StepTrans(q0, q2, q3, reg);
    var q4 :- SelfAbstractions(fuel - 1, q3, reg, g, inst, 0);
    StepTrans(q0, q3, q4, reg);
    Ok(q4)
  }

  /** A kind that is neither a context nor a value entity. */
  predicate Unknown(reg: Registry, k: Kind)
  {
    k !in reg.schemas && k !in reg.values
  }

  /** A value kind that is not also a context: every branch of the parser
      turns it into a field. */
  predicate FieldKind(reg: Registry, k: Kind)
  {
    k in reg.values && k !in reg.schemas
  }

  /** `ds[m]` is the first declaration from `i` on whose kind is unknown,
      and every declaration before it has a field kind. */
  predicate UnknownAfterFields(reg: Registry, ds: seq<ED.EntityDeclaration>, i: int, m: int)
  {
    0 <= i <= m < |ds| && Unknown(reg, ds[m].entityType)
    && forall j :: i <= j < m ==> FieldKind(reg, ds[j].entityType)
  }

  /** `CreateFields(contextPath, context, group)` from the `i`-th root
      declaration on: a context kind is drilled into as a has-a, a value kind
      becomes a field labelled by the declaration's label or the kind's name,
      anything else is refused with a `ContextException`. */
  function CreateFields(fuel: nat, p: Parser, reg: Registry, g: nat, inst: Instance, i: nat): (r: Result<Parser>)
    requires Valid(p) && g < |p.arena|
    ensures r.Ok? ==> Step(p, r.value, reg) && Valid(r.value)
    decreases fuel, |inst.schema.declarations| - i
  {
    if i >= |inst.schema.declarations| then Ok(p)
    else
      var root := inst.schema.declarations[i];
      var k := root.entityType;
      var p1 := LogEntityType(p, k);
      var q :- (if k in reg.schemas then
                  if fuel == 0 then Err(OutOfFuel) else HasA(fuel - 1, p1, reg, g, root)
                else if k in reg.values then Ok(EmitField(p1, reg, g, OrElse(root.labelText, k.name), k))
                else Err(NotContextOrValueEntity(k)));
      var r :- CreateFields(fuel, q, reg, g, inst, i + 1);
      StepTrans(p, q, r, reg);
      Ok(r)
  }

  /** The has-a branch of `CreateFields`: a fresh instance of the root's
      context kind; its value roots become fields labelled by the outer
      declaration, its context roots are children in the same group; then
      the abstractions that fresh instance declares for the root's kind. */
  function HasA(fuel: nat, p: Parser, reg: Registry, g: nat, root: ED.EntityDeclaration): (r: Result<Parser>)
    requires Valid(p) && g < |p.arena| && root.entityType in reg.schemas
    ensures r.Ok? ==> Step(p, r.value, reg) && Valid(r.value)
    decreases fuel, 0
  {
    if fuel == 0 then Err(OutOfFuel)
    else
      var (p1, rootInst) := NewInstance(p, reg, root.entityType);
      var seg := ContextPath(HasAPath, root.entityType);
      var q0 := p1.(stack := p1.stack + [seg]);
      var q1 :- HasALoop(fuel - 1, q0, reg, g, root, rootInst, 0);
      var q2 :- DrillDecl(fuel - 1, q1, reg, g, rootInst, root.entityType, 0);
      StepTrans(q0, q1, q2, reg);
      PopStep(p1, seg, q2, reg);
      Ok(q2.(stack := p1.stack))
  }

  /** The loop of the has-a branch over the inner context's root
      declarations, from the `j`-th on: a value kind becomes a field labelled
      by the outer declaration's label or the kind's name, a context kind is
      a child, anything else is refused with a `ContextException`. */
  function HasALoop(fuel: nat, p: Parser, reg: Registry, g: nat, root: ED.EntityDeclaration, rootInst: Instance, j: nat): (r: Result<Parser>)
    requires Valid(p) && g < |p.arena|
    ensures r.Ok? ==> Step(p, r.value, reg) && Valid(r.value)
    decreases fuel, |rootInst.schema.declarations| - j
  {
    if j >= |rootInst.schema.declarations| then Ok(p)
    else
      var k := rootInst.schema.declarations[j].entityType;
      var p1 := LogEntityType(p, k);
      var q :- (if k in reg.values then Ok(EmitField(p1, reg, g, OrElse(root.labelText, k.name), k))
                else if k in reg.schemas then
                  if fuel == 0 then Err(OutOfFuel) else Child(fuel - 1, p1, reg, g, k)
                else Err(NotContextOrValueEntity(k)));
      var r :- HasALoop(fuel, q, reg, g, root, rootInst, j + 1);
      StepTrans(p, q, r, reg);
      Ok(r)
  }

  /** A child context inside a has-a: pushed as a child segment, its fields
      go into the same group. */
  function Child(fuel: nat, p: Parser, reg: Registry, g: nat, k: Kind): (r: Result<Parser>)
    requires Valid(p) && g < |p.arena| && k in reg.schemas
    ensures r.Ok? ==> Step(p, r.value, reg) && Valid(r.value)
    decreases fuel, 0
  {
    if fuel == 0 then Err(OutOfFuel)
    else
      var seg := ContextPath(ChildPath, k);
      var (p1, childInst) := NewInstance(p, reg, k);
      var q0 := p1.(stack := p1.stack + [seg]);
      var q1 :- CreateFields(fuel - 1, q0, reg, g, childInst, 0);
      PopStep(p1, seg, q1, reg);
      Ok(q1.(stack := p1.stack))
  }

  /** `DrillIntoAbstraction(contextPath, context, group, decl)`: every
      abstraction the instance declares with sub-kind `sub`, from index `j` on. */
  function DrillDecl(fuel: nat, p: Parser, reg: Registry, g: nat, inst: Instance, sub: Kind, j: nat): (r: Result<Parser>)
    requires Valid(p) && g < |p.arena|
    ensures r.Ok? ==> Step(p, r.value, reg) && Valid(r.value)
    decreases fuel, |inst.schema.abstractions.decls| - j
  {
    if j >= |inst.schema.abstractions.decls| then Ok(p)
    else
      var q :- (if inst.schema.abstractions.decls[j].subType == sub then
                  if fuel == 0 then Err(OutOfFuel) else DrillAbstraction(fuel - 1, p, reg, g, inst, j)
                else Ok(p));
      var r :- DrillDecl(fuel, q, reg, g, inst, sub, j + 1);
      StepTrans(p, q, r, reg);
      Ok(r)
  }

  /** `DrillIntoAbstraction(contextPath, context, group, abstraction)` for the
      instance's `j`-th abstraction: logs it as visited; a context
      super-kind with roots gets its own listed group unless coalesced, and
      for each of its roots the abstraction segment is pushed and all its
      fields, then that root's abstractions, are collected. */
  function DrillAbstraction(fuel: nat, p: Parser, reg: Registry, g: nat, inst: Instance, j: nat): (r: Result<Parser>)
    requires Valid(p) && g < |p.arena| && j < |inst.schema.abstractions.decls|
    ensures r.Ok? ==> Step(p, r.value, reg) && Valid(r.value)
    ensures r.Ok? ==> (inst.id, j) in r.value.visited
    decreases fuel, 1
  {
    var a := inst.schema.abstractions.decls[j];
    var p1 := LogEntityType(p, a.superType);
    var p2 := LogRelationship(p1, a.subType);
    var p3 := p2.(visited := p2.visited + {(inst.id, j)});
    assert Step(p, p3, reg) by {
      assert p3 == p.(allEntities := p3.allEntities, relationshipKeys := p3.relationshipKeys, visited := p3.visited);
    }
    var q :- SuperGroup(fuel, p3, reg, g, a);
    StepTrans(p, p3, q, reg);
    Ok(q)
  }

  /** The rest of `DrillIntoAbstraction` once the abstraction is logged: only
      a context super-kind with root declarations contributes fields. */
  function SuperGroup(fuel: nat, p: Parser, reg: Registry, g: nat, a: AD.AbstractionDeclaration): (r: Result<Parser>)
    requires Valid(p) && g < |p.arena|
    ensures r.Ok? ==> Step(p, r.value, reg) && Valid(r.value)
    decreases fuel, 0
  {
    if a.superType !in reg.schemas then Ok(p)
    else
      var (p4, superInst) := NewInstance(p, reg, a.superType);
      if |superInst.schema.declarations| == 0 then Ok(p4)
      else if fuel == 0 then Err(OutOfFuel)
      else
        var grp := NewGroup(OrElse(a.labelText, a.superType.name), a.superType, p4.stack, RD.NullRelationship());
        var (p5, g2) := SuperGroupTarget(p4, reg, g, grp, a.shouldCoalesce);
        var q :- AbstractionRoots(fuel - 1, p5, reg, g2, superInst, 0);
        StepTrans(p4, p5, q, reg);
        StepTrans(p, p4, q, reg);
        Ok(q)
  }

  /** The group an abstraction's fields go into: the current one when the
      abstraction is coalesced, otherwise a new listed group. */
  function SuperGroupTarget(p: Parser, reg: Registry, g: nat, grp: Group, coalesce: bool): (r: (Parser, nat))
    requires Valid(p) && g < |p.arena|
    ensures Step(p, r.0, reg) && Valid(r.0) && r.1 < |r.0.arena|
    ensures coalesce ==> r == (p, g)
    ensures !coalesce ==> r.1 == |p.arena| && r.0.arena == p.arena + [grp] && r.0.groups == p.groups + [r.1]
  {
    if coalesce then
      StepRefl(p, reg);
      (p, g)
    else
      var pa := AddGroup(p, grp).0;
      assert Step(p, ListGroup(pa, |p.arena|), reg) by {
        assert (p.groups + [|p.arena|])[..|p.groups|] == p.groups;
      }
      (ListGroup(pa, |p.arena|), |p.arena|)
  }

  function AbstractionRoots(fuel: nat, p: Parser, reg: Registry, g: nat, superInst: Instance, k: nat): (r: Result<Parser>)
    requires Valid(p) && g < |p.arena|
    ensures r.Ok? ==> Step(p, r.value, reg) && Valid(r.value)
    decreases fuel, |superInst.schema.declarations| - k
  {
    if k >= |superInst.schema.declarations| then Ok(p)
    else if fuel == 0 then Err(OutOfFuel)
    else
      var seg := ContextPath(AbstractionPath, superInst.kind);
      var q0 := p.(stack := p.stack + [seg]);
      var q1 :- CreateFields(fuel - 1, q0, reg, g, superInst, 0);
      var q2 :- DrillDecl(fuel - 1, q1, reg, g, superInst, superInst.schema.declarations[k].entityType, 0);
      StepTrans(q0, q1, q2, reg);
      PopStep(p, seg, q2, reg);
      var r :- AbstractionRoots(fuel, q2.(stack := p.stack), reg, g, superInst, k + 1);
      StepTrans(p, q2.(stack := p.stack), r, reg);
      Ok(r)
  }

  /** The loop of `GenerateMasterGroups` over the root declarations: each
      root's abstractions. */
  function DrillRoots(fuel: nat, p: Parser, reg: Registry, g: nat, inst: Instance, i: nat): (r: Result<Parser>)
    requires Valid(p) && g < |p.arena|
    ensures r.Ok? ==> Step(p, r.value, reg) && Valid(r.value)
    decreases fuel, |inst.schema.declarations| - i
  {
    if i >= |inst.schema.declarations| then Ok(p)
    else if fuel == 0 then Err(OutOfFuel)
    else
      var q :- DrillDecl(fuel - 1, p, reg, g, inst, inst.schema.declarations[i].entityType, 0);
      var r :- DrillRoots(fuel, q, reg, g, inst, i + 1);
      StepTrans(p, q, r, reg);
      Ok(r)
  }

  /** `GenerateRelationalGroups` from the `i`-th relationship declaration on. */
  function RelationalGroups(fuel: nat, p: Parser, reg: Registry, g: nat, inst: Instance, i: nat): (r: Result<Parser>)
    requires Valid(p) && g < |p.arena|
    ensures r.Ok? ==> Step(p, r.value, reg) && Valid(r.value)
    decreases fuel, |inst.schema.relationships.decls| - i
  {
    if i >= |inst.schema.relationships.decls| then Ok(p)
    else if fuel == 0 then Err(OutOfFuel)
    else
      var q :- Sources(fuel - 1, p, reg, g, inst, inst.schema.relationships.decls[i], 0);
      var r :- RelationalGroups(fuel, q, reg, g, inst, i + 1);
      StepTrans(p, q, r, reg);
      Ok(r)
  }

  /** The inner loop of `GenerateRelationalGroups` over one declaration's
      sources, from the `k`-th on. A context source is a fresh instance
      parsed as a master group in a new listed group (or, coalesced, in the
      current one); any other source gets a group of the abstractions this
      context declares for it, listed only if that gave it fields. */
  function Sources(fuel: nat, p: Parser, reg: Registry, g: nat, inst: Instance, rel: RD.RelationshipDeclaration, k: nat): (r: Result<Parser>)
    requires Valid(p) && g < |p.arena|
    ensures r.Ok? ==> Step(p, r.value, reg) && Valid(r.value)
    ensures k < |rel.AllSourceTypes()| && (rel.targetType.None? || rel.AllSourceTypes()[k].None?) ==> r == Err(NullReference)
    decreases fuel, |rel.AllSourceTypes()| - k
  {
    var srcs := rel.AllSourceTypes();
    if k >= |srcs| then Ok(p)
    else if rel.targetType.None? || srcs[k].None? then Err(NullReference)
    else if fuel == 0 then Err(OutOfFuel)
    else
      var s := srcs[k].value;
      var p1 := LogRelationship(p, rel.targetType.value);
      var p2 := LogEntityType(p1, s);
      LoggingIsStep(p, reg, rel.targetType.value, s);
      var q :- SourceOne(fuel - 1, p2, reg, g, inst, rel, s);
      StepTrans(p, p2, q, reg);
      var r :- Sources(fuel, q, reg, g, inst, rel, k + 1);
      StepTrans(p, q, r, reg);
      Ok(r)
  }

  /** Logging a relationship and an entity type moves nothing the parsing
      steps track. */
  lemma LoggingIsStep(p: Parser, reg: Registry, left: Kind, k: Kind)
    ensures Step(p, LogEntityType(LogRelationship(p, left), k), reg)
    ensures Valid(p) ==> Valid(LogEntityType(LogRelationship(p, left), k))
  {
  }

  function SourceOne(fuel: nat, p: Parser, reg: Registry, g: nat, inst: Instance, rel: RD.RelationshipDeclaration, s: Kind): (r: Result<Parser>)
    requires Valid(p) && g < |p.arena|
    ensures r.Ok? ==> Step(p, r.value, reg) && Valid(r.value)
    decreases fuel, 1
  {
    if fuel == 0 then Err(OutOfFuel)
    else if s in reg.schemas then SourceContext(fuel, p, reg, g, rel, s)
    else SourceEntity(fuel, p, reg, inst, rel, s)
  }

  /** A context source: a fresh instance, parsed as a master group in a new
      listed group, or in the current group when the relationship coalesces. */
  function SourceContext(fuel: nat, p: Parser, reg: Registry, g: nat, rel: RD.RelationshipDeclaration, s: Kind): (r: Result<Parser>)
    requires Valid(p) && g < |p.arena| && s in reg.schemas && fuel > 0
    ensures r.Ok? ==> Step(p, r.value, reg) && Valid(r.value)
    decreases fuel, 0
  {
    var (p1, relInst) := NewInstance(p, reg, s);
    if rel.shouldCoalesce then
      GenerateMasterGroups(fuel - 1, p1, reg, g, relInst, rel)
    else
      var grp := NewGroup(OrElse(OrElseOption(rel.labelText, relInst.schema.labelText), s.name), s, p1.stack, rel);
      var (pb, gi) := SuperGroupTarget(p1, reg, g, grp, false);
      var q :- GenerateMasterGroups(fuel - 1, pb, reg, gi, relInst, rel);
      StepTrans(p1, pb, q, reg);
      Ok(q)
  }

  /** Any other source: a group of the abstractions this context declares for
      it, listed only if that gave it fields. */
  function SourceEntity(fuel: nat, p: Parser, reg: Registry, inst: Instance, rel: RD.RelationshipDeclaration, s: Kind): (r: Result<Parser>)
    requires Valid(p) && fuel > 0
    ensures r.Ok? ==> Step(p, r.value, reg) && Valid(r.value)
    decreases fuel, 0
  {
    var egroup := NewGroup(OrElse(rel.labelText, s.name), s, p.stack, rel);
    var (pa, ei) := AddGroup(p, egroup);
    StepOfGroupAdd(p, egroup, reg);
    var q :- DrillDecl(fuel - 1, pa, reg, ei, inst, s, 0);
    StepTrans(p, pa, q, reg);
    if |q.arena[ei].fields| > 0 then
      assert Step(p, ListGroup(q, ei), reg) by {
        assert (q.groups + [ei])[..|p.groups|] == q.groups[..|p.groups|];
      }
      Ok(ListGroup(q, ei))
    else Ok(q)
  }

  /** The last loop of `GenerateMasterGroups`: every abstraction the instance
      declares that has not been drilled into for this instance yet. */
  function SelfAbstractions(fuel: nat, p: Parser, reg: Registry, g: nat, inst: Instance, j: nat): (r: Result<Parser>)
    requires Valid(p) && g < |p.arena|
    ensures r.Ok? ==> Step(p, r.value, reg) && Valid(r.value)
    decreases fuel, |inst.schema.abstractions.decls| - j
  {
    if j >= |inst.schema.abstractions.decls| then Ok(p)
    else
      var q :- (if (inst.id, j) in p.visited then Ok(p)
                else if fuel == 0 then Err(OutOfFuel)
                else DrillAbstraction(fuel - 1, p, reg, g, inst, j));
      var r :- SelfAbstractions(fuel, q, reg, g, inst, j + 1);
      StepTrans(p, q, r, reg);
      Ok(r)
  }

  /** `Parse(context)`: forgets the entities, relationships and visited
      abstractions of an earlier parse (but not its groups or field paths),
      lists a group for the root context and generates its master groups. */
  function Parse(fuel: nat, p: Parser, reg: Registry, rootKind: Kind, root: C.Context): (r: Result<Parser>)
    requires Valid(p)
    ensures r.Ok? ==> r.value.parsed && Valid(r.value) && r.value.stack == p.stack
    ensures r.Ok? ==> |r.value.groups| > |p.groups| && r.value.groups[..|p.groups|] == p.groups
                      && r.value.groups[|p.groups|] == |p.arena|
    ensures r.Ok? ==> var grp := r.value.arena[|p.arena|];
                      grp.name == OrElse(root.labelText, rootKind.name) && grp.contextType == rootKind
                      && grp.contextPath == p.stack && grp.relationship == RD.NullRelationship()
    ensures r.Ok? ==> |r.value.fieldPaths| >= |p.fieldPaths| && r.value.fieldPaths[..|p.fieldPaths|] == p.fieldPaths
    ensures r.Ok? ==> forall i :: |p.fieldPaths| <= i < |r.value.fieldPaths| ==>
                        IsNewField(r.value.fieldPaths[i], p.stack + [ContextPath(RootPath, rootKind)], reg)
    ensures Any(p.stack, (c: ContextPath) => c.kind == rootKind) ==> r == Err(RecursiveContext(rootKind))
  {
    var p1 := p.(allEntities := [], relationshipKeys := [], visited := {});
    var inst := Instance(p1.nextInstance, rootKind, root);
    var p2 := p1.(nextInstance := p1.nextInstance + 1);
    var grp := NewGroup(OrElse(OrElseOption(RD.NullRelationship().labelText, root.labelText), rootKind.name), rootKind, p2.stack, RD.NullRelationship());
    var (p3, gi) := AddGroup(p2, grp);
    var p4 := ListGroup(p3, gi);
    var q :- GenerateMasterGroups(fuel, p4, reg, gi, inst, RD.NullRelationship());
    assert GroupGrew(p4.arena[gi], q.arena[gi]);
    assert q.groups[..|p.groups|] == q.groups[..|p4.groups|][..|p.groups|];
    assert q.groups[|p.groups|] == q.groups[..|p4.groups|][|p.groups|];
    Ok(q.(parsed := true))
  }

  /** `AreDeclarationsValid`: after clearing the missing list, refuses an
      unparsed parser; otherwise every relationship key that was never
      logged as an entity is missing, in key order. */
  function AreDeclarationsValid(p: Parser): (r: (Parser, Result<bool>))
    ensures r.1.Ok? <==> p.parsed
    ensures r.1.Err? ==> r.1.error == NotParsed
    ensures r.1.Ok? ==> (r.1.value <==> forall k :: k in p.relationshipKeys ==> k in p.allEntities)
    ensures forall k :: k in r.0.missing <==> p.parsed && k in p.relationshipKeys && k !in p.allEntities
    ensures r.1.Ok? ==> (r.1.value <==> r.0.missing == [])
    ensures r.0 == p.(missing := r.0.missing)
  {
    if !p.parsed then (p.(missing := []), Err(NotParsed))
    else
      var m := Filter(p.relationshipKeys, (k: Kind) => k !in p.allEntities);
      assert |m| > 0 ==> m[0] in m;
      (p.(missing := m), Ok(|m| == 0))
  }

  /** The id of one type on an instance path: the one recorded for it, or a
      fresh one that is recorded. */
  function IdFor(p: Parser, t: Kind): (r: (Parser, Guid))
    ensures t in r.0.typeIds && r.0.typeIds[t] == r.1
    ensures t in p.typeIds ==> r.0 == p && r.1 == p.typeIds[t]
    ensures t !in p.typeIds ==> r.1 == p.nextGuid && r.0.nextGuid == p.nextGuid + 1 && r.0.typeIds == p.typeIds[t := r.1]
    ensures r.0 == p.(typeIds := r.0.typeIds, nextGuid := r.0.nextGuid)
  {
    if t in p.typeIds then (p, p.typeIds[t])
    else (p.(typeIds := p.typeIds[t := p.nextGuid], nextGuid := p.nextGuid + 1), p.nextGuid)
  }

  /** The ids of every type in `ts`, in order. */
  function IdsFor(p: Parser, ts: seq<Kind>): (r: (Parser, seq<Guid>))
    ensures |r.1| == |ts|
    ensures r.0 == p.(typeIds := r.0.typeIds, nextGuid := r.0.nextGuid)
    ensures p.nextGuid <= r.0.nextGuid
    decreases |ts|
  {
    if |ts| == 0 then (p, [])
    else
      var (p1, id) := IdFor(p, ts[0]);
      var (p2, rest) := IdsFor(p1, ts[1..]);
      (p2, [id] + rest)
  }

  /** The ids `IdsFor` hands out: recorded ids are kept, the recorded types
      grow only by the types asked for, each position gets its type's
      recorded id, and fresh ids stay fresh. */
  lemma {:induction false} IdsForRecords(p: Parser, ts: seq<Kind>)
    ensures var r := IdsFor(p, ts);
            (GuidsFresh(p) ==> GuidsFresh(r.0))
            && (forall k :: k in p.typeIds ==> k in r.0.typeIds && r.0.typeIds[k] == p.typeIds[k])
            && (forall k :: k in r.0.typeIds ==> k in p.typeIds || k in ts)
            && (forall i :: 0 <= i < |ts| ==> ts[i] in r.0.typeIds && r.0.typeIds[ts[i]] == r.1[i])
    decreases |ts|
  {
    if |ts| > 0 {
      var (p1, id) := IdFor(p, ts[0]);
      IdsForRecords(p1, ts[1..]);
      assert forall i :: 1 <= i < |ts| ==> ts[i] == ts[1..][i - 1];
    }
  }

  /** `CreateInstancePath(types)`: one id per type but the last, stable for
      each type within this parser, and a fresh id for the value itself. */
  function CreateInstancePath(p: Parser, types: seq<Kind>): (r: (Parser, seq<Guid>))
    ensures |r.1| == if |types| == 0 then 1 else |types|
    ensures r.0 == p.(typeIds := r.0.typeIds, nextGuid := r.0.nextGuid)
    ensures forall i :: 0 <= i < |r.1| - 1 ==> types[i] in r.0.typeIds && r.1[i] == r.0.typeIds[types[i]]
    ensures forall i :: 0 <= i < |r.1| - 1 && types[i] in p.typeIds ==> r.1[i] == p.typeIds[types[i]]
    ensures forall k :: k in p.typeIds ==> k in r.0.typeIds && r.0.typeIds[k] == p.typeIds[k]
    ensures GuidsFresh(p) ==> GuidsFresh(r.0)
    ensures GuidsFresh(p) ==> (p.nextGuid <= r.1[|r.1| - 1] && r.1[|r.1| - 1] !in r.1[..|r.1| - 1]
                               && forall k :: k in r.0.typeIds ==> r.0.typeIds[k] != r.1[|r.1| - 1])
  {
    var n := if |types| == 0 then 0 else |types| - 1;
    var (p1, ids) := IdsFor(p, types[..n]);
    IdsForRecords(p, types[..n]);
    var last := p1.nextGuid;
    assert forall i :: 0 <= i < n ==> types[i] == types[..n][i];
    var r := (p1.(nextGuid := last + 1), ids + [last]);
    assert r.1[..|r.1| - 1] == ids;
    r
  }

  /** Within one parser, two instance paths share the id of every type they
      both name before their last position, and their last ids differ. */
  lemma InstancePathsShareIds(p: Parser, a: seq<Kind>, b: seq<Kind>, i: nat, j: nat)
    requires GuidsFresh(p)
    requires i < |a| - 1 && j < |b| - 1 && a[i] == b[j]
    ensures var (p1, x) := CreateInstancePath(p, a);
            var (p2, y) := CreateInstancePath(p1, b);
            x[i] == y[j] && x[|x| - 1] != y[|y| - 1]
  {
  }

  /** Every type of `types` agrees with the first kinds of the path, up to `m`. */
  predicate AgreesUpTo(f: Field, types: seq<Kind>, m: nat)
  {
    m <= |f.contextPath| && m <= |types| && forall i :: 0 <= i < m ==> f.contextPath[i].kind == types[i]
  }

  /** A field whose path begins with the kinds `types`. */
  predicate Matches(f: Field, types: seq<Kind>)
  {
    AgreesUpTo(f, types, |types|)
  }

  /** A field whose whole path is a proper prefix of `types`. */
  predicate TooShort(f: Field, types: seq<Kind>)
  {
    |f.contextPath| < |types| && AgreesUpTo(f, types, |f.contextPath|)
  }

  /** One step of the loop of `CreateContextValue`: the paths whose `n`-th
      kind is `types[n]`. */
  function KeepKindAt(paths: seq<Field>, types: seq<Kind>, n: nat): (r: seq<Field>)
    requires n < |types|
    ensures forall f :: f in r <==> f in paths && |f.contextPath| > n && f.contextPath[n].kind == types[n]
  {
    Filter(paths, (f: Field) => |f.contextPath| > n && f.contextPath[n].kind == types[n])
  }

  /** The loop of `CreateContextValue` from position `n` on: keep the paths
      whose `n`-th kind is `types[n]`; indexing a path that is too short fails. */
  function Narrow(paths: seq<Field>, types: seq<Kind>, n: nat): (r: Result<seq<Field>>)
    ensures r.Err? ==> r.error == IndexOutOfRange
    decreases |types| - n
  {
    if n >= |types| then Ok(paths)
    else if Any(paths, (f: Field) => |f.contextPath| <= n) then Err(IndexOutOfRange)
    else Narrow(KeepKindAt(paths, types, n), types, n + 1)
  }

  /** The paths kept by one step agree with the types one position further. */
  lemma KeepKindAtAgrees(paths: seq<Field>, types: seq<Kind>, n: nat)
    requires n < |types|
    requires forall i :: 0 <= i < |paths| ==> AgreesUpTo(paths[i], types, n)
    ensures forall i :: 0 <= i < |KeepKindAt(paths, types, n)| ==> AgreesUpTo(KeepKindAt(paths, types, n)[i], types, n + 1)
  {
    var next := KeepKindAt(paths, types, n);
    forall i | 0 <= i < |next| ensures AgreesUpTo(next[i], types, n + 1) {
      assert next[i] in paths;
      var j :| 0 <= j < |paths| && paths[j] == next[i];
      assert AgreesUpTo(paths[j], types, n);
    }
  }

  /** When no path ends at or before position `n`, a path that is a proper
      prefix of the types survives the step, and only such paths are kept. */
  lemma KeepKindAtTooShort(paths: seq<Field>, types: seq<Kind>, n: nat)
    requires n < |types|
    requires forall i :: 0 <= i < |paths| ==> AgreesUpTo(paths[i], types, n) && |paths[i].contextPath| > n
    ensures (exists i :: 0 <= i < |paths| && TooShort(paths[i], types))
            <==> exists j :: 0 <= j < |KeepKindAt(paths, types, n)| && TooShort(KeepKindAt(paths, types, n)[j], types)
  {
    var next := KeepKindAt(paths, types, n);
    if exists i :: 0 <= i < |paths| && TooShort(paths[i], types) {
      var i :| 0 <= i < |paths| && TooShort(paths[i], types);
      assert paths[i] in next;
      var j :| 0 <= j < |next| && next[j] == paths[i];
      assert TooShort(next[j], types);
    }
    if exists j :: 0 <= j < |next| && TooShort(next[j], types) {
      var j :| 0 <= j < |next| && TooShort(next[j], types);
      assert next[j] in paths;
      var i :| 0 <= i < |paths| && paths[i] == next[j];
      assert TooShort(paths[i], types);
    }
  }

  /** Narrowing one position at a time is filtering by the whole prefix at
      once, and it fails exactly when some path is a proper prefix of the
      types. */
  lemma {:induction false} NarrowIsPrefixFilter(paths: seq<Field>, types: seq<Kind>, n: nat)
    requires n <= |types|
    requires forall i :: 0 <= i < |paths| ==> AgreesUpTo(paths[i], types, n)
    ensures Narrow(paths, types, n).Ok? ==> Narrow(paths, types, n).value == Filter(paths, (f: Field) => Matches(f, types))
    ensures Narrow(paths, types, n).Err? <==> exists i :: 0 <= i < |paths| && TooShort(paths[i], types)
    decreases |types| - n, 1
  {
    if n == |types| {
      FilterAll(paths, (f: Field) => Matches(f, types));
      assert forall i :: 0 <= i < |paths| ==> !TooShort(paths[i], types);
    } else if Any(paths, (f: Field) => |f.contextPath| <= n) {
      var i :| 0 <= i < |paths| && |paths[i].contextPath| <= n;
      assert TooShort(paths[i], types);
    } else {
      NarrowStep(paths, types, n);
    }
  }

  /** The step case: no path ends at or before position `n`, so narrowing
      continues with the paths kept at `n`. */
  lemma {:induction false} NarrowStep(paths: seq<Field>, types: seq<Kind>, n: nat)
    requires n < |types|
    requires forall i :: 0 <= i < |paths| ==> AgreesUpTo(paths[i], types, n) && |paths[i].contextPath| > n
    ensures Narrow(paths, types, n).Ok? ==> Narrow(paths, types, n).value == Filter(paths, (f: Field) => Matches(f, types))
    ensures Narrow(paths, types, n).Err? <==> exists i :: 0 <= i < |paths| && TooShort(paths[i], types)
    decreases |types| - n, 0
  {
    var m := (f: Field) => Matches(f, types);
    var q := (f: Field) => |f.contextPath| > n && f.contextPath[n].kind == types[n];
    var next := KeepKindAt(paths, types, n);
    assert !Any(paths, (f: Field) => |f.contextPath| <= n);
    assert Narrow(paths, types, n) == Narrow(next, types, n + 1);
    KeepKindAtAgrees(paths, types, n);
    NarrowIsPrefixFilter(next, types, n + 1);
    assert next == Filter(paths, q);
    FilterFilter(paths, q, m);
    KeepKindAtTooShort(paths, types, n);
  }

  /** `CreateContextValue(value, recordNumber, types)`: the last type must be
      a value kind, exactly one recorded field path may begin with the
      types, and the value is placed by a new instance path for them. */
  function CreateContextValue(p: Parser, reg: Registry, value: string, recordNumber: int, types: seq<Kind>): (r: Result<(Parser, CV.ContextValue)>)
    ensures r.Ok? ==> var (p1, cv) := r.value;
                      cv.value == value && cv.recordNumber == recordNumber
                      && |types| > 0 && |cv.instancePath| == |types| && cv.instanceId == cv.instancePath[|types| - 1]
                      && p1 == p.(typeIds := p1.typeIds, nextGuid := p1.nextGuid)
    ensures |types| == 0 ==> r == Err(EmptySequence)
    ensures |types| > 0 && types[|types| - 1] !in reg.values ==> r == Err(AssertionFailed)
  {
    if |types| == 0 then Err(EmptySequence)
    else if types[|types| - 1] !in reg.values then Err(AssertionFailed)
    else
      var matching :- Narrow(p.fieldPaths, types, 0);
      if |matching| != 1 then Err(AssertionFailed)
      else
        var (p1, ids) := CreateInstancePath(p, types);
        var cv := matching[0].CreateValue(value, ids).value;
        Ok((p1, cv.WithRecordNumber(recordNumber)))
  }

  /** The outcome of `CreateContextValue` in terms of the recorded field
      paths: it succeeds iff the types are non-empty, end in a value kind, no
      path is a proper prefix of them and exactly one path begins with them;
      the value then carries that path's kinds. */
  lemma CreateContextValueMeaning(p: Parser, reg: Registry, value: string, recordNumber: int, types: seq<Kind>)
    ensures var r := CreateContextValue(p, reg, value, recordNumber, types);
            var fs := Filter(p.fieldPaths, (f: Field) => Matches(f, types));
            (r.Ok? <==> |types| > 0 && types[|types| - 1] in reg.values
                        && (forall i :: 0 <= i < |p.fieldPaths| ==> !TooShort(p.fieldPaths[i], types))
                        && |fs| == 1)
            && (r.Ok? ==> r.value.1.typePath == fs[0].GetTypePath())
            && (r.Err? && |types| > 0 && types[|types| - 1] in reg.values ==> r.error in {IndexOutOfRange, AssertionFailed})
  {
    if |types| > 0 {
      NarrowIsPrefixFilter(p.fieldPaths, types, 0);
    }
  }
}

=== FILE: parser_properties.dfy ===
/*
 * Properties of the grouping parser that relate several of its steps:
 * which declarations it refuses, and which groups it lists.
 */
module ParserProperties {
  import opened Common
  import opened Fields
  import opened Parsing
  import ED = EntityDeclarations
  import RD = RelationshipDeclarations
  import AD = AbstractionDeclarations

  /** A root of unknown kind is refused on the spot. */
  lemma CreateFieldsRefusesHere(fuel: nat, p: Parser, reg: Registry, g: nat, inst: Instance, i: nat)
    requires Valid(p) && g < |p.arena|
    requires i < |inst.schema.declarations| && Unknown(reg, inst.schema.declarations[i].entityType)
    ensures CreateFields(fuel, p, reg, g, inst, i) == Err(NotContextOrValueEntity(inst.schema.declarations[i].entityType))
  {
  }

  /** `CreateFields` refuses the first unknown kind it meets with a
      `ContextException` naming that kind. */
  lemma {:induction false} CreateFieldsRefusesUnknown(fuel: nat, p: Parser, reg: Registry, g: nat, inst: Instance, i: nat, m: int)
    ensures Valid(p) && g < |p.arena| && UnknownAfterFields(reg, inst.schema.declarations, i, m) ==>
              CreateFields(fuel, p, reg, g, inst, i) == Err(NotContextOrValueEntity(inst.schema.declarations[m].entityType))
    decreases m - i
  {
    var ds := inst.schema.declarations;
    if Valid(p) && g < |p.arena| && UnknownAfterFields(reg, ds, i, m) {
      assert m > i ==> UnknownAfterFields(reg, ds, i + 1, m);
      var q := CreateFieldsRootStep(fuel, p, reg, g, inst, i);
      if m > i {
        CreateFieldsRefusesUnknown(fuel, q.value, reg, g, inst, i + 1, m);
      }
    }
  }

  /** Whatever the `i`-th root does (`q` is its outcome), a failure of it
      or of the remaining roots is a failure of the whole. */
  lemma CreateFieldsRootStep(fuel: nat, p: Parser, reg: Registry, g: nat, inst: Instance, i: nat) returns (q: Result<Parser>)
    requires Valid(p) && g < |p.arena| && i < |inst.schema.declarations|
    ensures FieldKind(reg, inst.schema.declarations[i].entityType) ==> q.Ok?
    ensures Unknown(reg, inst.schema.declarations[i].entityType) ==> q == Err(NotContextOrValueEntity(inst.schema.declarations[i].entityType))
    ensures q.Err? ==> CreateFields(fuel, p, reg, g, inst, i) == Err(q.error)
    ensures q.Ok? ==> Valid(q.value) && g < |q.value.arena|
    ensures q.Ok? && CreateFields(fuel, q.value, reg, g, inst, i + 1).Err? ==>
              CreateFields(fuel, p, reg, g, inst, i) == CreateFields(fuel, q.value, reg, g, inst, i + 1)
  {
    var d := inst.schema.declarations[i];
    var k := d.entityType;
    var p1 := LogEntityType(p, k);
    q := if k in reg.schemas then
           if fuel == 0 then Err(OutOfFuel) else HasA(fuel - 1, p1, reg, g, d)
         else if k in reg.values then Ok(EmitField(p1, reg, g, OrElse(d.labelText, k.name), k))
         else Err(NotContextOrValueEntity(k));
  }

  /** The has-a loop refuses a declaration of unknown kind on the spot. */
  lemma HasALoopRefusesHere(fuel: nat, p: Parser, reg: Registry, g: nat, root: ED.EntityDeclaration, rootInst: Instance, j: nat)
    requires Valid(p) && g < |p.arena|
    requires j < |rootInst.schema.declarations| && Unknown(reg, rootInst.schema.declarations[j].entityType)
    ensures HasALoop(fuel, p, reg, g, root, rootInst, j) == Err(NotContextOrValueEntity(rootInst.schema.declarations[j].entityType))
  {
  }

  /** The has-a loop refuses the first unknown kind it meets with a
      `ContextException` naming that kind. */
  lemma {:induction false} HasALoopRefusesUnknown(fuel: nat, p: Parser, reg: Registry, g: nat, root: ED.EntityDeclaration, rootInst: Instance, j: nat, m: int)
    ensures Valid(p) && g < |p.arena| && UnknownAfterFields(reg, rootInst.schema.declarations, j, m) ==>
              HasALoop(fuel, p, reg, g, root, rootInst, j) == Err(NotContextOrValueEntity(rootInst.schema.declarations[m].entityType))
    decreases m - j
  {
    var ds := rootInst.schema.declarations;
    if Valid(p) && g < |p.arena| && UnknownAfterFields(reg, ds, j, m) {
      assert m > j ==> UnknownAfterFields(reg, ds, j + 1, m);
      var q := HasALoopRootStep(fuel, p, reg, g, root, rootInst, j);
      if m > j {
        HasALoopRefusesUnknown(fuel, q.value, reg, g, root, rootInst, j + 1, m);
      }
    }
  }


  /** Whatever the `j`-th declaration of the has-a loop does (`q` is its
      outcome), a failure of it or of the remaining ones is a failure of the
      whole. */
  lemma HasALoopRootStep(fuel: nat, p: Parser, reg: Registry, g: nat, root: ED.EntityDeclaration, rootInst: Instance, j: nat) returns (q: Result<Parser>)
    requires Valid(p) && g < |p.arena| && j < |rootInst.schema.declarations|
    ensures FieldKind(reg, rootInst.schema.declarations[j].entityType) ==> q.Ok?
    ensures Unknown(reg, rootInst.schema.declarations[j].entityType) ==> q == Err(NotContextOrValueEntity(rootInst.schema.declarations[j].entityType))
    ensures q.Err? ==> HasALoop(fuel, p, reg, g, root, rootInst, j) == Err(q.error)
    ensures q.Ok? ==> Valid(q.value) && g < |q.value.arena|
    ensures q.Ok? && HasALoop(fuel, q.value, reg, g, root, rootInst, j + 1).Err? ==>
              HasALoop(fuel, p, reg, g, root, rootInst, j) == HasALoop(fuel, q.value, reg, g, root, rootInst, j + 1)
  {
    var k := rootInst.schema.declarations[j].entityType;
    var p1 := LogEntityType(p, k);
    q := if k in reg.values then Ok(EmitField(p1, reg, g, OrElse(root.labelText, k.name), k))
         else if k in reg.schemas then
           if fuel == 0 then Err(OutOfFuel) else Child(fuel - 1, p1, reg, g, k)
         else Err(NotContextOrValueEntity(k));
  }

  /** The has-a of `root`, given fuel, runs its loop from `q0` over a fresh
      instance of the root's context kind, and fails as that loop fails. */
  lemma HasAStep(fuel: nat, p: Parser, reg: Registry, g: nat, root: ED.EntityDeclaration, e: Error) returns (q0: Parser, rootInst: Instance)
    requires Valid(p) && g < |p.arena| && root.entityType in reg.schemas
    ensures Valid(q0) && g < |q0.arena| && rootInst.schema == reg.schemas[root.entityType]
    ensures fuel > 0 && HasALoop(fuel - 1, q0, reg, g, root, rootInst, 0) == Err(e) ==> HasA(fuel, p, reg, g, root) == Err(e)
  {
    var pi := NewInstance(p, reg, root.entityType);
    rootInst := pi.1;
    q0 := pi.0.(stack := pi.0.stack + [ContextPath(HasAPath, root.entityType)]);
  }

  /** With fuel left, a has-a refuses the first root of unknown kind after
      plain value roots with a `ContextException` naming that kind. */
  lemma HasARefusesUnknown(fuel: nat, p: Parser, reg: Registry, g: nat, root: ED.EntityDeclaration, m: int)
    requires Valid(p) && g < |p.arena| && root.entityType in reg.schemas && fuel > 0
    requires UnknownAfterFields(reg, reg.schemas[root.entityType].declarations, 0, m)
    ensures HasA(fuel, p, reg, g, root) == Err(NotContextOrValueEntity(reg.schemas[root.entityType].declarations[m].entityType))
  {
    var e := NotContextOrValueEntity(reg.schemas[root.entityType].declarations[m].entityType);
    var q0, rootInst := HasAStep(fuel, p, reg, g, root, e);
    assert UnknownAfterFields(reg, rootInst.schema.declarations, 0, m);
    HasALoopRefusesUnknown(fuel - 1, q0, reg, g, root, rootInst, 0, m);
    assert HasALoop(fuel - 1, q0, reg, g, root, rootInst, 0) == Err(e);
  }

  /** The group of a source that is not a context sits at the first free
      arena slot, is named by the relationship's label or else the source
      kind's name, and is listed exactly when the abstractions drilled into
      gave it fields. */
  lemma SourceEntityListsIffFilled(fuel: nat, p: Parser, reg: Registry, inst: Instance, rel: RD.RelationshipDeclaration, s: Kind)
    requires Valid(p) && fuel > 0
    ensures var r := SourceEntity(fuel, p, reg, inst, rel, s);
            r.Ok? ==> |p.arena| < |r.value.arena|
                      && r.value.arena[|p.arena|].name == OrElse(rel.labelText, s.name)
                      && r.value.arena[|p.arena|].contextType == s
                      && r.value.arena[|p.arena|].relationship == rel
                      && (|p.arena| in r.value.groups <==> |r.value.arena[|p.arena|].fields| > 0)
  {
    var egroup := NewGroup(OrElse(rel.labelText, s.name), s, p.stack, rel);
    var (pa, ei) := AddGroup(p, egroup);
    var qq := DrillDecl(fuel - 1, pa, reg, ei, inst, s, 0);
    if qq.Ok? {
      var q := qq.value;
      assert GroupGrew(pa.arena[ei], q.arena[ei]);
      forall i | 0 <= i < |q.groups| ensures q.groups[i] != ei {
        if i < |pa.groups| {
          assert q.groups[i] == q.groups[..|pa.groups|][i] == p.groups[i];
        }
      }
    }
  }

  /** A context source already on the path is refused, whether or not the
      relationship coalesces. */
  lemma SourceContextRefusesRecursion(fuel: nat, p: Parser, reg: Registry, g: nat, rel: RD.RelationshipDeclaration, s: Kind)
    requires Valid(p) && g < |p.arena| && s in reg.schemas && fuel > 0
    requires Any(p.stack, (c: ContextPath) => c.kind == s)
    ensures SourceContext(fuel, p, reg, g, rel, s) == Err(RecursiveContext(s))
  {
    var (p1, relInst) := NewInstance(p, reg, s);
    if !rel.shouldCoalesce {
      var grp := NewGroup(OrElse(OrElseOption(rel.labelText, relInst.schema.labelText), s.name), s, p1.stack, rel);
      var (pb, gi) := SuperGroupTarget(p1, reg, g, grp, false);
      assert pb.stack == p.stack;
    }
  }

  /** A context source is parsed into a new group listed right after the
      existing ones, named by the relationship's label, else the source
      context's own label, else its kind's name. */
  lemma SourceContextGroup(fuel: nat, p: Parser, reg: Registry, g: nat, rel: RD.RelationshipDeclaration, s: Kind)
    requires Valid(p) && g < |p.arena| && s in reg.schemas && fuel > 0
    ensures var r := SourceContext(fuel, p, reg, g, rel, s);
            !rel.shouldCoalesce && r.Ok? ==>
              |p.groups| < |r.value.groups| && r.value.groups[|p.groups|] == |p.arena| && |p.arena| < |r.value.arena|
              && r.value.arena[|p.arena|].name == OrElse(OrElseOption(rel.labelText, reg.schemas[s].labelText), s.name)
              && r.value.arena[|p.arena|].contextType == s
              && r.value.arena[|p.arena|].relationship == rel
  {
    var (p1, relInst) := NewInstance(p, reg, s);
    if !rel.shouldCoalesce {
      var grp := NewGroup(OrElse(OrElseOption(rel.labelText, relInst.schema.labelText), s.name), s, p1.stack, rel);
      var (pb, gi) := SuperGroupTarget(p1, reg, g, grp, false);
      var qq := GenerateMasterGroups(fuel - 1, pb, reg, gi, relInst, rel);
      if qq.Ok? {
        var q := qq.value;
        assert q.groups[|p.groups|] == q.groups[..|pb.groups|][|p.groups|] == pb.groups[|p.groups|];
        assert GroupGrew(pb.arena[gi], q.arena[gi]);
      }
    }
  }

  /** A coalescing relationship parses a context source into the current
      group, creating none. */
  lemma SourceContextCoalesced(fuel: nat, p: Parser, reg: Registry, g: nat, rel: RD.RelationshipDeclaration, s: Kind)
    requires Valid(p) && g < |p.arena| && s in reg.schemas && fuel > 0 && rel.shouldCoalesce
    ensures SourceContext(fuel, p, reg, g, rel, s)
            == GenerateMasterGroups(fuel - 1, p.(nextInstance := p.nextInstance + 1), reg, g, Instance(p.nextInstance, s, reg.schemas[s]), rel)
  {
    assert NewInstance(p, reg, s) == (p.(nextInstance := p.nextInstance + 1), Instance(p.nextInstance, s, reg.schemas[s]));
  }

  /** An abstraction whose super kind is not a context contributes nothing;
      a context super kind without root declarations only uses up an
      instance number; otherwise, unless coalesced, its fields go into a new
      group listed right after the existing ones, named by the abstraction's
      label or else the super kind's name. */
  lemma SuperGroupShape(fuel: nat, p: Parser, reg: Registry, g: nat, a: AD.AbstractionDeclaration)
    requires Valid(p) && g < |p.arena|
    ensures a.superType !in reg.schemas ==> SuperGroup(fuel, p, reg, g, a) == Ok(p)
    ensures a.superType in reg.schemas && |reg.schemas[a.superType].declarations| == 0 ==>
              SuperGroup(fuel, p, reg, g, a) == Ok(p.(nextInstance := p.nextInstance + 1))
    ensures var r := SuperGroup(fuel, p, reg, g, a);
            a.superType in reg.schemas && |reg.schemas[a.superType].declarations| > 0 && !a.shouldCoalesce && r.Ok? ==>
              |p.groups| < |r.value.groups| && r.value.groups[|p.groups|] == |p.arena| && |p.arena| < |r.value.arena|
              && r.value.arena[|p.arena|].name == OrElse(a.labelText, a.superType.name)
              && r.value.arena[|p.arena|].contextType == a.superType
  {
    if a.superType in reg.schemas && |reg.schemas[a.superType].declarations| > 0 && !a.shouldCoalesce && fuel > 0 {
      var (p4, superInst) := NewInstance(p, reg, a.superType);
      var grp := NewGroup(OrElse(a.labelText, a.superType.name), a.superType, p4.stack, RD.NullRelationship());
      var (p5, g2) := SuperGroupTarget(p4, reg, g, grp, false);
      var qq := AbstractionRoots(fuel - 1, p5, reg, g2, superInst, 0);
      if qq.Ok? {
        var q := qq.value;
        assert q.groups[|p.groups|] == q.groups[..|p5.groups|][|p.groups|] == p5.groups[|p.groups|];
        assert GroupGrew(p5.arena[g2], q.arena[g2]);
      }
    }
  }
}

=== FILE: parser_scenarios.dfy ===
/*
 * Small context graphs parsed end to end: a single value field, a
 * context related to itself, and a relationship whose target is never
 * declared.
 */
module ParserScenarios {
  import opened Common
  import opened Fields
  import opened Parsing
  import C = Contexts
  import ED = EntityDeclarations
  import RD = RelationshipDeclarations
  import R = Relationships

  const Form: Kind := Kind("Form")
  const Name: Kind := Kind("Name")
  const Parent: Kind := Kind("Parent")
  const Target: Kind := Kind("Target")

  /** A context declaring one value entity. */
  const NameForm: C.Context := C.NewContext(None).(declarations := [ED.Create(Name, None)])

  const NameRegistry: Registry := Registry(map[Form := NameForm], {Name})

  const FormInstance: Instance := Instance(0, Form, NameForm)

  const FormGroup: Group := NewGroup("Form", Form, [], RD.NullRelationship())

  const NameField: Field := Field("Name", [ContextPath(RootPath, Form), ContextPath(FieldPath, Name)])

  /** The parser once `Parse` has listed the root group. */
  function Listed(): Parser
  {
    NewParser().(arena := [FormGroup], groups := [0], nextInstance := 1)
  }

  /** The parser inside `GenerateMasterGroups`, with the root segment pushed. */
  function Entered(): Parser
  {
    LogEntityType(Listed(), Form).(stack := [ContextPath(RootPath, Form)])
  }

  /** The parser after the one field was created. */
  function Filled(): Parser
  {
    EmitField(LogEntityType(Entered(), Name), NameRegistry, 0, "Name", Name)
  }

  lemma FilledHasOneField()
    ensures Filled().arena == [FormGroup.(fields := [NameField])] && Filled().fieldPaths == [NameField]
    ensures Filled().groups == [0] && Filled().stack == [ContextPath(RootPath, Form)]
  {
    var l := LogEntityType(Entered(), Name);
    assert l.stack + [ContextPath(FieldPath, Name)] == NameField.contextPath;
  }

  lemma FormFieldsCreated()
    ensures CreateFields(2, Entered(), NameRegistry, 0, FormInstance, 0) == Ok(Filled())
  {
    FilledHasOneField();
    assert CreateFields(2, Filled(), NameRegistry, 0, FormInstance, 1) == Ok(Filled());
  }

  lemma FormHasNothingElse()
    ensures DrillRoots(2, Filled(), NameRegistry, 0, FormInstance, 0) == Ok(Filled())
    ensures RelationalGroups(2, Filled(), NameRegistry, 0, FormInstance, 0) == Ok(Filled())
    ensures SelfAbstractions(2, Filled(), NameRegistry, 0, FormInstance, 0) == Ok(Filled())
  {
    FilledHasOneField();
    assert DrillDecl(1, Filled(), NameRegistry, 0, FormInstance, Name, 0) == Ok(Filled());
    assert DrillRoots(2, Filled(), NameRegistry, 0, FormInstance, 1) == Ok(Filled());
  }

  lemma FormMasterGroups()
    ensures GenerateMasterGroups(3, Listed(), NameRegistry, 0, FormInstance, RD.NullRelationship()) == Ok(Filled().(stack := []))
  {
    FormFieldsCreated();
    FormHasNothingElse();
    assert EntrySegment(RD.NullRelationship(), Form) == ContextPath(RootPath, Form);
    assert LogEntityType(Listed(), Form).stack + [ContextPath(RootPath, Form)] == [ContextPath(RootPath, Form)];
    assert !Any(Listed().stack, (c: ContextPath) => c.kind == Form);
  }

  /** The parser after `Parse` of the name form. */
  function Parsed(): Parser
  {
    Filled().(stack := [], parsed := true)
  }

  lemma ParsedIsParseResult()
    ensures Parse(3, NewParser(), NameRegistry, Form, NameForm) == Ok(Parsed())
  {
    var p := NewParser();
    var p2 := p.(allEntities := [], relationshipKeys := [], visited := {}).(nextInstance := 1);
    assert p2 == p.(nextInstance := 1);
    var grp := NewGroup(OrElse(OrElseOption(RD.NullRelationship().labelText, NameForm.labelText), Form.name), Form, p2.stack, RD.NullRelationship());
    assert grp == FormGroup;
    assert ListGroup(AddGroup(p2, grp).0, 0) == Listed();
    FormMasterGroups();
  }

  /** A context declaring one value entity parses to one group holding one
      field, labelled by the kind's name, at the path root-then-field. */
  lemma OneValueField()
    ensures var r := Parse(3, NewParser(), NameRegistry, Form, NameForm);
            r.Ok? && r.value.groups == [0] && r.value.parsed
            && r.value.arena[0].name == "Form"
            && r.value.arena == [FormGroup.(fields := [NameField])]
            && r.value.fieldPaths == [NameField]
  {
    ParsedIsParseResult();
    FilledHasOneField();
  }

  /** The same context has valid declarations once parsed: every kind the
      parse logged as a relationship key was also logged as an entity, so no
      kind is missing. */
  lemma OneValueFieldDeclarationsValid()
    ensures var r := Parse(3, NewParser(), NameRegistry, Form, NameForm);
            r.Ok? && AreDeclarationsValid(r.value) == (r.value.(missing := []), Ok(true))
  {
    ParsedIsParseResult();
    ParsedKeysLogged();
    var q := Parsed();
    var m := Filter(q.relationshipKeys, (k: Kind) => k !in q.allEntities);
    assert |m| > 0 ==> m[0] in m;
  }

  /** Every relationship key the parse logged was also logged as an entity. */
  lemma ParsedKeysLogged()
    ensures Parsed().parsed && forall k :: k in Parsed().relationshipKeys ==> k in Parsed().allEntities
  {
    assert Listed().relationshipKeys == [] && Listed().allEntities == [];
  }

  /** A value for the full path gets the field's kinds, the record number
      and a two-id instance path. */
  lemma ValueForFullPath()
    ensures var r := CreateContextValue(Parsed(), NameRegistry, "Ada", 7, [Form, Name]);
            r.Ok? && r.value.1.typePath == [Form, Name] && r.value.1.value == "Ada"
            && r.value.1.recordNumber == 7 && |r.value.1.instancePath| == 2
  {
    FilledHasOneField();
    var m := (f: Field) => Matches(f, [Form, Name]);
    assert m(NameField);
    assert Filter([NameField], m) == [NameField];
    assert NameField.GetTypePath() == [Form, Name];
    CreateContextValueMeaning(Parsed(), NameRegistry, "Ada", 7, [Form, Name]);
  }

  /** A path whose last kind is a context is refused. */
  lemma ValueNamingContextRefused()
    ensures CreateContextValue(Parsed(), NameRegistry, "Ada", 0, [Form]) == Err(AssertionFailed)
  {
  }

  /** A path that does not start at the root matches no field. */
  lemma ValueNotFromRootRefused()
    ensures CreateContextValue(Parsed(), NameRegistry, "Ada", 0, [Name]) == Err(AssertionFailed)
  {
    FilledHasOneField();
    assert Narrow([NameField], [Name], 0) == Ok([]);
  }

  /** A path running past the field's own path indexes it out of range. */
  lemma ValuePastFieldRefused()
    ensures CreateContextValue(Parsed(), NameRegistry, "Ada", 0, [Form, Name, Name]) == Err(IndexOutOfRange)
  {
    FilledHasOneField();
    var ts := [Form, Name, Name];
    assert Narrow([NameField], ts, 2) == Err(IndexOutOfRange);
    assert Narrow([NameField], ts, 1) == Err(IndexOutOfRange);
    assert Narrow([NameField], ts, 0) == Err(IndexOutOfRange);
  }

  /** A context related to itself. */
  const SelfRelated: C.Context := C.NewContext(None).(relationships := R.Relationships([RD.Create(Parent, Form, Form, None)]))

  const SelfRegistry: Registry := Registry(map[Form := SelfRelated], {})

  /** Once the context is on the path, its relationship to itself is refused. */
  lemma SelfSourceRefused(fuel: nat, p: Parser, g: nat)
    requires Valid(p) && g < |p.arena| && p.stack == [ContextPath(RootPath, Form)]
    ensures Sources(fuel, p, SelfRegistry, g, Instance(0, Form, SelfRelated), RD.Create(Parent, Form, Form, None), 0).Err?
    ensures fuel > 1 ==>
              Sources(fuel, p, SelfRegistry, g, Instance(0, Form, SelfRelated), RD.Create(Parent, Form, Form, None), 0)
              == Err(RecursiveContext(Form))
  {
    var rel := RD.Create(Parent, Form, Form, None);
    assert rel.AllSourceTypes() == [Some(Form)];
    if fuel > 1 {
      var p2 := LogEntityType(LogRelationship(p, Form), Form);
      var (p3, relInst) := NewInstance(p2, SelfRegistry, Form);
      assert Any(p3.stack, (c: ContextPath) => c.kind == Form);
      var grp := NewGroup(OrElse(OrElseOption(rel.labelText, relInst.schema.labelText), Form.name), Form, p3.stack, rel);
      var pb := ListGroup(AddGroup(p3, grp).0, |p3.arena|);
      assert Any(pb.stack, (c: ContextPath) => c.kind == Form);
      assert SourceOne(fuel - 1, p2, SelfRegistry, g, Instance(0, Form, SelfRelated), rel, Form) == Err(RecursiveContext(Form));
    }
  }

  /** `Parse` refuses a context whose relationship sources include itself,
      with the `ContextException` for a context already on the path. */
  lemma RecursiveContextRefused()
    ensures Parse(5, NewParser(), SelfRegistry, Form, SelfRelated) == Err(RecursiveContext(Form))
  {
    var rel := RD.NullRelationship();
    var p := NewParser();
    var p2 := p.(nextInstance := 1);
    var grp := NewGroup(OrElse(OrElseOption(rel.labelText, SelfRelated.labelText), Form.name), Form, p2.stack, rel);
    var p4 := ListGroup(AddGroup(p2, grp).0, 0);
    var inst := Instance(0, Form, SelfRelated);
    var q0 := LogEntityType(p4, Form).(stack := [ContextPath(RootPath, Form)]);
    assert EntrySegment(rel, Form) == ContextPath(RootPath, Form);
    assert LogEntityType(p4, Form).stack + [ContextPath(RootPath, Form)] == [ContextPath(RootPath, Form)];
    assert CreateFields(4, q0, SelfRegistry, 0, inst, 0) == Ok(q0);
    assert DrillRoots(4, q0, SelfRegistry, 0, inst, 0) == Ok(q0);
    SelfSourceRefused(3, q0, 0);
    assert RelationalGroups(4, q0, SelfRegistry, 0, inst, 0) == Err(RecursiveContext(Form));
    assert GenerateMasterGroups(5, p4, SelfRegistry, 0, inst, rel) == Err(RecursiveContext(Form));
  }

  /** A context relating its value entity to a kind it never declares. */
  const Holder: C.Context := C.NewContext(None).(relationships := R.Relationships([RD.Create(Parent, Target, Name, None)]))

  const HolderRegistry: Registry := Registry(map[Form := Holder], {Name})

  const HolderInstance: Instance := Instance(0, Form, Holder)

  function HolderListed(): Parser
  {
    NewParser().(arena := [NewGroup("Form", Form, [], RD.NullRelationship())], groups := [0], nextInstance := 1)
  }

  function HolderEntered(): Parser
  {
    LogEntityType(HolderListed(), Form).(stack := [ContextPath(RootPath, Form)])
  }

  /** The state after the relationship's source was drilled into: an unlisted
      entity group with no fields. */
  function HolderRelated(): Parser
  {
    var p2 := LogEntityType(LogRelationship(HolderEntered(), Target), Name);
    AddGroup(p2, NewGroup("Name", Name, p2.stack, RD.Create(Parent, Target, Name, None))).0
  }

  lemma HolderLogs()
    ensures HolderRelated().allEntities == [Form, Name]
    ensures HolderRelated().relationshipKeys == [Form, Target, Name]
    ensures HolderRelated().groups == [0] && |HolderRelated().arena| == 2
    ensures HolderRelated().arena[1].fields == []
  {
  }

  lemma HolderSources()
    ensures RelationalGroups(4, HolderEntered(), HolderRegistry, 0, HolderInstance, 0) == Ok(HolderRelated())
  {
    var rel := RD.Create(Parent, Target, Name, None);
    assert rel.AllSourceTypes() == [Some(Name)];
    var p2 := LogEntityType(LogRelationship(HolderEntered(), Target), Name);
    assert DrillDecl(1, HolderRelated(), HolderRegistry, 1, HolderInstance, Name, 0) == Ok(HolderRelated());
    HolderLogs();
    assert SourceOne(2, p2, HolderRegistry, 0, HolderInstance, rel, Name) == Ok(HolderRelated());
    assert Sources(3, HolderRelated(), HolderRegistry, 0, HolderInstance, rel, 1) == Ok(HolderRelated());
    assert Sources(3, HolderEntered(), HolderRegistry, 0, HolderInstance, rel, 0) == Ok(HolderRelated());
    assert RelationalGroups(4, HolderRelated(), HolderRegistry, 0, HolderInstance, 1) == Ok(HolderRelated());
  }

  lemma HolderMasterGroups()
    ensures GenerateMasterGroups(5, HolderListed(), HolderRegistry, 0, HolderInstance, RD.NullRelationship())
            == Ok(HolderRelated().(stack := []))
  {
    HolderSources();
    HolderLogs();
    assert EntrySegment(RD.NullRelationship(), Form) == ContextPath(RootPath, Form);
    assert LogEntityType(HolderListed(), Form).stack + [ContextPath(RootPath, Form)] == [ContextPath(RootPath, Form)];
    assert !Any(HolderListed().stack, (c: ContextPath) => c.kind == Form);
    assert CreateFields(4, HolderEntered(), HolderRegistry, 0, HolderInstance, 0) == Ok(HolderEntered());
    assert DrillRoots(4, HolderEntered(), HolderRegistry, 0, HolderInstance, 0) == Ok(HolderEntered());
    assert SelfAbstractions(4, HolderRelated(), HolderRegistry, 0, HolderInstance, 0) == Ok(HolderRelated());
  }

  lemma HolderParsed()
    ensures Parse(5, NewParser(), HolderRegistry, Form, Holder) == Ok(HolderRelated().(stack := [], parsed := true))
  {
    var p := NewParser();
    var p2 := p.(allEntities := [], relationshipKeys := [], visited := {}).(nextInstance := 1);
    assert p2 == p.(nextInstance := 1);
    var grp := NewGroup(OrElse(OrElseOption(RD.NullRelationship().labelText, Holder.labelText), Form.name), Form, p2.stack, RD.NullRelationship());
    assert ListGroup(AddGroup(p2, grp).0, 0) == HolderListed();
    HolderMasterGroups();
  }

  /** The relationship's target was never declared, so after parsing the
      declarations are invalid and the target is the one missing kind; the
      field-less entity group of the source is not listed. */
  lemma UndeclaredTargetMissing()
    ensures var r := Parse(5, NewParser(), HolderRegistry, Form, Holder);
            r.Ok? && r.value.groups == [0]
            && var (q, valid) := AreDeclarationsValid(r.value);
               valid == Ok(false) && q.missing == [Target]
  {
    HolderParsed();
    HolderLogs();
    var q := HolderRelated().(stack := [], parsed := true);
    assert Filter(q.relationshipKeys, (k: Kind) => k !in q.allEntities) == [Target];
  }
}

=== FILE: relationship_declaration.dfy ===
/*
 * A relationship declaration: "target kind T stands in relationship R to
 * source kind S (or any of the or-kinds; and, separately, to every
 * and-kind)", with a cardinality range and two rendering flags.
 */
module RelationshipDeclarations {
  import opened Common

  /** Target and primary source are optional because the `NullRelationship`
      marker declaration leaves both `Type` properties null. */
  datatype RelationshipDeclaration = RelationshipDeclaration(relationshipType: Kind, targetType: Option<Kind>, sourceType: Option<Kind>,
                                                             orSourceTypes: seq<Kind>, andSourceTypes: seq<Kind>, minimum: int, maximum: int,
                                                             renderAsGrid: bool, labelText: Option<string>, shouldCoalesce: bool)
  {
    /** `AllSourceTypes`: the primary source, then the or-sources, then the
        and-sources, each in the order they were added. */
    function AllSourceTypes(): (r: seq<Option<Kind>>)
      ensures |r| == 1 + |orSourceTypes| + |andSourceTypes|
      ensures r[0] == sourceType
      ensures forall i :: 0 <= i < |orSourceTypes| ==> r[1 + i] == Some(orSourceTypes[i])
      ensures forall i :: 0 <= i < |andSourceTypes| ==> r[1 + |orSourceTypes| + i] == Some(andSourceTypes[i])
    {
      [sourceType] + Wrap(orSourceTypes) + Wrap(andSourceTypes)
    }

    /** Whether `k` is the primary source or one of the or-sources: the
        sources the cardinality checks count. */
    predicate IsPrimaryOrAlternative(k: Kind)
    {
      sourceType == Some(k) || k in orSourceTypes
    }

    /** `Coalesce()`: only the coalesce flag changes. */
    function Coalesce(): (d: RelationshipDeclaration)
      ensures d.shouldCoalesce
      ensures d == this.(shouldCoalesce := d.shouldCoalesce)
    {
      this.(shouldCoalesce := true)
    }

    /** `AsGrid()`: only the grid flag changes. */
    function AsGrid(): (d: RelationshipDeclaration)
      ensures d.renderAsGrid
      ensures d == this.(renderAsGrid := d.renderAsGrid)
    {
      this.(renderAsGrid := true)
    }

    /** `OneOrMore()`: only the minimum changes, to 1. */
    function OneOrMore(): (d: RelationshipDeclaration)
      ensures d.minimum == 1
      ensures d == this.(minimum := d.minimum)
    {
      this.(minimum := 1)
    }

    /** `ZeroOrOne()`. */
    function ZeroOrOne(): (d: RelationshipDeclaration)
      ensures d.minimum == 0 && d.maximum == 1
      ensures d == this.(minimum := d.minimum, maximum := d.maximum)
    {
      this.(minimum := 0, maximum := 1)
    }

    /** `ZeroOrMore()`. */
    function ZeroOrMore(): (d: RelationshipDeclaration)
      ensures d.minimum == 0 && d.maximum == IntMaxValue
      ensures d == this.(minimum := d.minimum, maximum := d.maximum)
    {
      this.(minimum := 0, maximum := IntMaxValue)
    }

    /** `OneAndOnlyOne()`. */
    function OneAndOnlyOne(): (d: RelationshipDeclaration)
      ensures d.minimum == 1 && d.maximum == 1
      ensures d == this.(minimum := d.minimum, maximum := d.maximum)
    {
      this.(minimum := 1, maximum := 1)
    }

    /** `Exactly(n)`. */
    function Exactly(n: int): (d: RelationshipDeclaration)
      ensures d.minimum == n && d.maximum == n
      ensures d == this.(minimum := d.minimum, maximum := d.maximum)
    {
      this.(minimum := n, maximum := n)
    }

    /** `Min(n)`. */
    function Min(n: int): (d: RelationshipDeclaration)
      ensures d.minimum == n
      ensures d == this.(minimum := d.minimum)
    {
      this.(minimum := n)
    }

    /** `Max(n)`. */
    function Max(n: int): (d: RelationshipDeclaration)
      ensures d.maximum == n
      ensures d == this.(maximum := d.maximum)
    {
      this.(maximum := n)
    }

    /** `Or<E>()`: appends to the or-list only; duplicates are kept. */
    function Or(e: Kind): (d: RelationshipDeclaration)
      ensures d.orSourceTypes == orSourceTypes + [e]
      ensures d == this.(orSourceTypes := d.orSourceTypes)
    {
      this.(orSourceTypes := orSourceTypes + [e])
    }

    /** `And<E>()`: appends to the and-list only; duplicates are kept. */
    function And(e: Kind): (d: RelationshipDeclaration)
      ensures d.andSourceTypes == andSourceTypes + [e]
      ensures d == this.(andSourceTypes := d.andSourceTypes)
    {
      this.(andSourceTypes := andSourceTypes + [e])
    }
  }

  /** One call of the fluent API on a relationship declaration. */
  datatype Builder =
    | SetOneOrMore | SetZeroOrOne | SetZeroOrMore | SetOneAndOnlyOne
    | SetExactly(n: int) | SetMin(n: int) | SetMax(n: int)
    | AddOr(k: Kind) | AddAnd(k: Kind) | SetCoalesce | SetAsGrid

  function ApplyOne(d: RelationshipDeclaration, b: Builder): (r: RelationshipDeclaration)
    ensures r.relationshipType == d.relationshipType && r.targetType == d.targetType && r.sourceType == d.sourceType
    ensures r.labelText == d.labelText
  {
    match b
    case SetOneOrMore => d.OneOrMore()
    case SetZeroOrOne => d.ZeroOrOne()
    case SetZeroOrMore => d.ZeroOrMore()
    case SetOneAndOnlyOne => d.OneAndOnlyOne()
    case SetExactly(n) => d.Exactly(n)
    case SetMin(n) => d.Min(n)
    case SetMax(n) => d.Max(n)
    case AddOr(k) => d.Or(k)
    case AddAnd(k) => d.And(k)
    case SetCoalesce => d.Coalesce()
    case SetAsGrid => d.AsGrid()
  }

  /** A chain of builder calls, applied left to right. The identifying triple
      (relationship, target, source) is never changed by a chain. */
  function Apply(d: RelationshipDeclaration, bs: seq<Builder>): (r: RelationshipDeclaration)
    ensures r.relationshipType == d.relationshipType && r.targetType == d.targetType && r.sourceType == d.sourceType
    ensures r.labelText == d.labelText
    decreases |bs|
  {
    if |bs| == 0 then d else Apply(ApplyOne(d, bs[0]), bs[1..])
  }

  /** Chains compose: applying `a` and then `b` is applying `a + b`, so the
      stored declaration is the one the calls produce one after another. */
  lemma {:induction false} ApplyAppend(d: RelationshipDeclaration, a: seq<Builder>, b: seq<Builder>)
    ensures Apply(d, a + b) == Apply(Apply(d, a), b)
    decreases |a|
  {
    if |a| == 0 {
      assert a + b == b;
    } else {
      assert (a + b)[0] == a[0] && (a + b)[1..] == a[1..] + b;
      ApplyAppend(ApplyOne(d, a[0]), a[1..], b);
    }
  }

  /** A one-call chain is that call. */
  lemma ApplySingle(d: RelationshipDeclaration, b: Builder)
    ensures Apply(d, [b]) == ApplyOne(d, b)
  {
    assert [b][1..] == [];
  }

  /** The kinds of `ks` as non-null `Type` values, in order. */
  function Wrap(ks: seq<Kind>): (r: seq<Option<Kind>>)
    ensures |r| == |ks|
    ensures forall i :: 0 <= i < |ks| ==> r[i] == Some(ks[i])
  {
    if |ks| == 0 then [] else [Some(ks[0])] + Wrap(ks[1..])
  }

  /** `RelationshipDeclaration.Create<R, T, S>(label)`. */
  function Create(rel: Kind, target: Kind, source: Kind, labelText: Option<string>): (d: RelationshipDeclaration)
    ensures d.relationshipType == rel && d.targetType == Some(target) && d.sourceType == Some(source)
    ensures d.labelText == labelText
    ensures d.minimum == 0 && d.maximum == IntMaxValue
    ensures d.orSourceTypes == [] && d.andSourceTypes == []
    ensures !d.renderAsGrid && !d.shouldCoalesce
  {
    RelationshipDeclaration(rel, Some(target), Some(source), [], [], 0, IntMaxValue, false, labelText, false)
  }

  /** `RelationshipDeclaration.NullRelationship`: a fresh marker declaration
      of the null relationship, with no target, source or label. */
  function NullRelationship(): (d: RelationshipDeclaration)
    ensures d.relationshipType == NullRelationshipKind
    ensures d.targetType == None && d.sourceType == None && d.labelText == None
    ensures d.minimum == 0 && d.maximum == IntMaxValue
    ensures d.orSourceTypes == [] && d.andSourceTypes == []
  {
    RelationshipDeclaration(NullRelationshipKind, None, None, [], [], 0, IntMaxValue, false, None, false)
  }

  /** The source list of a declaration grows by exactly the kinds its
      `Or`/`And` calls appended, in call order: or-kinds before and-kinds,
      whatever order the calls were made in. */
  lemma OrAndSourceOrder(d: RelationshipDeclaration, a: Kind, b: Kind)
    ensures d.And(b).Or(a).AllSourceTypes() == d.AllSourceTypes()[..1 + |d.orSourceTypes|] + [Some(a)]
                                               + d.AllSourceTypes()[1 + |d.orSourceTypes|..] + [Some(b)]
  {
    var front := [d.sourceType] + Wrap(d.orSourceTypes);
    var z := d.AllSourceTypes();
    assert z == front + Wrap(d.andSourceTypes);
    assert z[..1 + |d.orSourceTypes|] == front;
    assert z[1 + |d.orSourceTypes|..] == Wrap(d.andSourceTypes);
    WrapSnoc(d.orSourceTypes, a);
    WrapSnoc(d.andSourceTypes, b);
    assert d.And(b).Or(a).AllSourceTypes() == [d.sourceType] + (Wrap(d.orSourceTypes) + [Some(a)]) + (Wrap(d.andSourceTypes) + [Some(b)]);
  }

  /** Wrapping distributes over appending one kind. */
  lemma WrapSnoc(ks: seq<Kind>, k: Kind)
    ensures Wrap(ks + [k]) == Wrap(ks) + [Some(k)]
  {
    assert |Wrap(ks + [k])| == |Wrap(ks) + [Some(k)]|;
    forall i | 0 <= i < |ks| + 1
      ensures Wrap(ks + [k])[i] == (Wrap(ks) + [Some(k)])[i]
    {
      if i < |ks| {
        assert (ks + [k])[i] == ks[i];
      }
    }
  }

  /** `Exactly(n)` is the same declaration as `Min(n).Max(n)`, and
      `OneAndOnlyOne` is `Exactly(1)`. */
  lemma ExactlyIsMinMax(d: RelationshipDeclaration, n: int)
    ensures d.Exactly(n) == d.Min(n).Max(n)
    ensures d.OneAndOnlyOne() == d.Exactly(1)
  {
  }

  /** The flag setters commute with the cardinality setters and leave the
      sources alone. */
  lemma FlagsIndependentOfBounds(d: RelationshipDeclaration, n: int)
    ensures d.Coalesce().Max(n) == d.Max(n).Coalesce()
    ensures d.AsGrid().Min(n) == d.Min(n).AsGrid()
    ensures d.Coalesce().AllSourceTypes() == d.AllSourceTypes()
    ensures d.AsGrid().AllSourceTypes() == d.AllSourceTypes()
  {
  }
}

=== FILE: relationships.dfy ===
/*
 * The relationship declarations of one context and the checks made
 * against them when entities are added and when the context is validated.
 */
module Relationships {
  import opened Common
  import opened ContextEntities
  import opened RelationshipDeclarations

  /** The declaration's cardinality range admits `count`. */
  predicate InRange(d: RelationshipDeclaration, count: int)
  {
    d.minimum <= count <= d.maximum
  }

  /** The outcome of `Validate<R>(target, source, entities, out min, out count)`:
      on failure, `minimum` and `count` are those of the failing declaration. */
  datatype Verdict = Verdict(ok: bool, minimum: int, count: int)

  datatype Relationships = Relationships(decls: seq<RelationshipDeclaration>)
  {
    /** `Count`. */
    function Count(): (n: nat)
      ensures n == 0 <==> decls == []
    {
      |decls|
    }

    /** `Add<R, T, S>(label)` followed by the caller's builder chain on the
        returned declaration. */
    function Add(r: Kind, t: Kind, s: Kind, labelText: Option<string>, bs: seq<Builder>): (res: Relationships)
      ensures |res.decls| == |decls| + 1 && res.decls[..|decls|] == decls
      ensures var d := res.decls[|decls|];
        d.relationshipType == r && d.targetType == Some(t) && d.sourceType == Some(s) && d.labelText == labelText
      ensures res.decls[|decls|] == Apply(Create(r, t, s, labelText), bs)
    {
      Relationships(decls + [Apply(Create(r, t, s, labelText), bs)])
    }

    /** `Exists<R, T, S>()`: a declaration with exactly this triple. */
    function ExistsTriple(r: Kind, t: Kind, s: Kind): (b: bool)
      ensures b <==> exists i :: 0 <= i < |decls| && decls[i].relationshipType == r
                                 && decls[i].targetType == Some(t) && decls[i].sourceType == Some(s)
    {
      Any(decls, (d: RelationshipDeclaration) => d.relationshipType == r && d.targetType == Some(t) && d.sourceType == Some(s))
    }

    /** `Exists<R>(target, source)`. As grouped in the library, the and-source
        test stands outside the relationship and target tests: the source kind
        being an and-source of ANY declaration is enough. */
    function ExistsFor(r: Kind, target: Entity, source: Entity): (b: bool)
      ensures b <==> (exists i :: 0 <= i < |decls| && decls[i].relationshipType == r
                                  && decls[i].targetType == Some(target.kind)
                                  && decls[i].IsPrimaryOrAlternative(source.kind))
                     || (exists i :: 0 <= i < |decls| && source.kind in decls[i].andSourceTypes)
    {
      Any(decls, (d: RelationshipDeclaration) =>
        (d.relationshipType == r && d.targetType == Some(target.kind) && d.IsPrimaryOrAlternative(source.kind))
        || source.kind in d.andSourceTypes)
    }

    /** The declarations `Validate<R>(target, source, ...)` checks. */
    function ChecksFor(r: Kind, target: Entity, source: Entity): (cs: seq<RelationshipDeclaration>)
      ensures forall d :: d in cs <==> (d in decls && d.relationshipType == r
                                     && d.targetType == Some(target.kind) && d.IsPrimaryOrAlternative(source.kind))
    {
      Filter(decls, (d: RelationshipDeclaration) =>
        d.relationshipType == r && d.targetType == Some(target.kind) && d.IsPrimaryOrAlternative(source.kind))
    }

    /** `Validate<R>(target, source, entities, out min, out count)`: every
        checked declaration admits the number of `r`-instances of `target`
        whose related-to kind is among its primary/or sources; on failure the
        verdict carries the first failing declaration's minimum and count. */
    function ValidateFor(r: Kind, target: Entity, source: Entity, entities: seq<ContextEntity>): (v: Verdict)
      ensures v.ok <==> forall d :: d in ChecksFor(r, target, source) ==> InRange(d, CountFor(d, r, target, entities))
      ensures !v.ok ==> exists i :: FirstOutOfRange(ChecksFor(r, target, source), r, target, entities, i)
                                  && v.minimum == ChecksFor(r, target, source)[i].minimum
                                  && v.count == CountFor(ChecksFor(r, target, source)[i], r, target, entities)
      ensures v.ok ==> v.minimum == 0
    {
      ValidateLoop(ChecksFor(r, target, source), r, target, entities, 0)
    }

    /** The or-declarations `Validate(ce, entities)` checks for `ce`. */
    function OrChecks(ce: ContextEntity): (cs: seq<RelationshipDeclaration>)
      ensures forall d :: d in cs <==> (d in decls && d.relationshipType == ce.relationshipType
                                     && d.targetType == Some(ce.concreteEntity.kind)
                                     && d.IsPrimaryOrAlternative(ce.relatedTo.kind))
    {
      Filter(decls, (d: RelationshipDeclaration) =>
        d.relationshipType == ce.relationshipType && d.targetType == Some(ce.concreteEntity.kind)
        && d.IsPrimaryOrAlternative(ce.relatedTo.kind))
    }

    /** `ValidateOrRelationships(ce, entities)`. */
    function ValidateOr(ce: ContextEntity, entities: seq<ContextEntity>): (b: bool)
      ensures b <==> forall d :: d in OrChecks(ce) ==> InRange(d, OrCount(d, ce, entities))
    {
      OrLoop(OrChecks(ce), ce, entities)
    }

    /** The declarations `ValidateAndRelationships(ce, entities)` looks at:
        same relationship and target, whatever the source. */
    function AndChecks(ce: ContextEntity): (cs: seq<RelationshipDeclaration>)
      ensures forall d :: d in cs <==> (d in decls && d.relationshipType == ce.relationshipType
                                     && d.targetType == Some(ce.concreteEntity.kind))
    {
      Filter(decls, (d: RelationshipDeclaration) =>
        d.relationshipType == ce.relationshipType && d.targetType == Some(ce.concreteEntity.kind))
    }

    /** `ValidateAndRelationships(ce, entities)`: every such declaration that
        has and-sources sees exactly one entity per required source. */
    function ValidateAnd(ce: ContextEntity, entities: seq<ContextEntity>): (b: bool)
      ensures b <==> forall d :: d in AndChecks(ce) && |d.andSourceTypes| > 0 ==> AndCount(d, ce, entities) == 1 + |d.andSourceTypes|
    {
      AndLoop(AndChecks(ce), ce, entities)
    }

    /** `Validate(ce, entities)`: the or-check, then (only if it passed) the and-check. */
    function Validate(ce: ContextEntity, entities: seq<ContextEntity>): (b: bool)
      ensures b <==> (forall d :: d in OrChecks(ce) ==> InRange(d, OrCount(d, ce, entities)))
                     && (forall d :: d in AndChecks(ce) && |d.andSourceTypes| > 0 ==> AndCount(d, ce, entities) == 1 + |d.andSourceTypes|)
    {
      var ret := ValidateOr(ce, entities);
      if ret then ValidateAnd(ce, entities) else ret
    }
  }

  /** Number of `r`-instances of `target` whose related-to object's kind is
      the primary or an or-source of `d`. */
  function CountFor(d: RelationshipDeclaration, r: Kind, target: Entity, entities: seq<ContextEntity>): nat
  {
    |Filter(entities, (e: ContextEntity) =>
      e.relationshipType == r && e.concreteEntity == target && d.IsPrimaryOrAlternative(e.relatedTo.kind))|
  }

  /** Appending an entity adds one to a declaration's count exactly when the
      entity is an `r`-instance of `target` related to one of its sources. */
  lemma CountForAppend(d: RelationshipDeclaration, r: Kind, target: Entity, es: seq<ContextEntity>, e: ContextEntity)
    ensures CountFor(d, r, target, es + [e])
         == CountFor(d, r, target, es)
            + (if e.relationshipType == r && e.concreteEntity == target && d.IsPrimaryOrAlternative(e.relatedTo.kind) then 1 else 0)
  {
    var p := (x: ContextEntity) => x.relationshipType == r && x.concreteEntity == target && d.IsPrimaryOrAlternative(x.relatedTo.kind);
    FilterAppend(es, [e], p);
    assert [e][1..] == [];
  }

  /** `checks[i]` is the first declaration of `checks` whose range does not
      admit its count: the one the `foreach ... break` of `Validate<R>` stops at. */
  predicate FirstOutOfRange(checks: seq<RelationshipDeclaration>, r: Kind, target: Entity, entities: seq<ContextEntity>, i: int)
  {
    0 <= i < |checks| && !InRange(checks[i], CountFor(checks[i], r, target, entities))
    && forall j :: 0 <= j < i ==> InRange(checks[j], CountFor(checks[j], r, target, entities))
  }

  /** There is at most one first failing declaration. */
  lemma FirstOutOfRangeUnique(checks: seq<RelationshipDeclaration>, r: Kind, target: Entity, entities: seq<ContextEntity>, i: int, j: int)
    requires FirstOutOfRange(checks, r, target, entities, i) && FirstOutOfRange(checks, r, target, entities, j)
    ensures i == j
  {
  }

  /** The `foreach ... break` loop of `Validate<R>`: it passes iff every
      declaration admits its count, and otherwise reports the first one
      that does not. */
  function ValidateLoop(checks: seq<RelationshipDeclaration>, r: Kind, target: Entity, entities: seq<ContextEntity>, count: int): (v: Verdict)
    ensures v.ok <==> forall i :: 0 <= i < |checks| ==> InRange(checks[i], CountFor(checks[i], r, target, entities))
    ensures !v.ok ==> exists i :: FirstOutOfRange(checks, r, target, entities, i)
                                 && v.minimum == checks[i].minimum && v.count == CountFor(checks[i], r, target, entities)
    ensures v.ok ==> v.minimum == 0
    decreases |checks|
  {
    if |checks| == 0 then Verdict(true, 0, count)
    else
      var c := CountFor(checks[0], r, target, entities);
      if checks[0].minimum > c || c > checks[0].maximum then
        assert FirstOutOfRange(checks, r, target, entities, 0);
        Verdict(false, checks[0].minimum, c)
      else
        var v := ValidateLoop(checks[1..], r, target, entities, c);
        assert forall i :: 1 <= i < |checks| ==> checks[i] == checks[1..][i - 1];
        assert !v.ok ==> exists i :: FirstOutOfRange(checks, r, target, entities, i)
                                     && v.minimum == checks[i].minimum && v.count == CountFor(checks[i], r, target, entities) by {
          if !v.ok {
            var i :| FirstOutOfRange(checks[1..], r, target, entities, i)
                     && v.minimum == checks[1..][i].minimum && v.count == CountFor(checks[1..][i], r, target, entities);
            assert FirstOutOfRange(checks, r, target, entities, i + 1);
          }
        }
        v
  }

  /** The count `ValidateOrRelationships` compares with `d`'s range. As in
      the library, the source-kind test is made on `ce`'s related-to object,
      not on each candidate's. */
  function OrCount(d: RelationshipDeclaration, ce: ContextEntity, entities: seq<ContextEntity>): nat
  {
    |Filter(entities, (e: ContextEntity) =>
      e.relationshipType == ce.relationshipType && e.concreteEntity == ce.concreteEntity
      && d.IsPrimaryOrAlternative(ce.relatedTo.kind))|
  }

  function OrLoop(checks: seq<RelationshipDeclaration>, ce: ContextEntity, entities: seq<ContextEntity>): (b: bool)
    ensures b <==> forall i :: 0 <= i < |checks| ==> InRange(checks[i], OrCount(checks[i], ce, entities))
    decreases |checks|
  {
    if |checks| == 0 then true
    else if !InRange(checks[0], OrCount(checks[0], ce, entities)) then false
    else
      assert forall i :: 1 <= i < |checks| ==> checks[i] == checks[1..][i - 1];
      OrLoop(checks[1..], ce, entities)
  }

  /** The required sources of an and-declaration: the primary source, then
      every and-source (duplicates kept). */
  function Required(d: RelationshipDeclaration): (rs: seq<Option<Kind>>)
    ensures |rs| == 1 + |d.andSourceTypes|
    ensures forall k :: Some(k) in rs <==> d.sourceType == Some(k) || k in d.andSourceTypes
  {
    var rs := [d.sourceType] + Wrap(d.andSourceTypes);
    assert forall k :: k in d.andSourceTypes ==> Some(k) in Wrap(d.andSourceTypes) by {
      forall k | k in d.andSourceTypes ensures Some(k) in Wrap(d.andSourceTypes) {
        var i :| 0 <= i < |d.andSourceTypes| && d.andSourceTypes[i] == k;
        assert Wrap(d.andSourceTypes)[i] == Some(k);
      }
    }
    rs
  }

  /** The count `ValidateAndRelationships` compares with the number of
      required sources; again the kind test is made on `ce`'s related-to. */
  function AndCount(d: RelationshipDeclaration, ce: ContextEntity, entities: seq<ContextEntity>): nat
  {
    |Filter(entities, (e: ContextEntity) =>
      e.relationshipType == ce.relationshipType && e.concreteEntity == ce.concreteEntity
      && Some(ce.relatedTo.kind) in Required(d))|
  }

  function AndLoop(checks: seq<RelationshipDeclaration>, ce: ContextEntity, entities: seq<ContextEntity>): (b: bool)
    ensures b <==> forall i :: 0 <= i < |checks| && |checks[i].andSourceTypes| > 0 ==> AndCount(checks[i], ce, entities) == 1 + |checks[i].andSourceTypes|
    decreases |checks|
  {
    if |checks| == 0 then true
    else if |checks[0].andSourceTypes| > 0 && AndCount(checks[0], ce, entities) != |Required(checks[0])| then false
    else
      assert forall i :: 1 <= i < |checks| ==> checks[i] == checks[1..][i - 1];
      AndLoop(checks[1..], ce, entities)
  }

  /** Entities that share `ce`'s relationship and concrete object. */
  function Siblings(ce: ContextEntity, entities: seq<ContextEntity>): seq<ContextEntity>
  {
    Filter(entities, (e: ContextEntity) => e.relationshipType == ce.relationshipType && e.concreteEntity == ce.concreteEntity)
  }

  /** Appending an entity adds one to the siblings of `ce` exactly when it
      shares `ce`'s relationship and concrete object. */
  lemma SiblingsAppend(ce: ContextEntity, es: seq<ContextEntity>, e: ContextEntity)
    ensures |Siblings(ce, es + [e])|
         == |Siblings(ce, es)| + (if e.relationshipType == ce.relationshipType && e.concreteEntity == ce.concreteEntity then 1 else 0)
  {
    var p := (x: ContextEntity) => x.relationshipType == ce.relationshipType && x.concreteEntity == ce.concreteEntity;
    FilterAppend(es, [e], p);
    assert [e][1..] == [];
  }

  /** What the or-check really counts: for every declaration it checks, the
      count is the number of entities sharing `ce`'s relationship and concrete
      object, whatever those entities are related to. */
  lemma OrCountIgnoresRelatedTo(rels: Relationships, ce: ContextEntity, entities: seq<ContextEntity>, d: RelationshipDeclaration)
    requires d in rels.OrChecks(ce)
    ensures OrCount(d, ce, entities) == |Siblings(ce, entities)|
  {
    FilterCongruent(entities,
      (e: ContextEntity) => e.relationshipType == ce.relationshipType && e.concreteEntity == ce.concreteEntity && d.IsPrimaryOrAlternative(ce.relatedTo.kind),
      (e: ContextEntity) => e.relationshipType == ce.relationshipType && e.concreteEntity == ce.concreteEntity);
  }

  /** What the and-check really demands: when `ce`'s related-to kind is one of
      the required sources, exactly `1 + |and|` entities share `ce`'s
      relationship and concrete object; otherwise the check fails outright. */
  lemma AndCountIsSiblingsOrZero(d: RelationshipDeclaration, ce: ContextEntity, entities: seq<ContextEntity>)
    ensures AndCount(d, ce, entities) == if Some(ce.relatedTo.kind) in Required(d) then |Siblings(ce, entities)| else 0
  {
    var p := (e: ContextEntity) => e.relationshipType == ce.relationshipType && e.concreteEntity == ce.concreteEntity && Some(ce.relatedTo.kind) in Required(d);
    if Some(ce.relatedTo.kind) in Required(d) {
      FilterCongruent(entities, p,
        (e: ContextEntity) => e.relationshipType == ce.relationshipType && e.concreteEntity == ce.concreteEntity);
    } else {
      FilterNone(entities, p);
    }
  }

  /** An and-source of one declaration admits its kind as a source of any
      relationship to any target, even one never declared. */
  lemma AndSourceAdmitsAnyRelationship(r1: Kind, t1: Kind, s1: Kind, x: Kind, r2: Kind, target: Entity, source: Entity)
    requires source.kind == x
    ensures Relationships([Create(r1, t1, s1, None).And(x)]).ExistsFor(r2, target, source)
  {
    var rels := Relationships([Create(r1, t1, s1, None).And(x)]);
    assert x in rels.decls[0].andSourceTypes;
  }

  /** Adding a declaration makes its triple exist and keeps every triple that
      existed. */
  lemma AddThenExistsTriple(rels: Relationships, r: Kind, t: Kind, s: Kind, labelText: Option<string>, bs: seq<Builder>,
                            r2: Kind, t2: Kind, s2: Kind)
    ensures rels.Add(r, t, s, labelText, bs).ExistsTriple(r, t, s)
    ensures rels.ExistsTriple(r2, t2, s2) ==> rels.Add(r, t, s, labelText, bs).ExistsTriple(r2, t2, s2)
  {
    var a := rels.Add(r, t, s, labelText, bs);
    assert a.decls[|rels.decls|].relationshipType == r;
    if rels.ExistsTriple(r2, t2, s2) {
      var i :| 0 <= i < |rels.decls| && rels.decls[i].relationshipType == r2
               && rels.decls[i].targetType == Some(t2) && rels.decls[i].sourceType == Some(s2);
      assert a.decls[..|rels.decls|][i] == a.decls[i];
    }
  }
}

=== FILE: value_dictionary.dfy ===
/*
 * The context value dictionary: inserting values along their instance
 * paths (reusing shared sub-contexts), and reading the tree back.
 */
module ValueDictionary {
  import opened Common
  import opened ContextNodes
  import CV = ContextValues
  import F = Fields

  /** What one insertion leaves behind: the store as changed up to any
      failure (the source has no rollback), the node reached, and the
      failure, if any. */
  datatype Outcome = Outcome(store: Store, node: nat, error: Option<Error>)

  /** How the store may change under insertion: nodes are only appended,
      old nodes keep their id and kind and only gain children, flat-view
      lists only grow, every new node is listed under its kind, and the
      flat view gains nothing but new nodes. */
  predicate Grows(s: Store, t: Store)
  {
    |s.nodes| <= |t.nodes|
    && (forall n :: 0 <= n < |s.nodes| ==>
          t.nodes[n].id == s.nodes[n].id && t.nodes[n].kind == s.nodes[n].kind
          && |s.nodes[n].children| <= |t.nodes[n].children|
          && t.nodes[n].children[..|s.nodes[n].children|] == s.nodes[n].children)
    && (forall k :: k in s.flatView ==>
          k in t.flatView && |s.flatView[k]| <= |t.flatView[k]| && t.flatView[k][..|s.flatView[k]|] == s.flatView[k])
    && (forall n :: |s.nodes| <= n < |t.nodes| ==>
          t.nodes[n].kind.Some? && t.nodes[n].kind.value in t.flatView && n in t.flatView[t.nodes[n].kind.value])
    && (forall k, j :: k in t.flatView && (if k in s.flatView then |s.flatView[k]| else 0) <= j < |t.flatView[k]|
          ==> t.flatView[k][j] >= |s.nodes|)
  }

  lemma GrowsRefl(s: Store)
    ensures Grows(s, s)
  {
  }

  lemma GrowsTrans(s: Store, t: Store, u: Store)
    requires Grows(s, t) && Grows(t, u)
    ensures Grows(s, u)
  {
    forall n | 0 <= n < |s.nodes|
      ensures u.nodes[n].children[..|s.nodes[n].children|] == s.nodes[n].children
    {
      assert u.nodes[n].children[..|s.nodes[n].children|] == u.nodes[n].children[..|t.nodes[n].children|][..|s.nodes[n].children|];
    }
    forall k | k in s.flatView
      ensures u.flatView[k][..|s.flatView[k]|] == s.flatView[k]
    {
      assert u.flatView[k][..|s.flatView[k]|] == u.flatView[k][..|t.flatView[k]|][..|s.flatView[k]|];
    }
    forall n | |t.nodes| > n >= |s.nodes|
      ensures n in u.flatView[t.nodes[n].kind.value]
    {
      var k := t.nodes[n].kind.value;
      var j :| 0 <= j < |t.flatView[k]| && t.flatView[k][j] == n;
      assert u.flatView[k][..|t.flatView[k]|][j] == n;
    }
    forall k, j | k in u.flatView && (if k in s.flatView then |s.flatView[k]| else 0) <= j < |u.flatView[k]|
      ensures u.flatView[k][j] >= |s.nodes|
    {
      if k in t.flatView && j < |t.flatView[k]| {
        assert u.flatView[k][j] == u.flatView[k][..|t.flatView[k]|][j] == t.flatView[k][j];
      }
    }
  }

  /** `node.ContextValue = cv`. */
  function SetValue(s: Store, n: nat, cv: CV.ContextValue): (r: Store)
    requires Valid(s) && n < |s.nodes|
    ensures Valid(r) && Grows(s, r) && |r.nodes| == |s.nodes|
    ensures r.nodes[n].value == Some(cv)
    ensures forall m :: 0 <= m < |s.nodes| ==> r.nodes[m] == if m == n then s.nodes[m].(value := Some(cv)) else s.nodes[m]
    ensures r.flatView == s.flatView && r.flatKeys == s.flatKeys
    ensures UniqueChildIds(s) ==> UniqueChildIds(r)
  {
    s.(nodes := s.nodes[n := s.nodes[n].(value := Some(cv))])
  }

  lemma AddChildGrows(s: Store, p: nat, c: nat)
    requires Valid(s) && p < |s.nodes| && c < |s.nodes|
    ensures Grows(s, AddChild(s, p, c))
  {
    var t := AddChild(s, p, c);
    assert t.nodes[p].children[..|s.nodes[p].children|] == s.nodes[p].children;
  }

  /** Attaching a child whose id no other child has keeps child ids unique. */
  lemma AddChildKeepsUnique(s: Store, p: nat, c: nat)
    requires Valid(s) && UniqueChildIds(s) && p < |s.nodes| && c < |s.nodes|
    requires forall j :: 0 <= j < |s.nodes[p].children| ==> s.nodes[s.nodes[p].children[j]].id != s.nodes[c].id
    ensures UniqueChildIds(AddChild(s, p, c))
  {
    var t := AddChild(s, p, c);
    forall n, a, b | 0 <= n < |t.nodes| && 0 <= a < b < |t.nodes[n].children|
      ensures t.nodes[t.nodes[n].children[a]].id != t.nodes[t.nodes[n].children[b]].id
    {
      if n == p && b == |s.nodes[p].children| {
        assert t.nodes[n].children[a] == s.nodes[p].children[a];
      }
    }
  }

  /** The same, for a caller that does not know whether the premises hold. */
  lemma AttachFreshKeepsUnique(s: Store, p: nat, c: nat)
    requires Valid(s) && p < |s.nodes| && c < |s.nodes|
    ensures UniqueChildIds(s) && (forall j :: 0 <= j < |s.nodes[p].children| ==> s.nodes[s.nodes[p].children[j]].id != s.nodes[c].id)
            ==> UniqueChildIds(AddChild(s, p, c))
  {
    if UniqueChildIds(s) && (forall j :: 0 <= j < |s.nodes[p].children| ==> s.nodes[s.nodes[p].children[j]].id != s.nodes[c].id) {
      AddChildKeepsUnique(s, p, c);
    }
  }

  /** The first child of `cs` of kind `k` that either holds no value or holds
      one of record `rec` decides `CreateNode`'s uniqueness check: a missing
      value dereferences null, a matching record is a duplicate. */
  function SlotClash(s: Store, cs: seq<nat>, k: Kind, rec: int): (r: Option<Error>)
    requires Valid(s) && forall i :: 0 <= i < |cs| ==> cs[i] < |s.nodes|
    ensures r == None <==> forall i :: 0 <= i < |cs| && s.nodes[cs[i]].kind == Some(k) ==>
                              s.nodes[cs[i]].value.Some? && s.nodes[cs[i]].value.value.recordNumber != rec
    ensures r == Some(DuplicateValueSlot) ==>
              exists i :: 0 <= i < |cs| && s.nodes[cs[i]].kind == Some(k) && s.nodes[cs[i]].value.Some?
                          && s.nodes[cs[i]].value.value.recordNumber == rec
    ensures r.Some? ==> r.value in {DuplicateValueSlot, NullReference}
  {
    if |cs| == 0 then None
    else
      var c := s.nodes[cs[0]];
      if c.kind == Some(k) && c.value.None? then Some(NullReference)
      else if c.kind == Some(k) && c.value.value.recordNumber == rec then Some(DuplicateValueSlot)
      else
        var r := SlotClash(s, cs[1..], k, rec);
        assert forall i :: 1 <= i < |cs| ==> cs[i] == cs[1..][i - 1];
        r
  }

  /** A new node of kind `k` with instance id `id`, attached under `node`. */
  function AttachNew(s: Store, node: nat, id: Guid, k: Kind): (r: Store)
    requires Valid(s) && node < |s.nodes|
    ensures Valid(r) && |r.nodes| == |s.nodes| + 1
    ensures r.nodes[|s.nodes|] == Node(id, Some(k), Some(node), [], None)
    ensures r.nodes[node].children == s.nodes[node].children + [|s.nodes|]
    ensures forall n :: 0 <= n < |s.nodes| && n != node ==> r.nodes[n] == s.nodes[n]
    ensures r.nodes[node] == s.nodes[node].(children := s.nodes[node].children + [|s.nodes|])
    ensures r.nodes == s.nodes[node := s.nodes[node].(children := s.nodes[node].children + [|s.nodes|])] + [Node(id, Some(k), Some(node), [], None)]
    ensures r.flatView == s.flatView && r.flatKeys == s.flatKeys
    ensures UniqueChildIds(s) && (forall j :: 0 <= j < |s.nodes[node].children| ==> s.nodes[s.nodes[node].children[j]].id != id)
            ==> UniqueChildIds(r)
  {
    var c := |s.nodes|;
    var s1 := s.(nodes := s.nodes + [Node(id, Some(k), None, [], None)]);
    assert UniqueChildIds(s) ==> UniqueChildIds(s1);
    AttachFreshKeepsUnique(s1, node, c);
    AddChild(s1, node, c)
  }

  /** Lists node `c` under its kind `k` in the flat view. */
  function IndexNode(s: Store, k: Kind, c: nat): (r: Store)
    requires Valid(s) && c < |s.nodes| && s.nodes[c].kind == Some(k)
    ensures Valid(r) && r.nodes == s.nodes
    ensures r.flatView == s.flatView[k := (if k in s.flatView then s.flatView[k] else []) + [c]]
    ensures r.flatKeys == if k in s.flatView then s.flatKeys else s.flatKeys + [k]
  {
    var fv := if k in s.flatView then s.flatView[k] else [];
    var keys := if k in s.flatView then s.flatKeys else s.flatKeys + [k];
    s.(flatKeys := keys, flatView := s.flatView[k := fv + [c]])
  }

  /** `CreateNode(i, id, cv, node, type)`: for the last path entry, refuses a
      second value of the same kind and record under the node; otherwise a
      new node is attached under `node` and listed in the flat view. */
  function CreateNode(s: Store, i: nat, id: Guid, cv: CV.ContextValue, node: nat, k: Kind): (r: Result<(Store, nat)>)
    requires Valid(s) && node < |s.nodes|
    ensures r.Ok? ==> var (t, c) := r.value;
              Valid(t) && Grows(s, t) && c == |s.nodes| && |t.nodes| == |s.nodes| + 1
              && t.nodes[c] == Node(id, Some(k), Some(node), [], None)
              && t.nodes[node].children == s.nodes[node].children + [c]
              && t.flatView == s.flatView[k := (if k in s.flatView then s.flatView[k] else []) + [c]]
    ensures r.Ok? && UniqueChildIds(s) && (forall j :: 0 <= j < |s.nodes[node].children| ==> s.nodes[s.nodes[node].children[j]].id != id)
            ==> UniqueChildIds(r.value.0)
    ensures r.Err? <==> i == |cv.typePath| - 1 && SlotClash(s, s.nodes[node].children, k, cv.recordNumber).Some?
    ensures r.Err? ==> r.error == SlotClash(s, s.nodes[node].children, k, cv.recordNumber).value
  {
    var clash := if i == |cv.typePath| - 1 then SlotClash(s, s.nodes[node].children, k, cv.recordNumber) else None;
    if clash.Some? then Err(clash.value)
    else
      var c := |s.nodes|;
      var t := IndexNode(AttachNew(s, node, id, k), k, c);
      CreateNodeGrows(s, node, id, k);
      NewNodeShape(s, node, id, k);
      NewNodeUnique(s, node, id, k);
      Ok((t, c))
  }

  /** The store after attaching and listing a new node of kind `k`. */
  lemma NewNodeShape(s: Store, node: nat, id: Guid, k: Kind)
    requires Valid(s) && node < |s.nodes|
    ensures var c := |s.nodes|;
            var t := IndexNode(AttachNew(s, node, id, k), k, c);
            Valid(t) && |t.nodes| == c + 1
            && t.nodes[c] == Node(id, Some(k), Some(node), [], None)
            && t.nodes[node].children == s.nodes[node].children + [c]
            && t.flatView == s.flatView[k := (if k in s.flatView then s.flatView[k] else []) + [c]]
  {
  }

  /** A new node whose id no sibling has keeps child ids unique. */
  lemma NewNodeUnique(s: Store, node: nat, id: Guid, k: Kind)
    requires Valid(s) && node < |s.nodes|
    ensures UniqueChildIds(s) && (forall j :: 0 <= j < |s.nodes[node].children| ==> s.nodes[s.nodes[node].children[j]].id != id)
            ==> UniqueChildIds(IndexNode(AttachNew(s, node, id, k), k, |s.nodes|))
  {
  }

  /** The flat-view list of kind `k`, empty when the kind was never indexed. */
  function Listed(s: Store, k: Kind): seq<nat>
  {
    if k in s.flatView then s.flatView[k] else []
  }

  /** The whole store after a successful `CreateNode`: the node's child
      list gains the new node, which comes last; a kind seen for the first
      time is appended to the flat view's keys. */

  lemma CreateNodeShape(s: Store, i: nat, id: Guid, cv: CV.ContextValue, node: nat, k: Kind)
    requires Valid(s) && node < |s.nodes|
    requires i != |cv.typePath| - 1 || SlotClash(s, s.nodes[node].children, k, cv.recordNumber).None?
    ensures CreateNode(s, i, id, cv, node, k)
            == Ok((Store(s.nodes[node := s.nodes[node].(children := s.nodes[node].children + [|s.nodes|])] + [Node(id, Some(k), Some(node), [], None)],
                         if k in s.flatView then s.flatKeys else s.flatKeys + [k],
                         s.flatView[k := Listed(s, k) + [|s.nodes|]]),
                   |s.nodes|))
  {
  }

  /** `t` is `s` with node `nn` of kind `k` appended as the last child of
      `node` and listed last under `k`. */
  predicate NewNodeStep(s: Store, t: Store, node: nat, nn: Node, k: Kind)
  {
    node < |s.nodes| && nn.kind == Some(k)
    && t.nodes == s.nodes[node := s.nodes[node].(children := s.nodes[node].children + [|s.nodes|])] + [nn]
    && t.flatView == s.flatView[k := (if k in s.flatView then s.flatView[k] else []) + [|s.nodes|]]
  }

  lemma CreateNodeGrows(s: Store, node: nat, id: Guid, k: Kind)
    requires Valid(s) && node < |s.nodes|
    ensures Grows(s, IndexNode(AttachNew(s, node, id, k), k, |s.nodes|))
  {
    var t := IndexNode(AttachNew(s, node, id, k), k, |s.nodes|);
    var nn := Node(id, Some(k), Some(node), [], None);
    assert NewNodeStep(s, t, node, nn, k);
    NewNodeKeepsNodes(s, t, node, nn, k);
    NewNodeKeepsLists(s, t, node, nn, k);
    NewNodeListed(s, t, node, nn, k);
    NewNodeOnlyNew(s, t, node, nn, k);
  }

  /** Old nodes keep id and kind and only gain children. */
  lemma NewNodeKeepsNodes(s: Store, t: Store, node: nat, nn: Node, k: Kind)
    requires NewNodeStep(s, t, node, nn, k)
    ensures |s.nodes| <= |t.nodes|
    ensures forall n :: 0 <= n < |s.nodes| ==>
              t.nodes[n].id == s.nodes[n].id && t.nodes[n].kind == s.nodes[n].kind
              && |s.nodes[n].children| <= |t.nodes[n].children|
              && t.nodes[n].children[..|s.nodes[n].children|] == s.nodes[n].children
  {
    forall n | 0 <= n < |s.nodes|
      ensures t.nodes[n].children[..|s.nodes[n].children|] == s.nodes[n].children
    {
      if n == node {
        assert t.nodes[n].children == s.nodes[n].children + [|s.nodes|];
      } else {
        assert t.nodes[n] == s.nodes[n];
      }
    }
  }

  /** Flat-view lists only grow. */
  lemma NewNodeKeepsLists(s: Store, t: Store, node: nat, nn: Node, k: Kind)
    requires NewNodeStep(s, t, node, nn, k)
    ensures forall k' :: k' in s.flatView ==>
              k' in t.flatView && |s.flatView[k']| <= |t.flatView[k']| && t.flatView[k'][..|s.flatView[k']|] == s.flatView[k']
  {
    if k in s.flatView {
      assert t.flatView[k][..|s.flatView[k]|] == s.flatView[k];
    }
  }

  /** The new node is listed under its kind. */
  lemma NewNodeListed(s: Store, t: Store, node: nat, nn: Node, k: Kind)
    requires NewNodeStep(s, t, node, nn, k)
    ensures forall n :: |s.nodes| <= n < |t.nodes| ==>
              t.nodes[n].kind.Some? && t.nodes[n].kind.value in t.flatView && n in t.flatView[t.nodes[n].kind.value]
  {
    var c := |s.nodes|;
    assert |t.nodes| == c + 1 && t.nodes[c] == nn;
    assert t.flatView[k] == (if k in s.flatView then s.flatView[k] else []) + [c];
  }

  /** The only new flat-view entry is the new node. */
  lemma NewNodeOnlyNew(s: Store, t: Store, node: nat, nn: Node, k: Kind)
    requires NewNodeStep(s, t, node, nn, k)
    ensures forall k', j :: k' in t.flatView && (if k' in s.flatView then |s.flatView[k']| else 0) <= j < |t.flatView[k']|
              ==> t.flatView[k'][j] >= |s.nodes|
  {
    var c := |s.nodes|;
    var fv := if k in s.flatView then s.flatView[k] else [];
    forall k', j | k' in t.flatView && (if k' in s.flatView then |s.flatView[k']| else 0) <= j < |t.flatView[k']|
      ensures t.flatView[k'][j] >= c
    {
      if k' == k {
        assert j == |fv|;
        assert (fv + [c])[|fv|] == c;
      }
    }
  }

  /** The first flat-view node among `cands` one of whose child instance
      paths is exactly `suffix`. */
  function FindShared(s: Store, cands: seq<nat>, suffix: seq<Guid>): (r: Result<Option<nat>>)
    requires Valid(s) && forall i :: 0 <= i < |cands| ==> cands[i] < |s.nodes|
    ensures r.Ok? && r.value.Some? ==> r.value.value in cands && r.value.value < |s.nodes| && IsWalk(s, r.value.value, suffix)
    ensures r.Ok? && r.value.Some? ==>
              exists j :: 0 <= j < |cands| && cands[j] == r.value.value && forall i :: 0 <= i < j ==> !IsWalk(s, cands[i], suffix)
    ensures r == Ok(None) ==> forall i :: 0 <= i < |cands| ==> !IsWalk(s, cands[i], suffix)
    ensures r.Err? ==> r.error == OutOfFuel
  {
    if |cands| == 0 then Ok(None)
    else
      var paths :- ChildInstancePaths(s, cands[0], |s.nodes|);
      if suffix in paths then
        assert cands[0] == cands[0];
        Ok(Some(cands[0]))
      else
        assert forall i :: 0 <= i < |cands[1..]| ==> cands[1..][i] == cands[i + 1];
        var r := FindShared(s, cands[1..], suffix);
        assert r.Ok? && r.value.Some? ==> exists j :: 0 <= j < |cands| && cands[j] == r.value.value && forall i :: 0 <= i < j ==> !IsWalk(s, cands[i], suffix) by {
          if r.Ok? && r.value.Some? {
            var j :| 0 <= j < |cands[1..]| && cands[1..][j] == r.value.value && forall i :: 0 <= i < j ==> !IsWalk(s, cands[1..][i], suffix);
            assert forall i :: 0 <= i < j + 1 ==> !IsWalk(s, cands[i], suffix) by {
              forall i | 0 <= i < j + 1 ensures !IsWalk(s, cands[i], suffix) {
                if i > 0 { assert cands[i] == cands[1..][i - 1]; }
              }
            }
            assert cands[j + 1] == r.value.value;
          }
        }
        r
  }

  /** The loop of `AddOrUpdate` from path position `i`, standing at `node`:
      follow the single child with the next id; failing that, attach an
      existing node of the next kind whose child paths include the rest of
      the instance path; failing that, create a node. At the end the node
      reached receives the value. */
  function AddFrom(s: Store, cv: CV.ContextValue, node: nat, i: nat): (o: Outcome)
    requires Valid(s) && node < |s.nodes| && |cv.typePath| == |cv.instancePath| && i <= |cv.typePath|
    ensures Valid(o.store) && Grows(s, o.store) && o.node < |o.store.nodes|
    ensures o.error.None? ==> o.store.nodes[o.node].value == Some(cv)
    ensures o.error.Some? ==> o.error.value in {OutOfFuel, NullReference, DuplicateValueSlot}
    decreases |cv.typePath| - i, 1
  {
    if i == |cv.typePath| then
      Outcome(SetValue(s, node, cv), node, None)
    else
      match SingleChildWithId(s, node, cv.instancePath[i])
      case Some(c) => AddFrom(s, cv, c, i + 1)
      case None => AddFromMissing(s, cv, node, i)
  }

  /** The step of `AddFrom` when no child of `node` has the next id. */
  function AddFromMissing(s: Store, cv: CV.ContextValue, node: nat, i: nat): (o: Outcome)
    requires Valid(s) && node < |s.nodes| && |cv.typePath| == |cv.instancePath| && i < |cv.typePath|
    ensures Valid(o.store) && Grows(s, o.store) && o.node < |o.store.nodes|
    ensures o.error.None? ==> o.store.nodes[o.node].value == Some(cv)
    ensures o.error.Some? ==> o.error.value in {OutOfFuel, NullReference, DuplicateValueSlot}
    decreases |cv.typePath| - i, 0
  {
    var (id, k) := (cv.instancePath[i], cv.typePath[i]);
    var shared := if k in s.flatView then FindShared(s, s.flatView[k], cv.instancePath[i..]) else Ok(None);
    if shared.Err? then GrowsRefl(s); Outcome(s, node, Some(shared.error))
    else if shared.value.Some? then
      var f := shared.value.value;
      var s1 := AddChild(s, node, f);
      AddChildGrows(s, node, f);
      var o := AddFrom(s1, cv, f, i + 1);
      GrowsTrans(s, s1, o.store);
      o
    else
      match CreateNode(s, i, id, cv, node, k)
      case Err(e) => GrowsRefl(s); Outcome(s, node, Some(e))
      case Ok((s1, c)) =>
        var o := AddFrom(s1, cv, c, i + 1);
        GrowsTrans(s, s1, o.store);
        o
  }

  /** `AddOrUpdate(cv)`: the type path and the instance path must have the
      same length; the walk starts at the root. */
  function AddOrUpdate(s: Store, cv: CV.ContextValue): (o: Outcome)
    requires Valid(s)
    ensures Valid(o.store) && Grows(s, o.store)
    ensures |cv.typePath| != |cv.instancePath| <==> o == Outcome(s, 0, Some(AssertionFailed))
    ensures o.error.None? ==> o.node < |o.store.nodes| && o.store.nodes[o.node].value == Some(cv)
  {
    if |cv.typePath| != |cv.instancePath| then GrowsRefl(s); Outcome(s, 0, Some(AssertionFailed))
    else AddFrom(s, cv, 0, 0)
  }

  /** The node reached from `node` by following, for each id in turn, the
      single child with that id. */
  function Follow(s: Store, node: nat, ids: seq<Guid>): (r: Option<nat>)
    requires Valid(s) && node < |s.nodes|
    ensures r.Some? ==> r.value < |s.nodes|
    decreases |ids|
  {
    if |ids| == 0 then Some(node)
    else match SingleChildWithId(s, node, ids[0])
      case None => None
      case Some(c) => Follow(s, c, ids[1..])
  }

  /** One step of `AddFrom` that finds nothing to follow and nothing to
      share: it goes on from the node `CreateNode` made. */
  lemma AddFromCreates(s: Store, cv: CV.ContextValue, node: nat, i: nat, t: Store, c: nat)
    requires Valid(s) && node < |s.nodes| && |cv.typePath| == |cv.instancePath| && i < |cv.typePath|
    requires SingleChildWithId(s, node, cv.instancePath[i]) == None
    requires FindShared(s, Listed(s, cv.typePath[i]), cv.instancePath[i..]) == Ok(None)
    requires CreateNode(s, i, cv.instancePath[i], cv, node, cv.typePath[i]) == Ok((t, c))
    ensures Valid(t) && c < |t.nodes|
    ensures AddFrom(s, cv, node, i) == AddFrom(t, cv, c, i + 1)
  {
    var k := cv.typePath[i];
    if k !in s.flatView {
      assert FindShared(s, [], cv.instancePath[i..]) == Ok(None);
    }
  }

  /** When no child of `node` has the next id but a flat-view node of the
      next kind has the rest of the instance path as one of its downward
      walks, the step creates no node: it attaches the first such flat-view
      node under `node` and goes on from there. */
  lemma AddFromMissingShares(s: Store, cv: CV.ContextValue, node: nat, i: nat, j: nat)
    requires Valid(s) && node < |s.nodes| && |cv.typePath| == |cv.instancePath| && i < |cv.typePath|
    requires j < |Listed(s, cv.typePath[i])| && IsWalk(s, Listed(s, cv.typePath[i])[j], cv.instancePath[i..])
    requires FindShared(s, Listed(s, cv.typePath[i]), cv.instancePath[i..]).Ok?
    ensures exists f :: 0 <= f <= j && (forall g :: 0 <= g < f ==> !IsWalk(s, Listed(s, cv.typePath[i])[g], cv.instancePath[i..]))
              && var c := Listed(s, cv.typePath[i])[f];
                 IsWalk(s, c, cv.instancePath[i..])
                 && |AddChild(s, node, c).nodes| == |s.nodes|
                 && AddFromMissing(s, cv, node, i) == AddFrom(AddChild(s, node, c), cv, c, i + 1)
  {
    var cands := Listed(s, cv.typePath[i]);
    var r := FindShared(s, cands, cv.instancePath[i..]);
    var f :| 0 <= f < |cands| && cands[f] == r.value.value && forall g :: 0 <= g < f ==> !IsWalk(s, cands[g], cv.instancePath[i..]);
    assert f <= j;
  }

  /** The converse: when no flat-view node of the next kind has the rest of
      the instance path as a walk, the step creates a node. */
  lemma AddFromMissingCreates(s: Store, cv: CV.ContextValue, node: nat, i: nat)
    requires Valid(s) && node < |s.nodes| && |cv.typePath| == |cv.instancePath| && i < |cv.typePath|
    requires forall j :: 0 <= j < |Listed(s, cv.typePath[i])| ==> !IsWalk(s, Listed(s, cv.typePath[i])[j], cv.instancePath[i..])
    requires FindShared(s, Listed(s, cv.typePath[i]), cv.instancePath[i..]).Ok?
    ensures var r := CreateNode(s, i, cv.instancePath[i], cv, node, cv.typePath[i]);
            && (r.Err? ==> AddFromMissing(s, cv, node, i) == Outcome(s, node, Some(r.error)))
            && (r.Ok? ==> |r.value.0.nodes| == |s.nodes| + 1 && AddFromMissing(s, cv, node, i) == AddFrom(r.value.0, cv, r.value.1, i + 1))
  {
  }

  /** At the end of the path the node reached receives the value. */
  lemma AddFromEnds(s: Store, cv: CV.ContextValue, node: nat)
    requires Valid(s) && node < |s.nodes| && |cv.typePath| == |cv.instancePath|
    ensures AddFrom(s, cv, node, |cv.typePath|) == Outcome(SetValue(s, node, cv), node, None)
  {
  }

  /** When every id of the remaining path already names a single child, the
      walk creates and attaches nothing: only the value of the node reached
      changes. */
  lemma {:induction false} AddFromExisting(s: Store, cv: CV.ContextValue, node: nat, i: nat)
    requires Valid(s) && node < |s.nodes| && |cv.typePath| == |cv.instancePath| && i <= |cv.typePath|
    requires Follow(s, node, cv.instancePath[i..]).Some?
    ensures var m := Follow(s, node, cv.instancePath[i..]).value;
            AddFrom(s, cv, node, i) == Outcome(SetValue(s, m, cv), m, None)
    decreases |cv.typePath| - i
  {
    if i < |cv.typePath| {
      var ids := cv.instancePath[i..];
      assert ids[0] == cv.instancePath[i] && ids[1..] == cv.instancePath[i + 1..];
      var c := SingleChildWithId(s, node, cv.instancePath[i]).value;
      AddFromExisting(s, cv, c, i + 1);
    }
  }

  /** A child present before growth is still at the same position after. */
  lemma ChildKept(s: Store, t: Store, n: nat, j: nat)
    requires Grows(s, t) && n < |s.nodes| && j < |s.nodes[n].children|
    ensures j < |t.nodes[n].children| && t.nodes[n].children[j] == s.nodes[n].children[j]
  {
    assert t.nodes[n].children[..|s.nodes[n].children|][j] == t.nodes[n].children[j];
  }

  /** With unique child ids, following a path through the `j`-th child of
      `n` starts by stepping to that child. */
  lemma FollowThrough(t: Store, n: nat, j: nat, ids: seq<Guid>, m: nat)
    requires Valid(t) && UniqueChildIds(t) && n < |t.nodes| && j < |t.nodes[n].children| && |ids| > 0
    requires t.nodes[t.nodes[n].children[j]].id == ids[0]
    requires Follow(t, t.nodes[n].children[j], ids[1..]) == Some(m)
    ensures Follow(t, n, ids) == Some(m)
  {
    UniqueIdIsSingle(t, n, j);
  }

  /** A successful walk over a store with unique child ids keeps them unique
      and leaves the path followable from where it started, ending at the
      node that received the value. */
  lemma {:induction false} AddFromReaches(s: Store, cv: CV.ContextValue, node: nat, i: nat)
    requires Valid(s) && UniqueChildIds(s) && node < |s.nodes| && |cv.typePath| == |cv.instancePath| && i <= |cv.typePath|
    requires AddFrom(s, cv, node, i).error.None?
    ensures var o := AddFrom(s, cv, node, i);
            UniqueChildIds(o.store) && Follow(o.store, node, cv.instancePath[i..]) == Some(o.node)
    decreases |cv.typePath| - i, 1
  {
    if i < |cv.typePath| {
      var o := AddFrom(s, cv, node, i);
      var ids := cv.instancePath[i..];
      assert ids[0] == cv.instancePath[i] && ids[1..] == cv.instancePath[i + 1..];
      match SingleChildWithId(s, node, cv.instancePath[i])
      case Some(c) =>
        AddFromReaches(s, cv, c, i + 1);
        var cs := s.nodes[node].children;
        var j :| 0 <= j < |cs| && cs[j] == c;
        ChildKept(s, o.store, node, j);
        FollowThrough(o.store, node, j, ids, o.node);
      case None =>
        NoneMeansAbsent(s, node, cv.instancePath[i]);
        AddFromMissingReaches(s, cv, node, i);
    }
  }

  /** The same for the step that attaches a shared node or creates one: the
      new child is last among `node`'s children and the walk goes on there. */
  lemma {:induction false} AddFromMissingReaches(s: Store, cv: CV.ContextValue, node: nat, i: nat)
    requires Valid(s) && UniqueChildIds(s) && node < |s.nodes| && |cv.typePath| == |cv.instancePath| && i < |cv.typePath|
    requires forall j :: 0 <= j < |s.nodes[node].children| ==> s.nodes[s.nodes[node].children[j]].id != cv.instancePath[i]
    requires AddFromMissing(s, cv, node, i).error.None?
    ensures var o := AddFromMissing(s, cv, node, i);
            UniqueChildIds(o.store) && Follow(o.store, node, cv.instancePath[i..]) == Some(o.node)
    decreases |cv.typePath| - i, 0
  {
    var o := AddFromMissing(s, cv, node, i);
    var (id, k) := (cv.instancePath[i], cv.typePath[i]);
    var ids := cv.instancePath[i..];
    assert ids[0] == id && ids[1..] == cv.instancePath[i + 1..];
    var cs := s.nodes[node].children;
    var shared := if k in s.flatView then FindShared(s, s.flatView[k], ids) else Ok(None);
    if shared.value.Some? {
      var f := shared.value.value;
      AddChildKeepsUnique(s, node, f);
      var s1 := AddChild(s, node, f);
      AddFromReaches(s1, cv, f, i + 1);
      ChildKept(s1, o.store, node, |cs|);
      FollowThrough(o.store, node, |cs|, ids, o.node);
    } else {
      var (s1, c) := CreateNode(s, i, id, cv, node, k).value;
      AddFromReaches(s1, cv, c, i + 1);
      ChildKept(s1, o.store, node, |cs|);
      FollowThrough(o.store, node, |cs|, ids, o.node);
    }
  }

  /** Inserting the same value twice changes nothing the second time: no
      node is created or attached and the flat view is unchanged. */
  lemma AddOrUpdateIdempotent(s: Store, cv: CV.ContextValue)
    requires Valid(s) && UniqueChildIds(s) && AddOrUpdate(s, cv).error.None?
    ensures AddOrUpdate(AddOrUpdate(s, cv).store, cv) == AddOrUpdate(s, cv)
  {
    var o := AddOrUpdate(s, cv);
    var t := o.store;
    assert cv.instancePath[0..] == cv.instancePath;
    AddFromReaches(s, cv, 0, 0);
    AddFromExisting(t, cv, 0, 0);
    assert t.nodes[o.node := t.nodes[o.node].(value := Some(cv))] == t.nodes;
  }

  // ---------------------------------------------------------------------
  // Search

  /** The field-parent kind of a value: the second-to-last entry of its
      type path (`TypePath.Reverse().Skip(1).Take(1).First()`). */
  function ParentKind(cv: CV.ContextValue): (r: Result<Kind>)
    ensures r.Ok? <==> |cv.typePath| >= 2
    ensures r.Ok? ==> r.value == cv.typePath[|cv.typePath| - 2]
    ensures r.Err? ==> r.error == EmptySequence
  {
    if |cv.typePath| < 2 then Err(EmptySequence) else Ok(cv.typePath[|cv.typePath| - 2])
  }

  /** The one field-parent kind shared by all searched values. */
  function SharedParentKind(cvs: seq<CV.ContextValue>): (r: Result<Kind>)
    requires |cvs| > 0
    ensures r.Ok? <==> (forall i :: 0 <= i < |cvs| ==> |cvs[i].typePath| >= 2)
                       && forall i :: 0 <= i < |cvs| ==> ParentKind(cvs[i]) == ParentKind(cvs[0])
    ensures r.Ok? ==> forall i :: 0 <= i < |cvs| ==> ParentKind(cvs[i]) == Ok(r.value)
    ensures r.Err? ==> r.error == (if exists i :: 0 <= i < |cvs| && |cvs[i].typePath| < 2 then EmptySequence else AssertionFailed)
  {
    if exists i :: 0 <= i < |cvs| && |cvs[i].typePath| < 2 then Err(EmptySequence)
    else if forall i :: 0 <= i < |cvs| ==> ParentKind(cvs[i]) == ParentKind(cvs[0]) then ParentKind(cvs[0])
    else Err(AssertionFailed)
  }

  /** The children of `cs` holding a value of kind `k` and record `rec`. */
  function SlotHolders(s: Store, cs: seq<nat>, k: Kind, rec: int): (r: seq<nat>)
    ensures forall c :: c in r <==> (c in cs && c < |s.nodes| && s.nodes[c].kind == Some(k)
                                     && s.nodes[c].value.Some? && s.nodes[c].value.value.recordNumber == rec)
  {
    Filter(cs, (c: nat) => c < |s.nodes| && s.nodes[c].kind == Some(k) && s.nodes[c].value.Some? && s.nodes[c].value.value.recordNumber == rec)
  }

  /** A single child holds the slot exactly when it has the kind, a value
      and the record. */
  lemma SlotHoldersOne(s: Store, c: nat, k: Kind, rec: int)
    ensures SlotHolders(s, [c], k, rec)
            == if c < |s.nodes| && s.nodes[c].kind == Some(k) && s.nodes[c].value.Some? && s.nodes[c].value.value.recordNumber == rec
               then [c] else []
  {
    assert [c][1..] == [];
  }

  /** Record `rec` of the children `cs` agrees with the searched value: one
      child holds the value's field kind for that record, with the same text. */
  predicate SlotAgrees(s: Store, cs: seq<nat>, cv: CV.ContextValue, rec: int)
  {
    |cv.typePath| > 0
    && var h := SlotHolders(s, cs, cv.typePath[|cv.typePath| - 1], rec);
    |h| == 1 && h[0] < |s.nodes| && s.nodes[h[0]].value.Some? && s.nodes[h[0]].value.value.value == cv.value
  }

  predicate AllSlotsAgree(s: Store, cs: seq<nat>, cvs: seq<CV.ContextValue>, rec: int)
  {
    forall i :: 0 <= i < |cvs| ==> SlotAgrees(s, cs, cvs[i], rec)
  }

  /** The inner loop of `Search` for one record number: compares the
      searched values in order and stops at the first that differs; a
      field with no holder for the record fails the assertion, one with
      several fails `SingleOrDefault`. */
  function MatchRecord(s: Store, cs: seq<nat>, cvs: seq<CV.ContextValue>, rec: int): (r: Result<bool>)
    requires forall i :: 0 <= i < |cvs| ==> |cvs[i].typePath| > 0
    ensures r == Ok(true) <==> AllSlotsAgree(s, cs, cvs, rec)
    ensures r.Err? ==> r.error in {AssertionFailed, NotSingle}
    decreases |cvs|
  {
    if |cvs| == 0 then Ok(true)
    else
      var agrees :- MatchSlot(s, cs, cvs[0], rec);
      if !agrees then Ok(false)
      else
        assert forall i :: 1 <= i < |cvs| ==> cvs[i] == cvs[1..][i - 1];
        MatchRecord(s, cs, cvs[1..], rec)
  }

  /** A failed comparison names a searched value whose field kind has no
      holder for the record (the assertion) or several (`SingleOrDefault`). */
  lemma {:induction false} MatchRecordErrCause(s: Store, cs: seq<nat>, cvs: seq<CV.ContextValue>, rec: int)
    requires forall i :: 0 <= i < |cvs| ==> |cvs[i].typePath| > 0
    requires MatchRecord(s, cs, cvs, rec).Err?
    ensures exists i :: 0 <= i < |cvs| && !SlotAgrees(s, cs, cvs[i], rec)
                        && MatchRecord(s, cs, cvs, rec).error == SlotError(s, cs, cvs[i], rec)
    decreases |cvs|
  {
    var r0 := MatchSlot(s, cs, cvs[0], rec);
    if r0.Err? {
      assert MatchRecord(s, cs, cvs, rec) == Err(r0.error);
    } else {
      var rest := cvs[1..];
      assert r0 == Ok(true);
      assert MatchRecord(s, cs, cvs, rec) == MatchRecord(s, cs, rest, rec);
      MatchRecordErrCause(s, cs, rest, rec);
      var i :| 0 <= i < |rest| && !SlotAgrees(s, cs, rest[i], rec)
               && MatchRecord(s, cs, rest, rec).error == SlotError(s, cs, rest[i], rec);
      assert cvs[i + 1] == rest[i];
    }
  }

  /** The exception a disagreeing field raises: no holder for the record
      fails the assertion, several fail `SingleOrDefault`. */
  function SlotError(s: Store, cs: seq<nat>, cv: CV.ContextValue, rec: int): Error
    requires |cv.typePath| > 0
  {
    if |SlotHolders(s, cs, cv.typePath[|cv.typePath| - 1], rec)| == 0 then AssertionFailed else NotSingle
  }

  /** One comparison of `MatchRecord`: the single holder of the value's
      field kind for the record, compared by text. */
  function MatchSlot(s: Store, cs: seq<nat>, cv: CV.ContextValue, rec: int): (r: Result<bool>)
    requires |cv.typePath| > 0
    ensures r == Ok(true) <==> SlotAgrees(s, cs, cv, rec)
    ensures r.Err? ==> !SlotAgrees(s, cs, cv, rec) && r.error == SlotError(s, cs, cv, rec)
  {
    var h := SlotHolders(s, cs, cv.typePath[|cv.typePath| - 1], rec);
    if |h| == 0 then Err(AssertionFailed)
    else if |h| > 1 then Err(NotSingle)
    else if (assert h[0] in h; false) then Ok(false)
    else Ok(s.nodes[h[0]].value.value.value == cv.value)
  }

  /** LINQ `Distinct()`: the elements of `xs` in first-occurrence order. */
  function Distinct(xs: seq<int>): (r: seq<int>)
    ensures forall x :: x in r <==> x in xs
    ensures forall a, b :: 0 <= a < b < |r| ==> r[a] != r[b]
  {
    if |xs| == 0 then []
    else
      var rest := Distinct(xs[..|xs| - 1]);
      assert forall x :: x in xs <==> x in xs[..|xs| - 1] || x == xs[|xs| - 1];
      if xs[|xs| - 1] in rest then rest else rest + [xs[|xs| - 1]]
  }

  /** A single record number is its own distinct list. */
  lemma DistinctOne(x: int)
    ensures Distinct([x]) == [x]
  {
    assert [x][..0] == [];
  }

  predicate AllValued(s: Store, cs: seq<nat>)
  {
    forall i :: 0 <= i < |cs| ==> cs[i] < |s.nodes| && s.nodes[cs[i]].value.Some?
  }

  /** The record numbers of the children, in child order. */
  function RecordNumbers(s: Store, cs: seq<nat>): (r: seq<int>)
    requires AllValued(s, cs)
    ensures |r| == |cs| && forall i :: 0 <= i < |cs| ==> r[i] == s.nodes[cs[i]].value.value.recordNumber
  {
    seq(|cs|, i requires 0 <= i < |cs| => s.nodes[cs[i]].value.value.recordNumber)
  }

  /** Node `n` once per record number in `recs` for which every searched
      value agrees. */
  function MatchRecords(s: Store, n: nat, cvs: seq<CV.ContextValue>, recs: seq<int>): (r: Result<seq<nat>>)
    requires n < |s.nodes| && forall i :: 0 <= i < |cvs| ==> |cvs[i].typePath| > 0
    ensures r.Ok? ==> |r.value| == |Filter(recs, rec => AllSlotsAgree(s, s.nodes[n].children, cvs, rec))|
    ensures r.Ok? ==> forall i :: 0 <= i < |r.value| ==> r.value[i] == n
    ensures r.Err? ==> r.error in {AssertionFailed, NotSingle}
    decreases |recs|
  {
    if |recs| == 0 then Ok([])
    else
      var m :- MatchRecord(s, s.nodes[n].children, cvs, recs[0]);
      var rest :- MatchRecords(s, n, cvs, recs[1..]);
      Ok((if m then [n] else []) + rest)
  }

  /** A node matches the search when some record of its children agrees
      with every searched value. */
  predicate NodeMatches(s: Store, n: nat, cvs: seq<CV.ContextValue>)
    requires n < |s.nodes|
  {
    var cs := s.nodes[n].children;
    exists j :: 0 <= j < |cs| && cs[j] < |s.nodes| && s.nodes[cs[j]].value.Some?
                && AllSlotsAgree(s, cs, cvs, s.nodes[cs[j]].value.value.recordNumber)
  }

  /** The body of `Search`'s loop over one node of the parent kind: its
      distinct record numbers are tried in order, and the node is listed
      once for every record that matches. Reading the record number of a
      first child with no value dereferences null; a later one fails the
      dictionary's own assertion. */
  function MatchNode(s: Store, n: nat, cvs: seq<CV.ContextValue>): (r: Result<seq<nat>>)
    requires Valid(s) && n < |s.nodes| && |cvs| > 0 && forall i :: 0 <= i < |cvs| ==> |cvs[i].typePath| > 0
    ensures r.Ok? ==> (|r.value| > 0 <==> NodeMatches(s, n, cvs))
    ensures r.Ok? ==> forall i :: 0 <= i < |r.value| ==> r.value[i] == n
    ensures r.Ok? && AllValued(s, s.nodes[n].children) ==>
              |r.value| == |Filter(Distinct(RecordNumbers(s, s.nodes[n].children)), rec => AllSlotsAgree(s, s.nodes[n].children, cvs, rec))|
    ensures r.Err? <==> (|s.nodes[n].children| > 0 && !AllValued(s, s.nodes[n].children))
                         || (AllValued(s, s.nodes[n].children)
                             && exists x :: x in RecordNumbers(s, s.nodes[n].children) && MatchRecord(s, s.nodes[n].children, cvs, x).Err?)
    ensures r.Err? && |s.nodes[n].children| > 0 && !AllValued(s, s.nodes[n].children) ==>
              r.error == (if s.nodes[s.nodes[n].children[0]].value.None? then NullReference else MissingContextValue)
  {
    var cs := s.nodes[n].children;
    if |cs| == 0 then Ok([])
    else if s.nodes[cs[0]].value.None? then Err(NullReference)
    else if !AllValued(s, cs) then Err(MissingContextValue)
    else
      var recs := Distinct(RecordNumbers(s, cs));
      var r := MatchRecords(s, n, cvs, recs);
      MatchRecordsErr(s, n, cvs, recs);
      if r.Ok? then
        DistinctRecordsMatch(s, n, cvs);
        FilterNonEmpty(recs, rec => AllSlotsAgree(s, cs, cvs, rec));
        r
      else r
  }

  /** A filtered list is non-empty exactly when some element passes. */
  lemma FilterNonEmpty<T(!new)>(xs: seq<T>, p: T -> bool)
    ensures |Filter(xs, p)| > 0 <==> exists x :: x in xs && p(x)
  {
    if |Filter(xs, p)| > 0 {
      assert Filter(xs, p)[0] in Filter(xs, p);
    }
  }

  /** Trying the distinct record numbers of the children covers exactly the
      records of `NodeMatches`. */
  lemma DistinctRecordsMatch(s: Store, n: nat, cvs: seq<CV.ContextValue>)
    requires Valid(s) && n < |s.nodes| && AllValued(s, s.nodes[n].children)
    ensures (exists x :: x in Distinct(RecordNumbers(s, s.nodes[n].children)) && AllSlotsAgree(s, s.nodes[n].children, cvs, x))
            <==> NodeMatches(s, n, cvs)
  {
    var cs := s.nodes[n].children;
    var rn := RecordNumbers(s, cs);
    var p := (x: int) => AllSlotsAgree(s, cs, cvs, x);
    DistinctExists(rn, p);
    if NodeMatches(s, n, cvs) {
      var j :| 0 <= j < |cs| && cs[j] < |s.nodes| && s.nodes[cs[j]].value.Some? && AllSlotsAgree(s, cs, cvs, s.nodes[cs[j]].value.value.recordNumber);
      assert p(rn[j]);
    }
    if exists j :: 0 <= j < |rn| && p(rn[j]) {
      var j :| 0 <= j < |rn| && p(rn[j]);
      assert cs[j] < |s.nodes| && s.nodes[cs[j]].value.Some? && AllSlotsAgree(s, cs, cvs, s.nodes[cs[j]].value.value.recordNumber);
    }
  }

  lemma DistinctExists(xs: seq<int>, p: int -> bool)
    ensures (exists x :: x in Distinct(xs) && p(x)) <==> exists j :: 0 <= j < |xs| && p(xs[j])
  {
    if exists x :: x in Distinct(xs) && p(x) {
      var x :| x in Distinct(xs) && p(x);
      assert x in xs;
      var j :| 0 <= j < |xs| && xs[j] == x;
    }
    if exists j :: 0 <= j < |xs| && p(xs[j]) {
      var j :| 0 <= j < |xs| && p(xs[j]);
      assert xs[j] in xs;
      assert xs[j] in Distinct(xs);
    }
  }

  /** `MatchRecords` fails exactly when one of the records fails. */
  lemma {:induction false} MatchRecordsErr(s: Store, n: nat, cvs: seq<CV.ContextValue>, recs: seq<int>)
    requires n < |s.nodes| && forall i :: 0 <= i < |cvs| ==> |cvs[i].typePath| > 0
    ensures MatchRecords(s, n, cvs, recs).Err? <==> exists x :: x in recs && MatchRecord(s, s.nodes[n].children, cvs, x).Err?
    decreases |recs|
  {
    if |recs| > 0 {
      var cs := s.nodes[n].children;
      if MatchRecord(s, cs, cvs, recs[0]).Ok? {
        MatchRecordsErr(s, n, cvs, recs[1..]);
        assert MatchRecords(s, n, cvs, recs).Err? <==> MatchRecords(s, n, cvs, recs[1..]).Err?;
        assert forall x :: x in recs && x != recs[0] ==> x in recs[1..];
      } else {
        assert recs[0] in recs;
      }
    }
  }

  /** The candidate nodes of the parent kind, each listed once per matching
      record, in flat-view order. */
  function DirectMatches(s: Store, cands: seq<nat>, cvs: seq<CV.ContextValue>): (r: Result<seq<nat>>)
    requires Valid(s) && |cvs| > 0 && forall i :: 0 <= i < |cvs| ==> |cvs[i].typePath| > 0
    requires forall i :: 0 <= i < |cands| ==> cands[i] < |s.nodes|
    ensures r.Ok? ==> forall n :: n in r.value <==> n in cands && n < |s.nodes| && NodeMatches(s, n, cvs)
    ensures r.Err? ==> r.error in {NullReference, MissingContextValue, AssertionFailed, NotSingle}
    decreases |cands|
  {
    if |cands| == 0 then Ok([])
    else
      var here :- MatchNode(s, cands[0], cvs);
      assert forall i :: 1 <= i < |cands| ==> cands[i] == cands[1..][i - 1];
      var rest :- DirectMatches(s, cands[1..], cvs);
      MatchNodeMembers(s, cands[0], cvs, here);
      assert forall n :: n in cands <==> n == cands[0] || n in cands[1..];
      Ok(here + rest)
  }

  /** What one node contributes to the direct matches: itself, when it matches. */
  lemma MatchNodeMembers(s: Store, n: nat, cvs: seq<CV.ContextValue>, here: seq<nat>)
    requires Valid(s) && n < |s.nodes| && |cvs| > 0 && forall i :: 0 <= i < |cvs| ==> |cvs[i].typePath| > 0
    requires MatchNode(s, n, cvs) == Ok(here)
    ensures forall x :: x in here <==> x == n && NodeMatches(s, x, cvs)
  {
    if NodeMatches(s, n, cvs) {
      assert here[0] in here;
    }
  }

  /** A failing scan names the first candidate whose matching failed. */
  lemma {:induction false} DirectMatchesErrCause(s: Store, cands: seq<nat>, cvs: seq<CV.ContextValue>)
    requires Valid(s) && |cvs| > 0 && forall i :: 0 <= i < |cvs| ==> |cvs[i].typePath| > 0
    requires forall i :: 0 <= i < |cands| ==> cands[i] < |s.nodes|
    requires DirectMatches(s, cands, cvs).Err?
    ensures exists i :: 0 <= i < |cands| && MatchNode(s, cands[i], cvs).Err?
                        && DirectMatches(s, cands, cvs).error == MatchNode(s, cands[i], cvs).error
    decreases |cands|
  {
    if MatchNode(s, cands[0], cvs).Ok? {
      var rest := cands[1..];
      assert forall i :: 0 <= i < |rest| ==> rest[i] == cands[i + 1];
      assert DirectMatches(s, cands, cvs).error == DirectMatches(s, rest, cvs).error;
      DirectMatchesErrCause(s, rest, cvs);
      var i :| 0 <= i < |rest| && MatchNode(s, rest[i], cvs).Err?
               && DirectMatches(s, rest, cvs).error == MatchNode(s, rest[i], cvs).error;
      assert cands[i + 1] == rest[i];
    }
  }

  /** `m.GetParentInstancePath().First()` for every current match, in order,
      asking whether one of them starts at `id` (LINQ `Any`, which stops at
      the first hit). A match directly under the root has an empty parent
      path here only if it is the root itself. */
  function AnyRootedAt(s: Store, cur: seq<nat>, id: Guid): (r: Result<bool>)
    requires Valid(s) && forall i :: 0 <= i < |cur| ==> cur[i] < |s.nodes|
    ensures r == Ok(true) ==> exists i :: 0 <= i < |cur| && GetParentInstancePath(s, cur[i]).Ok?
                                          && |GetParentInstancePath(s, cur[i]).value| > 0 && GetParentInstancePath(s, cur[i]).value[0] == id
    ensures r == Ok(false) ==> forall i :: 0 <= i < |cur| ==> (GetParentInstancePath(s, cur[i]).Ok?
                                          && |GetParentInstancePath(s, cur[i]).value| > 0 && GetParentInstancePath(s, cur[i]).value[0] != id)
    ensures r.Err? ==> r.error in {OutOfFuel, EmptySequence}
    decreases |cur|
  {
    if |cur| == 0 then Ok(false)
    else
      var path :- GetParentInstancePath(s, cur[0]);
      if |path| == 0 then Err(EmptySequence)
      else if path[0] == id then Ok(true)
      else
        var r := AnyRootedAt(s, cur[1..], id);
        assert forall i :: 1 <= i < |cur| ==> cur[i] == cur[1..][i - 1];
        r
  }

  /** Node `n` is the last node listed under some kind, and its parent is
      the dictionary root: a top-level context. */
  predicate TopLevelLast(s: Store, n: nat)
  {
    exists k :: k in s.flatView && |s.flatView[k]| > 0 && s.flatView[k][|s.flatView[k]| - 1] == n
                && n < |s.nodes| && s.nodes[n].parent.Some? && s.nodes[n].parent.value < |s.nodes|
                && s.nodes[s.nodes[n].parent.value].id == EmptyGuid
  }

  /** Some downward walk from `n` passes a node carrying `id`. */
  ghost predicate WalkMeets(s: Store, n: nat, id: Guid)
    requires Valid(s) && n < |s.nodes|
  {
    exists path :: IsWalk(s, n, path) && id in path
  }

  /** The growth allowed by the propagation step: nothing is removed, and
      every node added is a top-level context one of whose walks meets one of
      the ids in `ids`. */
  ghost predicate Propagated(s: Store, before: seq<nat>, after: seq<nat>, ids: set<Guid>)
    requires Valid(s)
  {
    |before| <= |after| && after[..|before|] == before
    && forall i :: |before| <= i < |after| ==>
         after[i] < |s.nodes| && TopLevelLast(s, after[i]) && exists id :: id in ids && WalkMeets(s, after[i], id)
  }

  lemma PropagatedRefl(s: Store, a: seq<nat>, ids: set<Guid>)
    requires Valid(s)
    ensures Propagated(s, a, a, ids)
  {
  }

  lemma PropagatedTrans(s: Store, a: seq<nat>, b: seq<nat>, c: seq<nat>, ids: set<Guid>)
    requires Valid(s) && Propagated(s, a, b, ids) && Propagated(s, b, c, ids)
    ensures Propagated(s, a, c, ids)
  {
    assert c[..|a|] == c[..|b|][..|a|];
    forall i | |a| <= i < |b| ensures c[i] == b[i] {
      assert c[i] == c[..|b|][i];
    }
  }

  /** One walk of `ScanPaths`: a walk through the matched instance adds
      `last` unless some node already listed is rooted at `first`. */
  function ScanOne(s: Store, matchId: Guid, last: nat, first: Guid, path: seq<Guid>, cur: seq<nat>, ids: set<Guid>): (r: Result<seq<nat>>)
    requires Valid(s) && last < |s.nodes| && TopLevelLast(s, last) && matchId in ids
    requires IsWalk(s, last, path)
    requires forall i :: 0 <= i < |cur| ==> cur[i] < |s.nodes|
    ensures r.Ok? ==> Propagated(s, cur, r.value, ids)
    ensures r.Ok? ==> forall i :: 0 <= i < |r.value| ==> r.value[i] < |s.nodes|
    ensures r.Err? ==> r.error in {OutOfFuel, EmptySequence}
  {
    if matchId in path then
      var seen :- AnyRootedAt(s, cur, first);
      var cur1 := if seen then cur else cur + [last];
      assert Propagated(s, cur, cur1, ids) by {
        if cur1 != cur {
          assert WalkMeets(s, last, matchId);
        }
      }
      Ok(cur1)
    else
      Ok(cur)
  }

  /** The innermost loop: for each child path of the top-level node `last`
      that contains the match's id, `last` is appended unless a current
      match already has a parent path starting at `first`, the id of the
      first node listed under the same kind. */
  function ScanPaths(s: Store, matchId: Guid, last: nat, first: Guid, paths: seq<seq<Guid>>, cur: seq<nat>, ids: set<Guid>): (r: Result<seq<nat>>)
    requires Valid(s) && last < |s.nodes| && TopLevelLast(s, last) && matchId in ids
    requires forall i :: 0 <= i < |paths| ==> IsWalk(s, last, paths[i])
    requires forall i :: 0 <= i < |cur| ==> cur[i] < |s.nodes|
    ensures r.Ok? ==> Propagated(s, cur, r.value, ids)
    ensures r.Ok? ==> forall i :: 0 <= i < |r.value| ==> r.value[i] < |s.nodes|
    ensures r.Err? ==> r.error in {OutOfFuel, EmptySequence}
    decreases |paths|
  {
    if |paths| == 0 then Ok(cur)
    else
      var cur1 :- ScanOne(s, matchId, last, first, paths[0], cur, ids);
      assert forall i :: 1 <= i < |paths| ==> paths[i] == paths[1..][i - 1];
      var r :- ScanPaths(s, matchId, last, first, paths[1..], cur1, ids);
      PropagatedTrans(s, cur, cur1, r, ids);
      Ok(r)
  }

  /** Once some listed match already has a parent path starting at
      `first`, scanning the walks of `last` lists nothing more. */
  lemma {:induction false} ScanPathsSeen(s: Store, matchId: Guid, last: nat, first: Guid, paths: seq<seq<Guid>>, cur: seq<nat>, ids: set<Guid>)
    requires Valid(s) && last < |s.nodes| && TopLevelLast(s, last) && matchId in ids
    requires forall i :: 0 <= i < |paths| ==> IsWalk(s, last, paths[i])
    requires forall i :: 0 <= i < |cur| ==> cur[i] < |s.nodes|
    requires AnyRootedAt(s, cur, first) == Ok(true)
    ensures ScanPaths(s, matchId, last, first, paths, cur, ids) == Ok(cur)
    decreases |paths|
  {
    if |paths| > 0 {
      assert ScanOne(s, matchId, last, first, paths[0], cur, ids) == Ok(cur);
      assert forall i :: 1 <= i < |paths| ==> paths[i] == paths[1..][i - 1];
      ScanPathsSeen(s, matchId, last, first, paths[1..], cur, ids);
    }
  }

  /** The middle loop: the kinds of the flat view, in the order they were
      first indexed, restricted to those whose last node hangs directly
      under the root. */
  function ScanKinds(s: Store, matchId: Guid, j: nat, cur: seq<nat>, ids: set<Guid>): (r: Result<seq<nat>>)
    requires Valid(s) && j <= |s.flatKeys| && matchId in ids
    requires forall i :: 0 <= i < |cur| ==> cur[i] < |s.nodes|
    ensures r.Ok? ==> Propagated(s, cur, r.value, ids)
    ensures r.Ok? ==> forall i :: 0 <= i < |r.value| ==> r.value[i] < |s.nodes|
    ensures r.Err? ==> r.error in {OutOfFuel, EmptySequence, NullReference}
    decreases |s.flatKeys| - j
  {
    if j == |s.flatKeys| then Ok(cur)
    else
      var k := s.flatKeys[j];
      var nodes := s.flatView[k];
      if |nodes| == 0 then Err(EmptySequence)
      else
        var last := nodes[|nodes| - 1];
        match s.nodes[last].parent
        case None => Err(NullReference)
        case Some(pa) =>
          if s.nodes[pa].id != EmptyGuid then ScanKinds(s, matchId, j + 1, cur, ids)
          else
            assert TopLevelLast(s, last);
            var paths :- ChildInstancePaths(s, last, |s.nodes|);
            var cur1 :- ScanPaths(s, matchId, last, s.nodes[nodes[0]].id, paths, cur, ids);
            var r :- ScanKinds(s, matchId, j + 1, cur1, ids);
            PropagatedTrans(s, cur, cur1, r, ids);
            Ok(r)
  }

  /** `MatchWithContextsReferencingSubContext`: for each match found so far
      (a snapshot taken before the loop), the top-level contexts that reach
      a node with the match's id are appended. */
  function Propagate(s: Store, snapshot: seq<nat>, i: nat, cur: seq<nat>, ids: set<Guid>): (r: Result<seq<nat>>)
    requires Valid(s) && i <= |snapshot|
    requires forall j :: 0 <= j < |snapshot| ==> snapshot[j] < |s.nodes| && s.nodes[snapshot[j]].id in ids
    requires forall j :: 0 <= j < |cur| ==> cur[j] < |s.nodes|
    ensures r.Ok? ==> Propagated(s, cur, r.value, ids)
    ensures r.Ok? ==> forall j :: 0 <= j < |r.value| ==> r.value[j] < |s.nodes|
    ensures r.Err? ==> r.error in {OutOfFuel, EmptySequence, NullReference}
    decreases |snapshot| - i
  {
    if i == |snapshot| then Ok(cur)
    else
      var cur1 :- ScanKinds(s, s.nodes[snapshot[i]].id, 0, cur, ids);
      var r :- Propagate(s, snapshot, i + 1, cur1, ids);
      PropagatedTrans(s, cur, cur1, r, ids);
      Ok(r)
  }

  /** When no kind scan changes the list for any match of the snapshot,
      propagation returns the list unchanged. */
  lemma {:induction false} PropagateFixed(s: Store, snapshot: seq<nat>, i: nat, cur: seq<nat>, ids: set<Guid>)
    requires Valid(s) && i <= |snapshot|
    requires forall j :: 0 <= j < |snapshot| ==> snapshot[j] < |s.nodes| && s.nodes[snapshot[j]].id in ids
    requires forall j :: 0 <= j < |cur| ==> cur[j] < |s.nodes|
    requires forall j :: i <= j < |snapshot| ==> ScanKinds(s, s.nodes[snapshot[j]].id, 0, cur, ids) == Ok(cur)
    ensures Propagate(s, snapshot, i, cur, ids) == Ok(cur)
    decreases |snapshot| - i
  {
    if i < |snapshot| {
      PropagateFixed(s, snapshot, i + 1, cur, ids);
    }
  }

  /** The ids of the given nodes. */
  function IdSet(s: Store, ns: seq<nat>): (r: set<Guid>)
    requires forall i :: 0 <= i < |ns| ==> ns[i] < |s.nodes|
    ensures forall i :: 0 <= i < |ns| ==> s.nodes[ns[i]].id in r
    ensures forall id :: id in r ==> exists i :: 0 <= i < |ns| && s.nodes[ns[i]].id == id
  {
    set i | 0 <= i < |ns| :: s.nodes[ns[i]].id
  }

  /** Two lists with the same members have the same ids. */
  lemma IdSetMembers(s: Store, a: seq<nat>, b: seq<nat>)
    requires forall i :: 0 <= i < |a| ==> a[i] < |s.nodes|
    requires forall i :: 0 <= i < |b| ==> b[i] < |s.nodes|
    requires forall n :: n in a <==> n in b
    ensures IdSet(s, a) == IdSet(s, b)
  {
    forall id | id in IdSet(s, a) ensures id in IdSet(s, b) {
      var i :| 0 <= i < |a| && s.nodes[a[i]].id == id;
      assert a[i] in b;
    }
    forall id | id in IdSet(s, b) ensures id in IdSet(s, a) {
      var i :| 0 <= i < |b| && s.nodes[b[i]].id == id;
      assert b[i] in a;
    }
  }

  /** The nodes listed under kind `pk` whose children agree with the values. */
  function Wanted(s: Store, pk: Kind, cvs: seq<CV.ContextValue>): (r: seq<nat>)
    requires Valid(s)
    ensures forall i :: 0 <= i < |r| ==> r[i] < |s.nodes|
    ensures forall n :: n in r <==> pk in s.flatView && n in s.flatView[pk] && n < |s.nodes| && NodeMatches(s, n, cvs)
  {
    if pk in s.flatView then
      var r := Filter(s.flatView[pk], (n: nat) => n < |s.nodes| && NodeMatches(s, n, cvs));
      assert forall i :: 0 <= i < |r| ==> r[i] in r;
      r
    else []
  }

  /** What `Search` returns: every wanted node, and nothing but wanted nodes
      and top-level contexts with a walk meeting the id of a wanted node. */
  ghost predicate SearchResult(s: Store, cvs: seq<CV.ContextValue>, pk: Kind, r: seq<nat>)
    requires Valid(s)
  {
    var want := Wanted(s, pk, cvs);
    (forall n :: n in want ==> n in r)
    && forall i :: 0 <= i < |r| ==>
         r[i] < |s.nodes| && (r[i] in want || (TopLevelLast(s, r[i]) && exists id :: id in IdSet(s, want) && WalkMeets(s, r[i], id)))
  }

  /** `Search(values)`: the nodes of the values' common field-parent kind
      whose children agree with every value for some record (once per such
      record), followed by the top-level contexts that reference one of
      them. */
  function Search(s: Store, cvs: seq<CV.ContextValue>): (r: Result<seq<nat>>)
    requires Valid(s)
    ensures |cvs| == 0 ==> r == Err(AssertionFailed)
    ensures |cvs| > 0 && (exists i :: 0 <= i < |cvs| && |cvs[i].instancePath| != |cvs[0].instancePath|) ==> r == Err(AssertionFailed)
    ensures |cvs| > 0 && (forall i :: 0 <= i < |cvs| ==> |cvs[i].instancePath| == |cvs[0].instancePath|) && SharedParentKind(cvs).Err?
            ==> r == Err(SharedParentKind(cvs).error)
    ensures r.Ok? ==> |cvs| > 0 && SharedParentKind(cvs).Ok? && SearchResult(s, cvs, SharedParentKind(cvs).value, r.value)
  {
    if |cvs| == 0 then Err(AssertionFailed)
    else if exists i :: 0 <= i < |cvs| && |cvs[i].instancePath| != |cvs[0].instancePath| then Err(AssertionFailed)
    else
      var pk :- SharedParentKind(cvs);
      SearchFrom(s, cvs, pk)
  }

  /** The part of `Search` after the checks: the direct matches under
      `pk`, then propagation to the contexts referencing them. */
  function SearchFrom(s: Store, cvs: seq<CV.ContextValue>, pk: Kind): (r: Result<seq<nat>>)
    requires Valid(s) && |cvs| > 0 && forall i :: 0 <= i < |cvs| ==> |cvs[i].typePath| > 0
    ensures r.Ok? ==> SearchResult(s, cvs, pk, r.value)
  {
    var direct :- DirectOf(s, cvs, pk);
    var ids := IdSet(s, direct);
    var r :- Propagate(s, direct, 0, direct, ids);
    SearchMeaning(s, cvs, pk, direct, r);
    Ok(r)
  }

  /** The matches under `pk` before propagation; none when nothing of that
      kind was ever indexed. */
  function DirectOf(s: Store, cvs: seq<CV.ContextValue>, pk: Kind): (r: Result<seq<nat>>)
    requires Valid(s) && |cvs| > 0 && forall i :: 0 <= i < |cvs| ==> |cvs[i].typePath| > 0
    ensures r.Ok? ==> (forall n :: n in r.value <==> n in Wanted(s, pk, cvs))
                      && forall j :: 0 <= j < |r.value| ==> r.value[j] < |s.nodes|
  {
    if pk in s.flatView then
      var r := DirectMatches(s, s.flatView[pk], cvs);
      assert r.Ok? ==> forall j :: 0 <= j < |r.value| ==> r.value[j] in r.value;
      r
    else Ok([])
  }

  /** A search for a single value with a field parent goes straight to
      the matching under that parent's kind. */
  lemma SearchOne(s: Store, cv: CV.ContextValue)
    requires Valid(s) && |cv.typePath| >= 2
    ensures Search(s, [cv]) == SearchFrom(s, [cv], cv.typePath[|cv.typePath| - 2])
  {
    assert SharedParentKind([cv]) == Ok(cv.typePath[|cv.typePath| - 2]);
  }

  /** `SearchFrom` is the direct matches followed by their propagation. */
  lemma SearchFromSteps(s: Store, cvs: seq<CV.ContextValue>, pk: Kind, direct: seq<nat>, r: seq<nat>)
    requires Valid(s) && |cvs| > 0 && forall i :: 0 <= i < |cvs| ==> |cvs[i].typePath| > 0
    requires DirectOf(s, cvs, pk) == Ok(direct)
    requires Propagate(s, direct, 0, direct, IdSet(s, direct)) == Ok(r)
    ensures SearchFrom(s, cvs, pk) == Ok(r)
  {
  }

  lemma SearchMeaning(s: Store, cvs: seq<CV.ContextValue>, pk: Kind, direct: seq<nat>, r: seq<nat>)
    requires Valid(s) && |cvs| > 0
    requires forall j :: 0 <= j < |direct| ==> direct[j] < |s.nodes|
    requires forall n :: n in direct <==> n in Wanted(s, pk, cvs)
    requires Propagated(s, direct, r, IdSet(s, direct))
    ensures SearchResult(s, cvs, pk, r)
  {
    var want := Wanted(s, pk, cvs);
    IdSetMembers(s, direct, want);
    forall n | n in want ensures n in r {
      var j :| 0 <= j < |direct| && direct[j] == n;
      assert r[j] == r[..|direct|][j];
    }
    forall i | 0 <= i < |r| && i < |direct|
      ensures r[i] in direct
    {
      assert r[i] == r[..|direct|][i];
    }
  }

  // ---------------------------------------------------------------------
  // Reading the tree

  /** `GetContextNodes(type)`: the nodes created for kind `k`, in creation
      order; none when nothing of that kind was indexed. */
  function GetContextNodes(s: Store, k: Kind): (r: seq<nat>)
    requires Valid(s)
    ensures forall i :: 0 <= i < |r| ==> r[i] < |s.nodes| && s.nodes[r[i]].kind == Some(k)
    ensures k !in s.flatView ==> r == []
  {
    if k in s.flatView then s.flatView[k] else []
  }

  /** Every node an insertion creates can be found again by its kind, and
      every node that could be found before still can, at the same position. */
  lemma InsertedNodesAreListed(s: Store, cv: CV.ContextValue)
    requires Valid(s)
    ensures var t := AddOrUpdate(s, cv).store;
            (forall n :: |s.nodes| <= n < |t.nodes| ==> n in GetContextNodes(t, t.nodes[n].kind.value))
            && forall k :: |GetContextNodes(s, k)| <= |GetContextNodes(t, k)|
                           && GetContextNodes(t, k)[..|GetContextNodes(s, k)|] == GetContextNodes(s, k)
  {
  }

  /** The values held below the nodes `cs`: for each child, first everything
      below it, then its own value (`GetContextValues`, post-order). */
  function ValuesBelow(s: Store, cs: seq<nat>, fuel: nat): (r: Result<seq<CV.ContextValue>>)
    requires Valid(s) && forall i :: 0 <= i < |cs| ==> cs[i] < |s.nodes|
    ensures r.Ok? ==> forall v :: v in r.value ==> exists n :: 0 <= n < |s.nodes| && s.nodes[n].value == Some(v)
    ensures r.Err? ==> r.error == OutOfFuel && |cs| > 0
    decreases fuel, |cs|
  {
    if |cs| == 0 then Ok([])
    else if fuel == 0 then Err(OutOfFuel)
    else
      var below :- ValuesBelow(s, s.nodes[cs[0]].children, fuel - 1);
      var own := if s.nodes[cs[0]].value.Some? then [s.nodes[cs[0]].value.value] else [];
      var rest :- ValuesBelow(s, cs[1..], fuel);
      Ok(below + own + rest)
  }

  /** `GetContextValues(node)`. */
  function GetContextValues(s: Store, n: nat): (r: Result<seq<CV.ContextValue>>)
    requires Valid(s) && n < |s.nodes|
    ensures r.Ok? ==> forall v :: v in r.value ==> exists m :: 0 <= m < |s.nodes| && s.nodes[m].value == Some(v)
    ensures r.Err? ==> r.error == OutOfFuel
  {
    ValuesBelow(s, s.nodes[n].children, |s.nodes|)
  }

  /** `path` goes down the tree: each node after the first is a child of
      the one before. */
  ghost predicate DownPath(s: Store, path: seq<nat>)
  {
    forall i :: 0 <= i < |path| - 1 ==> path[i] < |s.nodes| && path[i + 1] in s.nodes[path[i]].children
  }

  /** `x` is one of `cs` or lies below one of them. */
  ghost predicate Reaches(s: Store, cs: seq<nat>, x: nat)
  {
    exists path :: |path| > 0 && path[0] in cs && path[|path| - 1] == x && DownPath(s, path)
  }

  /** Stepping from a node of `cs` to one of its children keeps below `cs`. */
  lemma ReachesBelow(s: Store, cs: seq<nat>, c: nat, x: nat)
    requires c in cs && c < |s.nodes| && Reaches(s, s.nodes[c].children, x)
    ensures Reaches(s, cs, x)
  {
    var path :| |path| > 0 && path[0] in s.nodes[c].children && path[|path| - 1] == x && DownPath(s, path);
    var p' := [c] + path;
    assert p'[1..] == path;
    assert DownPath(s, p');
  }

  /** Every node of `cs` is reached. */
  lemma ReachesSelf(s: Store, cs: seq<nat>, c: nat)
    requires c in cs
    ensures Reaches(s, cs, c)
  {
    assert DownPath(s, [c]);
  }

  /** A node reached from part of `cs` is reached from `cs`. */
  lemma ReachesSub(s: Store, a: seq<nat>, cs: seq<nat>, x: nat)
    requires (forall y :: y in a ==> y in cs) && Reaches(s, a, x)
    ensures Reaches(s, cs, x)
  {
  }

  /** A node reached from `cs` is its first node (`k == 0`), lies below the
      first node (`k == 1`), or is reached from the rest (`k == 2`). */
  lemma ReachesSplit(s: Store, cs: seq<nat>, x: nat) returns (k: nat)
    requires Reaches(s, cs, x)
    ensures |cs| > 0 && k <= 2
    ensures k == 0 ==> x == cs[0]
    ensures k == 1 ==> cs[0] < |s.nodes| && Reaches(s, s.nodes[cs[0]].children, x)
    ensures k == 2 ==> Reaches(s, cs[1..], x)
  {
    var path :| |path| > 0 && path[0] in cs && path[|path| - 1] == x && DownPath(s, path);
    if path[0] != cs[0] {
      assert path[0] in cs[1..];
      k := 2;
    } else if |path| > 1 {
      var p' := path[1..];
      assert DownPath(s, p');
      k := 1;
    } else {
      k := 0;
    }
  }

  /** One step of `ValuesBelow` on a non-empty list: the values below the
      first node, its own value, then the values below the rest. */
  lemma ValuesBelowStep(s: Store, cs: seq<nat>, fuel: nat)
    requires Valid(s) && (forall i :: 0 <= i < |cs| ==> cs[i] < |s.nodes|) && ValuesBelow(s, cs, fuel).Ok? && |cs| > 0
    ensures fuel > 0 && (forall i :: 0 <= i < |cs[1..]| ==> cs[1..][i] < |s.nodes|)
    ensures ValuesBelow(s, s.nodes[cs[0]].children, fuel - 1).Ok? && ValuesBelow(s, cs[1..], fuel).Ok?
    ensures ValuesBelow(s, cs, fuel).value
            == ValuesBelow(s, s.nodes[cs[0]].children, fuel - 1).value
               + (if s.nodes[cs[0]].value.Some? then [s.nodes[cs[0]].value.value] else [])
               + ValuesBelow(s, cs[1..], fuel).value
  {
    assert forall i :: 0 <= i < |cs[1..]| ==> cs[1..][i] == cs[i + 1];
  }

  /** Every value collected below `cs` is held by a node among or below
      `cs`. */
  lemma {:induction false} ValuesBelowSound(s: Store, cs: seq<nat>, fuel: nat, v: CV.ContextValue)
    requires Valid(s) && (forall i :: 0 <= i < |cs| ==> cs[i] < |s.nodes|) && ValuesBelow(s, cs, fuel).Ok?
    requires v in ValuesBelow(s, cs, fuel).value
    ensures exists x: nat :: x < |s.nodes| && Reaches(s, cs, x) && s.nodes[x].value == Some(v)
    decreases fuel, |cs|
  {
    assert |cs| > 0;
    ValuesBelowStep(s, cs, fuel);
    var c := cs[0];
    var ch := s.nodes[c].children;
    var below := ValuesBelow(s, ch, fuel - 1).value;
    var own := if s.nodes[c].value.Some? then [s.nodes[c].value.value] else [];
    var rest := ValuesBelow(s, cs[1..], fuel).value;
    assert v in below || v in own || v in rest;
    if v in below {
      ValuesBelowSound(s, ch, fuel - 1, v);
      var x: nat :| x < |s.nodes| && Reaches(s, ch, x) && s.nodes[x].value == Some(v);
      ReachesBelow(s, cs, c, x);
      assert x < |s.nodes| && Reaches(s, cs, x) && s.nodes[x].value == Some(v);
    } else if v in own {
      ReachesSelf(s, cs, c);
      assert c < |s.nodes| && Reaches(s, cs, c) && s.nodes[c].value == Some(v);
    } else {
      ValuesBelowSound(s, cs[1..], fuel, v);
      var x: nat :| x < |s.nodes| && Reaches(s, cs[1..], x) && s.nodes[x].value == Some(v);
      ReachesSub(s, cs[1..], cs, x);
      assert x < |s.nodes| && Reaches(s, cs, x) && s.nodes[x].value == Some(v);
    }
  }

  /** Every value held by a node among or below `cs` is collected. */
  lemma {:induction false} ValuesBelowComplete(s: Store, cs: seq<nat>, fuel: nat, x: nat)
    requires Valid(s) && (forall i :: 0 <= i < |cs| ==> cs[i] < |s.nodes|) && ValuesBelow(s, cs, fuel).Ok?
    requires x < |s.nodes| && Reaches(s, cs, x) && s.nodes[x].value.Some?
    ensures s.nodes[x].value.value in ValuesBelow(s, cs, fuel).value
    decreases fuel, |cs|
  {
    var k := ReachesSplit(s, cs, x);
    ValuesBelowStep(s, cs, fuel);
    if k == 0 {
      CollectedFrom(s, cs, fuel, s.nodes[x].value.value);
    } else if k == 1 {
      ValuesBelowComplete(s, s.nodes[cs[0]].children, fuel - 1, x);
      CollectedFrom(s, cs, fuel, s.nodes[x].value.value);
    } else {
      ValuesBelowComplete(s, cs[1..], fuel, x);
      CollectedFrom(s, cs, fuel, s.nodes[x].value.value);
    }
  }

  /** A value collected below the first node, held by the first node, or
      collected below the rest is collected below the whole list. */
  lemma CollectedFrom(s: Store, cs: seq<nat>, fuel: nat, v: CV.ContextValue)
    requires Valid(s) && (forall i :: 0 <= i < |cs| ==> cs[i] < |s.nodes|) && ValuesBelow(s, cs, fuel).Ok? && |cs| > 0
    ensures fuel > 0 && ValuesBelow(s, s.nodes[cs[0]].children, fuel - 1).Ok? && ValuesBelow(s, cs[1..], fuel).Ok?
    ensures v in ValuesBelow(s, s.nodes[cs[0]].children, fuel - 1).value || s.nodes[cs[0]].value == Some(v)
            || v in ValuesBelow(s, cs[1..], fuel).value
            ==> v in ValuesBelow(s, cs, fuel).value
  {
    ValuesBelowStep(s, cs, fuel);
    var own := if s.nodes[cs[0]].value.Some? then [s.nodes[cs[0]].value.value] else [];
    InConcat3(ValuesBelow(s, s.nodes[cs[0]].children, fuel - 1).value, own, ValuesBelow(s, cs[1..], fuel).value, v);
  }

  /** The values below a list of nodes are those below its first part
      followed by those below the rest. */
  lemma {:induction false} ValuesBelowAppend(s: Store, a: seq<nat>, b: seq<nat>, fuel: nat)
    requires Valid(s) && (forall i :: 0 <= i < |a| ==> a[i] < |s.nodes|) && (forall i :: 0 <= i < |b| ==> b[i] < |s.nodes|)
    ensures ValuesBelow(s, a + b, fuel).Ok? ==>
              (ValuesBelow(s, a, fuel).Ok? && ValuesBelow(s, b, fuel).Ok?
               && ValuesBelow(s, a + b, fuel).value == ValuesBelow(s, a, fuel).value + ValuesBelow(s, b, fuel).value)
    decreases |a|
  {
    if |a| == 0 {
      assert a + b == b;
    } else if ValuesBelow(s, a + b, fuel).Ok? {
      var a' := a[1..];
      assert (a + b)[0] == a[0] && (a + b)[1..] == a' + b;
      assert forall i :: 0 <= i < |a'| ==> a'[i] == a[i + 1];
      ValuesBelowAppend(s, a', b, fuel);
      var c := a[0];
      var x := ValuesBelow(s, s.nodes[c].children, fuel - 1).value;
      var own := if s.nodes[c].value.Some? then [s.nodes[c].value.value] else [];
      assert ValuesBelow(s, a + b, fuel).value == x + own + ValuesBelow(s, a' + b, fuel).value;
      assert ValuesBelow(s, a, fuel).value == x + own + ValuesBelow(s, a', fuel).value;
      ConcatAssoc(x + own, ValuesBelow(s, a', fuel).value, ValuesBelow(s, b, fuel).value);
    }
  }

  /** Post-order: the values below one node are everything below its
      children, then its own value. */
  lemma ValuesBelowOne(s: Store, c: nat, fuel: nat)
    requires Valid(s) && c < |s.nodes| && ValuesBelow(s, [c], fuel).Ok?
    ensures fuel > 0 && ValuesBelow(s, s.nodes[c].children, fuel - 1).Ok?
    ensures ValuesBelow(s, [c], fuel).value
            == ValuesBelow(s, s.nodes[c].children, fuel - 1).value + (if s.nodes[c].value.Some? then [s.nodes[c].value.value] else [])
  {
    assert [c][1..] == [];
  }

  /** `GetContextValues(node)` collects exactly the values held by the
      node's proper descendants. */
  lemma GetContextValuesMembers(s: Store, n: nat, v: CV.ContextValue)
    requires Valid(s) && n < |s.nodes| && GetContextValues(s, n).Ok?
    ensures v in GetContextValues(s, n).value
            <==> exists x: nat :: x < |s.nodes| && Reaches(s, s.nodes[n].children, x) && s.nodes[x].value == Some(v)
  {
    var cs := s.nodes[n].children;
    if v in GetContextValues(s, n).value {
      ValuesBelowSound(s, cs, |s.nodes|, v);
    }
    if exists x: nat :: x < |s.nodes| && Reaches(s, cs, x) && s.nodes[x].value == Some(v) {
      var x: nat :| x < |s.nodes| && Reaches(s, cs, x) && s.nodes[x].value == Some(v);
      ValuesBelowComplete(s, cs, |s.nodes|, x);
    }
  }

  /** The values held directly by the children, in child order. */
  function ChildValues(s: Store, cs: seq<nat>): (r: seq<CV.ContextValue>)
    requires forall i :: 0 <= i < |cs| ==> cs[i] < |s.nodes|
  {
    if |cs| == 0 then []
    else (if s.nodes[cs[0]].value.Some? then [s.nodes[cs[0]].value.value] else []) + ChildValues(s, cs[1..])
  }

  /** Under a node whose children are all leaves, the post-order collection
      is just the children's own values in order. */
  lemma {:induction false} LeafValues(s: Store, cs: seq<nat>, fuel: nat)
    requires Valid(s) && forall i :: 0 <= i < |cs| ==> cs[i] < |s.nodes| && s.nodes[cs[i]].children == []
    requires |cs| > 0 ==> fuel > 0
    ensures ValuesBelow(s, cs, fuel) == Ok(ChildValues(s, cs))
    decreases |cs|
  {
    if |cs| > 0 {
      assert forall i :: 0 <= i < |cs[1..]| ==> cs[1..][i] == cs[i + 1];
      LeafValues(s, cs[1..], fuel);
      assert ValuesBelow(s, s.nodes[cs[0]].children, fuel - 1) == Ok([]);
      var own := if s.nodes[cs[0]].value.Some? then [s.nodes[cs[0]].value.value] else [];
      assert ValuesBelow(s, cs, fuel) == Ok([] + own + ChildValues(s, cs[1..]));
      assert [] + own + ChildValues(s, cs[1..]) == ChildValues(s, cs);
    }
  }

  /** One step of a `ContextNodePath`. */
  datatype NodeTypeInstance = NodeTypeInstance(kind: Option<Kind>, instanceId: Guid)

  /** `ContextNodePath`: the kind and name of the topmost context and the
      steps from it down to the node. */
  datatype ContextNodePath = ContextNodePath(kind: Kind, name: string, path: seq<NodeTypeInstance>)

  /** The nodes from the topmost ancestor below the root down to `n`: the
      climb stops at a missing parent or at one with the empty id. */
  function UpPath(s: Store, n: nat, fuel: nat): (r: Result<seq<nat>>)
    requires Valid(s) && n < |s.nodes|
    ensures r.Ok? ==> |r.value| > 0 && r.value[|r.value| - 1] == n
    ensures r.Ok? ==> forall i :: 0 <= i < |r.value| ==> r.value[i] < |s.nodes|
    ensures r.Ok? ==> forall i :: 0 < i < |r.value| ==> s.nodes[r.value[i]].parent == Some(r.value[i - 1])
    ensures r.Ok? ==> forall i :: 0 <= i < |r.value| - 1 ==> s.nodes[r.value[i]].id != EmptyGuid
    ensures r.Ok? ==> var top := s.nodes[r.value[0]];
                      top.parent.None? || s.nodes[top.parent.value].id == EmptyGuid
    ensures r.Err? ==> r.error == OutOfFuel
    decreases fuel
  {
    match s.nodes[n].parent
    case None => Ok([n])
    case Some(pa) =>
      if s.nodes[pa].id == EmptyGuid then Ok([n])
      else if fuel == 0 then Err(OutOfFuel)
      else
        var above :- UpPath(s, pa, fuel - 1);
        var r := above + [n];
        assert r[|r| - 2] == pa && r[..|r| - 1] == above;
        assert forall i :: 0 <= i < |above| ==> r[i] == above[i];
        Ok(r)
  }

  /** `GetPath(node)`: the kind/id steps from the topmost context down to the
      node, named after the topmost kind. A topmost node with no kind (the
      root itself) has no name to read. */
  function GetPath(s: Store, n: nat): (r: Result<ContextNodePath>)
    requires Valid(s) && n < |s.nodes|
    ensures r.Ok? <==> UpPath(s, n, |s.nodes|).Ok? && s.nodes[UpPath(s, n, |s.nodes|).value[0]].kind.Some?
    ensures r.Ok? ==> var up := UpPath(s, n, |s.nodes|).value;
                      |r.value.path| == |up| && r.value.path[|up| - 1] == NodeTypeInstance(s.nodes[n].kind, s.nodes[n].id)
                      && (forall i :: 0 <= i < |up| ==> r.value.path[i] == NodeTypeInstance(s.nodes[up[i]].kind, s.nodes[up[i]].id))
                      && Some(r.value.kind) == s.nodes[up[0]].kind && r.value.name == r.value.kind.name
    ensures r.Err? ==> r.error in {OutOfFuel, NullReference}
  {
    var up :- UpPath(s, n, |s.nodes|);
    match s.nodes[up[0]].kind
    case None => Err(NullReference)
    case Some(k) =>
      Ok(ContextNodePath(k, k.name, seq(|up|, i requires 0 <= i < |up| => NodeTypeInstance(s.nodes[up[i]].kind, s.nodes[up[i]].id))))
  }

  /** In a tree whose only node with the empty id is the root, and where
      every other node hangs under a parent, the steps of `GetPath` are the
      nodes of `GetParentInstancePath`: the chain of ancestors without the
      root. */
  lemma {:induction false} UpPathIsChain(s: Store, n: nat, chainFuel: nat, upFuel: nat)
    requires Valid(s) && n < |s.nodes| && UpPath(s, n, upFuel).Ok? && Chain(s, n, chainFuel).Ok?
    requires s.nodes[0].id == EmptyGuid
    requires forall m :: 0 < m < |s.nodes| ==> s.nodes[m].id != EmptyGuid && s.nodes[m].parent.Some?
    requires n != 0
    ensures Chain(s, n, chainFuel).value[1..] == UpPath(s, n, upFuel).value
    decreases upFuel
  {
    var pa := s.nodes[n].parent.value;
    if pa != 0 {
      UpPathIsChain(s, pa, chainFuel - 1, upFuel - 1);
      var c := Chain(s, pa, chainFuel - 1).value;
      assert (c + [n])[1..] == c[1..] + [n];
    } else {
      assert Chain(s, pa, chainFuel - 1) == Ok([0]);
    }
  }

  /** Hence the instance ids along `GetPath` are `GetParentInstancePath`. */
  lemma GetPathIds(s: Store, n: nat)
    requires Valid(s) && n < |s.nodes| && n != 0
    requires s.nodes[0].id == EmptyGuid
    requires forall m :: 0 < m < |s.nodes| ==> s.nodes[m].id != EmptyGuid && s.nodes[m].parent.Some?
    requires GetPath(s, n).Ok? && GetParentInstancePath(s, n).Ok?
    ensures var p := GetPath(s, n).value.path;
            GetParentInstancePath(s, n).value == seq(|p|, i requires 0 <= i < |p| => p[i].instanceId)
  {
    UpPathIsChain(s, n, |s.nodes|, |s.nodes|);
  }

  /** Following a concatenation of ids is following the first part, then
      the second from where it ends. */
  lemma {:induction false} FollowAppend(s: Store, n: nat, a: seq<Guid>, b: seq<Guid>)
    requires Valid(s) && n < |s.nodes|
    ensures Follow(s, n, a + b) == match Follow(s, n, a) case None => None case Some(m) => Follow(s, m, b)
    decreases |a|
  {
    if |a| == 0 {
      assert a + b == b;
    } else {
      assert (a + b)[0] == a[0] && (a + b)[1..] == a[1..] + b;
      match SingleChildWithId(s, n, a[0])
      case None =>
      case Some(c) => FollowAppend(s, c, a[1..], b);
    }
  }

  /** The children of `n` of kind `k` (`Children.Where(c => c.Type == k)`). */
  function ChildrenOfKind(s: Store, n: nat, k: Kind): (r: seq<nat>)
    requires Valid(s) && n < |s.nodes|
    ensures forall c :: c in r <==> c in s.nodes[n].children && c < |s.nodes| && s.nodes[c].kind == Some(k)
  {
    Filter(s.nodes[n].children, (c: nat) => c < |s.nodes| && s.nodes[c].kind == Some(k))
  }

  /** `m` is reached from `n` by descending, for each path position from `i`
      up to (not including) `j`, to a child of that position's kind. */
  ghost predicate KindReach(s: Store, n: nat, cp: seq<F.ContextPath>, i: nat, j: nat, m: nat)
    requires Valid(s) && n < |s.nodes| && (i >= j || j <= |cp|)
    decreases j - i
  {
    if i >= j then m == n
    else exists c :: c in ChildrenOfKind(s, n, cp[i].kind) && KindReach(s, c, cp, i + 1, j, m)
  }

  /** The middle loop of `TryGetContextNode`: from path position `i` up to
      the next-to-last, descend to the single child of the position's kind;
      a missing child ends the walk without a node. The result is the node
      reached and the ids passed on the way. */
  function DescendByKind(s: Store, n: nat, cp: seq<F.ContextPath>, i: nat): (r: Result<Option<(nat, seq<Guid>)>>)
    requires Valid(s) && n < |s.nodes| && i >= 1
    ensures r.Ok? && r.value.Some? ==>
              var (m, ids) := r.value.value;
              m < |s.nodes| && |ids| == (if i < |cp| - 1 then |cp| - 1 - i else 0)
              && (UniqueChildIds(s) ==> Follow(s, n, ids) == Some(m))
              && (|ids| > 0 ==> s.nodes[m].kind == Some(cp[|cp| - 2].kind))
    ensures r.Err? ==> r.error == NotSingle
    decreases |cp| - i
  {
    if i >= |cp| - 1 then Ok(Some((n, [])))
    else
      var ks := ChildrenOfKind(s, n, cp[i].kind);
      if |ks| > 1 then Err(NotSingle)
      else if |ks| == 0 then Ok(None)
      else
        var c := ks[0];
        assert c in ks;
        var j :| 0 <= j < |s.nodes[n].children| && s.nodes[n].children[j] == c;
        var below :- DescendByKind(s, c, cp, i + 1);
        match below
        case None => Ok(None)
        case Some((m, ids)) =>
          FollowStep(s, n, j, m, ids);
          Ok(Some((m, [s.nodes[c].id] + ids)))
  }

  /** What the descent by kinds means: a node it reaches is reached by
      stepping to children of the path's kinds, and when it reaches none,
      some node so reached has no child of the next kind. */
  lemma DescendByKindMeaning(s: Store, n: nat, cp: seq<F.ContextPath>, i: nat)
    requires Valid(s) && n < |s.nodes| && i >= 1
    ensures var r := DescendByKind(s, n, cp, i);
            && (r.Ok? && r.value.Some? ==> KindReach(s, n, cp, i, if i < |cp| - 1 then |cp| - 1 else i, r.value.value.0))
            && (r == Ok(None) ==>
                  exists m: nat, j: nat :: i <= j < |cp| - 1 && m < |s.nodes| && KindReach(s, n, cp, i, j, m)
                                         && |ChildrenOfKind(s, m, cp[j].kind)| == 0)
  {
    DescendByKindReaches(s, n, cp, i);
    DescendByKindStops(s, n, cp, i);
  }

  /** A node the descent reaches is reached by the path's kinds. */
  lemma {:induction false} DescendByKindReaches(s: Store, n: nat, cp: seq<F.ContextPath>, i: nat)
    requires Valid(s) && n < |s.nodes| && i >= 1
    ensures var r := DescendByKind(s, n, cp, i);
            r.Ok? && r.value.Some? ==> KindReach(s, n, cp, i, if i < |cp| - 1 then |cp| - 1 else i, r.value.value.0)
    decreases |cp| - i
  {
    if i < |cp| - 1 {
      var ks := ChildrenOfKind(s, n, cp[i].kind);
      if |ks| == 1 {
        var c := ks[0];
        assert c in ks;
        DescendByKindReaches(s, c, cp, i + 1);
        var below := DescendByKind(s, c, cp, i + 1);
        if below.Ok? && below.value.Some? {
          assert KindReach(s, n, cp, i, |cp| - 1, below.value.value.0);
        }
      }
    } else {
      assert KindReach(s, n, cp, i, i, n);
    }
  }

  /** A descent that reaches no node stopped at a node, reached by the
      path's kinds, with no child of the next kind. */
  lemma {:induction false} DescendByKindStops(s: Store, n: nat, cp: seq<F.ContextPath>, i: nat)
    requires Valid(s) && n < |s.nodes| && i >= 1
    ensures DescendByKind(s, n, cp, i) == Ok(None) ==>
              exists m: nat, j: nat :: i <= j < |cp| - 1 && m < |s.nodes| && KindReach(s, n, cp, i, j, m)
                                     && |ChildrenOfKind(s, m, cp[j].kind)| == 0
    decreases |cp| - i
  {
    if i < |cp| - 1 {
      var ks := ChildrenOfKind(s, n, cp[i].kind);
      if |ks| == 0 {
        assert KindReach(s, n, cp, i, i, n);
      } else if |ks| == 1 {
        var c := ks[0];
        assert c in ks;
        DescendByKindStops(s, c, cp, i + 1);
        if DescendByKind(s, c, cp, i + 1) == Ok(None) {
          var m: nat, j: nat :| i + 1 <= j < |cp| - 1 && m < |s.nodes| && KindReach(s, c, cp, i + 1, j, m)
                                && |ChildrenOfKind(s, m, cp[j].kind)| == 0;
          assert KindReach(s, n, cp, i, j, m);
        }
      }
    }
  }

  /** Following a child's id and then a path from that child. */
  lemma FollowStep(s: Store, n: nat, j: nat, m: nat, ids: seq<Guid>)
    requires Valid(s) && n < |s.nodes| && j < |s.nodes[n].children|
    requires UniqueChildIds(s) ==> Follow(s, s.nodes[n].children[j], ids) == Some(m)
    ensures UniqueChildIds(s) ==> Follow(s, n, [s.nodes[s.nodes[n].children[j]].id] + ids) == Some(m)
  {
    if UniqueChildIds(s) {
      UniqueIdIsSingle(s, n, j);
      assert ([s.nodes[s.nodes[n].children[j]].id] + ids)[1..] == ids;
    }
  }

  /** The outcome of `TryGetContextNode` when it does not throw. */
  datatype Lookup = Found(node: nat, instanceIds: seq<Guid>) | NotFound

  /** `TryGetContextNode(field, rootId, recordNumber)`: starting at the
      single top-level context with id `rootId`, descend by the kinds of the
      field's context path, then pick the child of the field's kind that
      holds the given record. Every child of the field's kind is examined,
      so one without a value dereferences null. */
  function TryGetContextNode(s: Store, field: F.Field, rootId: Guid, rec: int): (r: Result<Lookup>)
    requires Valid(s)
    ensures |ChildrenWithId(s, 0, rootId)| == 0 ==> r == Err(EmptySequence)
    ensures |ChildrenWithId(s, 0, rootId)| > 1 ==> r == Err(NotSingle)
    ensures r.Ok? && r.value.Found? ==>
              var cp := field.contextPath;
              var (x, ids) := (r.value.node, r.value.instanceIds);
              |cp| > 0 && x < |s.nodes|
              && s.nodes[x].kind == Some(cp[|cp| - 1].kind)
              && s.nodes[x].value.Some? && s.nodes[x].value.value.recordNumber == rec
              && |ids| == (if |cp| < 2 then 2 else |cp|) && ids[0] == rootId && ids[|ids| - 1] == s.nodes[x].id
              && (UniqueChildIds(s) ==> Follow(s, 0, ids) == Some(x))
    ensures r.Err? ==> r.error in {EmptySequence, NotSingle, IndexOutOfRange, NullReference}
    ensures |field.contextPath| == 0 && |ChildrenWithId(s, 0, rootId)| == 1 ==>
              var top := SingleChildWithId(s, 0, rootId).value;
              top < |s.nodes| && r == (if |s.nodes[top].children| == 0 then Ok(NotFound) else Err(IndexOutOfRange))
  {
    var roots := ChildrenWithId(s, 0, rootId);
    if |roots| == 0 then Err(EmptySequence)
    else if |roots| > 1 then Err(NotSingle)
    else
      var top := SingleChildWithId(s, 0, rootId).value;
      assert roots[0] in roots;
      var cp := field.contextPath;
      if |cp| == 0 then
        // No descent happens, and the filter reads the last kind only
        // when there is a child to test.
        if |s.nodes[top].children| == 0 then Ok(NotFound) else Err(IndexOutOfRange)
      else
        var d :- DescendByKind(s, top, cp, 1);
        match d
        case None => Ok(NotFound)
        case Some((m, path)) =>
          var holder :- FieldHolder(s, m, cp[|cp| - 1].kind, rec);
          match holder
          case None => Ok(NotFound)
          case Some(x) =>
            TryGetFollows(s, top, m, x, rootId, path);
            Ok(Found(x, [rootId] + path + [s.nodes[x].id]))
  }

  /** How a lookup that does not throw comes about: the top-level context is
      unique, the descent by kinds succeeds, and either it reaches no node
      (`NotFound`) or the field holder search on the node it reaches decides
      the outcome. */
  lemma TryGetContextNodeSteps(s: Store, field: F.Field, rootId: Guid, rec: int)
      returns (top: nat, d: Option<(nat, seq<Guid>)>)
    requires Valid(s) && TryGetContextNode(s, field, rootId, rec).Ok?
    ensures |ChildrenWithId(s, 0, rootId)| == 1 && SingleChildWithId(s, 0, rootId) == Some(top) && top < |s.nodes|
    ensures DescendByKind(s, top, field.contextPath, 1) == Ok(d)
    ensures d.None? ==> TryGetContextNode(s, field, rootId, rec).value == NotFound
    ensures d.Some? ==> d.value.0 < |s.nodes|
    ensures d.Some? && |field.contextPath| == 0 ==>
              d.value.0 == top && |s.nodes[top].children| == 0 && TryGetContextNode(s, field, rootId, rec).value == NotFound
    ensures d.Some? && |field.contextPath| > 0 ==>
              var h := FieldHolder(s, d.value.0, field.contextPath[|field.contextPath| - 1].kind, rec);
              h.Ok? && (h.value.None? <==> TryGetContextNode(s, field, rootId, rec).value == NotFound)
              && (h.value.Some? ==> TryGetContextNode(s, field, rootId, rec).value.Found?
                                    && TryGetContextNode(s, field, rootId, rec).value.node == h.value.value)
  {
    top := SingleChildWithId(s, 0, rootId).value;
    d := DescendByKind(s, top, field.contextPath, 1).value;
  }

  /** A node found is a child of the field's kind under a node reached from
      the top-level context by descending through the path's kinds. */
  lemma TryGetContextNodeFound(s: Store, field: F.Field, rootId: Guid, rec: int)
    requires Valid(s) && TryGetContextNode(s, field, rootId, rec).Ok? && TryGetContextNode(s, field, rootId, rec).value.Found?
    ensures SingleChildWithId(s, 0, rootId).Some?
    ensures var cp := field.contextPath;
            var last := if 1 < |cp| - 1 then |cp| - 1 else 1;
            |cp| > 0
            && exists m: nat :: m < |s.nodes|
                 && KindReach(s, SingleChildWithId(s, 0, rootId).value, cp, 1, last, m)
                 && TryGetContextNode(s, field, rootId, rec).value.node in ChildrenOfKind(s, m, cp[|cp| - 1].kind)
  {
    var top, d := TryGetContextNodeSteps(s, field, rootId, rec);
    DescendByKindMeaning(s, top, field.contextPath, 1);
  }

  /** `NotFound` means either the descent by kinds stopped at a node with no
      child of the next kind, or it reached a node none of whose children of
      the field's kind holds the record, or the field has no context path and
      the top-level context has no children, so the last kind is never read. */
  lemma TryGetContextNodeNotFound(s: Store, field: F.Field, rootId: Guid, rec: int)
    requires Valid(s) && TryGetContextNode(s, field, rootId, rec) == Ok(NotFound)
    ensures SingleChildWithId(s, 0, rootId).Some?
    ensures var top := SingleChildWithId(s, 0, rootId).value;
            var cp := field.contextPath;
            (|cp| > 0 && NotFoundOnPath(s, top, cp, rec))
            || (|cp| == 0 && top < |s.nodes| && |s.nodes[top].children| == 0)
  {
    var top, d := TryGetContextNodeSteps(s, field, rootId, rec);
    if |field.contextPath| > 0 {
      NotFoundOnPathHolds(s, field, rec, top, d);
    }
  }

  /** The two ways a lookup along a non-empty context path finds nothing
      under the top-level context `top`. */
  ghost predicate NotFoundOnPath(s: Store, top: nat, cp: seq<F.ContextPath>, rec: int)
    requires Valid(s) && top < |s.nodes| && |cp| > 0
  {
    var last := if 1 < |cp| - 1 then |cp| - 1 else 1;
    (exists m: nat, j: nat :: 1 <= j < |cp| - 1 && m < |s.nodes| && KindReach(s, top, cp, 1, j, m)
                            && |ChildrenOfKind(s, m, cp[j].kind)| == 0)
    || (exists m: nat :: m < |s.nodes| && KindReach(s, top, cp, 1, last, m)
                       && forall c :: c in ChildrenOfKind(s, m, cp[|cp| - 1].kind) ==>
                                        s.nodes[c].value.Some? && s.nodes[c].value.value.recordNumber != rec)
  }

  /** A descent that reaches no node, or a node with no holder of the
      record, is a lookup that finds nothing. */
  lemma NotFoundOnPathHolds(s: Store, field: F.Field, rec: int, top: nat, d: Option<(nat, seq<Guid>)>)
    requires Valid(s) && |field.contextPath| > 0 && top < |s.nodes|
    requires DescendByKind(s, top, field.contextPath, 1) == Ok(d)
    requires d.Some? ==> d.value.0 < |s.nodes|
    requires d.Some? ==> FieldHolder(s, d.value.0, field.contextPath[|field.contextPath| - 1].kind, rec) == Ok(None)
    ensures NotFoundOnPath(s, top, field.contextPath, rec)
  {
    var cp := field.contextPath;
    DescendByKindMeaning(s, top, cp, 1);
    if d.Some? {
      var m := d.value.0;
      var last := if 1 < |cp| - 1 then |cp| - 1 else 1;
      assert KindReach(s, top, cp, 1, last, m);
      FieldHolderNone(s, m, cp[|cp| - 1].kind, rec);
    }
  }

  /** No holder found: every child of the kind holds a value, of another
      record. */
  lemma FieldHolderNone(s: Store, m: nat, k: Kind, rec: int)
    requires Valid(s) && m < |s.nodes| && FieldHolder(s, m, k, rec) == Ok(None)
    ensures forall c :: c in ChildrenOfKind(s, m, k) ==> s.nodes[c].value.Some? && s.nodes[c].value.value.recordNumber != rec
  {
    forall c | c in ChildrenOfKind(s, m, k)
      ensures s.nodes[c].value.Some? && s.nodes[c].value.value.recordNumber != rec
    {
      var j :| 0 <= j < |s.nodes[m].children| && s.nodes[m].children[j] == c;
    }
  }

  /** The last step of `TryGetContextNode`: among the children of `m` of
      the field's kind, the single one holding record `rec`. A child of that
      kind with no value dereferences null; two holders fail
      `SingleOrDefault`. */
  function FieldHolder(s: Store, m: nat, k: Kind, rec: int): (r: Result<Option<nat>>)
    requires Valid(s) && m < |s.nodes|
    ensures r.Ok? && r.value.Some? ==>
              var x := r.value.value;
              x in s.nodes[m].children && x < |s.nodes| && s.nodes[x].kind == Some(k)
              && s.nodes[x].value.Some? && s.nodes[x].value.value.recordNumber == rec
    ensures r == Ok(None) <==> (forall j :: 0 <= j < |s.nodes[m].children| && s.nodes[s.nodes[m].children[j]].kind == Some(k)
                                  ==> s.nodes[s.nodes[m].children[j]].value.Some?)
                               && |SlotHolders(s, s.nodes[m].children, k, rec)| == 0
    ensures r.Err? ==> r.error in {NullReference, NotSingle}
  {
    var cs := s.nodes[m].children;
    if exists j :: 0 <= j < |cs| && s.nodes[cs[j]].kind == Some(k) && s.nodes[cs[j]].value.None? then Err(NullReference)
    else
      var h := SlotHolders(s, cs, k, rec);
      if |h| > 1 then Err(NotSingle)
      else if |h| == 0 then Ok(None)
      else
        assert h[0] in h;
        Ok(Some(h[0]))
  }

  lemma TryGetFollows(s: Store, top: nat, m: nat, x: nat, rootId: Guid, path: seq<Guid>)
    requires Valid(s) && top < |s.nodes| && m < |s.nodes| && x in s.nodes[m].children && x < |s.nodes|
    requires SingleChildWithId(s, 0, rootId) == Some(top)
    requires UniqueChildIds(s) ==> Follow(s, top, path) == Some(m)
    ensures UniqueChildIds(s) ==> Follow(s, 0, [rootId] + path + [s.nodes[x].id]) == Some(x)
  {
    if UniqueChildIds(s) {
      FollowAppend(s, 0, [rootId], path);
      FollowAppend(s, 0, [rootId] + path, [s.nodes[x].id]);
      var j :| 0 <= j < |s.nodes[m].children| && s.nodes[m].children[j] == x;
      UniqueIdIsSingle(s, m, j);
      assert [s.nodes[x].id][1..] == [];
    }
  }

  /** `GetRootType(rootId)`: the kind of the single top-level context with
      that id. */
  function GetRootType(s: Store, rootId: Guid): (r: Result<Option<Kind>>)
    requires Valid(s)
    ensures r.Ok? <==> |ChildrenWithId(s, 0, rootId)| == 1
    ensures r.Ok? ==> r.value == s.nodes[SingleChildWithId(s, 0, rootId).value].kind
    ensures r.Err? ==> r.error == (if |ChildrenWithId(s, 0, rootId)| == 0 then EmptySequence else NotSingle)
  {
    match SingleChildWithId(s, 0, rootId)
    case Some(c) => Ok(s.nodes[c].kind)
    case None => if |ChildrenWithId(s, 0, rootId)| == 0 then Err(EmptySequence) else Err(NotSingle)
  }

  /** With unique child ids, a root type can be read exactly for the ids of
      top-level contexts. */
  lemma GetRootTypeIffChild(s: Store, rootId: Guid)
    requires Valid(s) && UniqueChildIds(s)
    ensures GetRootType(s, rootId).Ok? <==> HasChild(s, 0, rootId)
  {
    if HasChild(s, 0, rootId) {
      var j :| 0 <= j < |s.nodes[0].children| && s.nodes[s.nodes[0].children[j]].id == rootId;
      UniqueIdIsSingle(s, 0, j);
    } else {
      NoChildWithId(s, 0, rootId);
    }
  }
}
